=== FILE: README.md ===
# trivia-run synchronisation core, in Dafny

This project models how the trivia-run backend keeps its clients in sync, and
proves properties of that model. Trivia-run is a trivia game backend:
administrators edit questions, teams and guesses, and players see a redacted
view. Five pieces are covered:

- **The trivia socket** (`shared/trivia-ws`).
  - A field-schema validator.
  - The `guess`/`guess2` message kinds and their placeholder handlers.
  - The `{kind, token, message}` envelope.
  - The client's pending-request table with its 5-second timeout.
  - The server's validate/dispatch/echo path.
  - The admin panel's copy of the client.
  - The `Builder` patch algebra.
- **The RPC servers.**
  - The socket.io RPC server of the backend image and of the game-socket library, which behave the same way.
  - The JSON-RPC session server in `shared/ws`, with its lazily created sessions, action dispatch and two-round orphan sweep.
  - The player client in the game-socket library, with its local store and listeners.
- **The state updates.**
  - The `admin/update` and `game/update` actions.
  - The redaction that turns admin documents into what players may see.
  - The reducers, whose slices merge documents last-write-wins by `_modified`.
- **The admin handlers.**
  - Admin tokens and the admin room guard.
  - The upserts and their broadcasts, the question order and the admin password.
  - The game settings, and file-upload naming.
- **Room names and the live-document filter.**

Each module names the source file it follows. Values are `Json.Value` and
documents are `Docs.Doc`. The database is a `Store` value. The clock and the id
generators are an `Oracle` passed in. A handler's side effects come back as an
`Effect` value.

Two points about the code:

- A `game_req` whose message fails validation gets no answer
  (`shared/trivia-ws/src/server_socket.ts:19-31`); `ServerSocket.Respond` does
  the same.
- The message files import a class-style `Validator` with `stringValidator` and
  `booleanValidator`, which is not part of this model. They are modelled with
  the semantics of `validate`, `stringField` and `booleanField` in
  `shared/trivia-ws/src/validator.ts`.

## Model

| member | source | states |
|---|---|---|
| Validator.RunCheckers | shared/trivia-ws/src/validator.ts:15-24 | The checker loop succeeds exactly when every entry's checker accepts the property of the same key (a missing property is checked as `undefined`). |
| Validator.Validate | shared/trivia-ws/src/validator.ts:5-25 | A falsy value or a non-object is rejected. Otherwise the value is accepted exactly when every checker accepts. |
| Validator.StringField | shared/trivia-ws/src/validator.ts:27-32 | Accepts exactly strings and returns them unchanged. |
| Validator.BooleanField | shared/trivia-ws/src/validator.ts:34-39 | Accepts exactly booleans and returns them unchanged. |
| Validator.UnknownField | shared/trivia-ws/src/validator.ts:41-43 | Accepts every value and returns it unchanged. |
| Validator.ExtraKeysIgnored | shared/trivia-ws/src/validator.ts:16-19 | Two objects that agree on the schema's keys get the same verdict, whatever else they hold. |
| Validator.UnlistedKeyIgnored | shared/trivia-ws/src/validator.ts:16-19 | Adding a key the schema does not name never changes the verdict. |
| Messages.ValidGuessMessage | shared/trivia-ws/src/messages/guess.ts:7-9 | A guess message is exactly an object whose `text` is a string. |
| Messages.ValidGuessResponse | shared/trivia-ws/src/messages/guess.ts:15-17 | A guess response is exactly an object whose `isCorrect` is a boolean. |
| Messages.ValidGuess2Message | shared/trivia-ws/src/messages/guess2.ts:7-9 | A guess2 message is exactly an object whose `text2` is a string. |
| Messages.ValidGuess2Response | shared/trivia-ws/src/messages/guess2.ts:15-17 | A guess2 response is exactly an object whose `isCorrect2` is a boolean. |
| Messages.GuessTimeoutIsValidResponse | shared/trivia-ws/src/messages/guess.ts:15-21 | The guess timeout response is a valid guess response that says "incorrect". |
| Messages.Guess2TimeoutIsValidResponse | shared/trivia-ws/src/messages/guess2.ts:15-21 | The guess2 timeout response is a valid guess2 response that says "incorrect". |
| Messages.ResponsesAreDistinct | shared/trivia-ws/src/messages/guess2.ts:11-21 | Neither kind's response validator accepts the other kind's timeout response. |
| SocketInterface.KindOf | shared/trivia-ws/src/socket_interface.ts:17 | A wire name denotes a kind exactly when it is "guess" or "guess2", and the kind's name is that wire name. |
| SocketInterface.KindField | shared/trivia-ws/src/socket_interface.ts:56-65 | The `kind` checker accepts exactly the strings "guess" and "guess2". |
| SocketInterface.ValidPayload | shared/trivia-ws/src/socket_interface.ts:55-68 | An envelope is valid exactly when it is an object with a known `kind` and a string `token`; `message` is not inspected. |
| SocketInterface.ParsePayload | shared/trivia-ws/src/socket_interface.ts:49-68 | The typed envelope exists exactly for valid values, and its fields are the value's `kind`, `token` and `message`. |
| SocketInterface.PayloadRoundTrip | shared/trivia-ws/src/socket_interface.ts:49-68 | Every envelope built from a payload validates and parses back to that payload. |
| SocketInterface.TablesCoverEveryKind | shared/trivia-ws/src/socket_interface.ts:17-47 | Every kind in `MESSAGE_TYPES` has a message validator, a response validator and its own timeout response, and that response passes the kind's response validator. |
| Handlers.GuessHandler | shared/trivia-ws/src/handlers/guess.ts:4-13 | The answer is a valid guess response with only `isCorrect`, true exactly when `text` is "kyle". |
| Handlers.Guess2Handler | shared/trivia-ws/src/handlers/guess2.ts:4-13 | The answer is a valid guess2 response with only `isCorrect2`, true exactly when `text2` is "kyle". |
| Handlers.ServerHandler | shared/trivia-ws/src/server_info.ts:22-25 | The handler of each kind answers with a valid response of that same kind. |
| Handlers.GuessIsExactMatch | shared/trivia-ws/src/handlers/guess.ts:8 | The comparison is exact: other letter cases and surrounding blanks are wrong answers. |
| Handlers.HandlersIgnoreServer | shared/trivia-ws/src/server_info.ts:22-25 | Neither handler depends on the connection info it is given. |
| Transport.Emit | shared/trivia-ws/src/server_socket.ts:30 | `socket.emit(event, ...)` is heard by the listeners of that event and no other, with the first argument as their payload. |
| Transport.SocketSend | shared/trivia-ws/src/server_socket.ts:30 | `socket.send(...)` is heard only on "message": a listener of any other event, the first argument's name included, hears nothing. |
| Transport.Heard | shared/trivia-ws/src/client_socket.ts:30 | A listener hears an emission exactly when the event names match, and hears its first argument. |
| ClientSocket.RequestPayload | shared/trivia-ws/src/client_socket.ts:77-81 | The request envelope parses back to the kind, token and message it was built from. |
| ClientSocket.AddPending | shared/trivia-ws/src/client_socket.ts:71-75 | The token is entered with a deadline 5000 ms after now; every other pending call is unchanged. |
| ClientSocket.Send | shared/trivia-ws/src/client_socket.ts:54-85 | As written: the call is entered in the table, and the request goes out on the "message" event with "game_req" as its first argument. |
| ClientSocket.OnGameRespAsWritten | shared/trivia-ws/src/client_socket.ts:30-51 | As written: a response resolves a call exactly when the envelope is valid, the message passes the validator of the kind the envelope names, and the token is pending. The token then leaves the table. |
| ClientSocket.OnGameResp | shared/trivia-ws/src/client_socket.ts:30-51 | Corrected: the message must pass the validator of the pending call's own kind, so every resolution is a valid response for the call that receives it. |
| ClientSocket.Expire | shared/trivia-ws/src/client_socket.ts:62-75 | A pending call whose deadline has come resolves to its kind's timeout response and leaves the table. A cleared timer or an early tick does nothing. |
| ClientSocket.AgreeOnEchoedKind | shared/trivia-ws/src/client_socket.ts:30-51 | The as-written and corrected listeners agree on every response that echoes its call's kind. |
| ClientSocket.MismatchedKindDelivered | shared/trivia-ws/src/client_socket.ts:31-36 | A guess2-shaped response resolves a pending guess call as written, although it is no guess response. The corrected listener drops it. |
| ClientSocket.Step | shared/trivia-ws/src/client_socket.ts:30-85 | With either the as-written or the corrected `game_resp` listener: only a pending token resolves, it leaves the table, and only `send` adds tokens. |
| ClientSocket.SentTokensTail | shared/trivia-ws/src/client_socket.ts:60 | The tokens a trace sends are those of its first event and of the rest. |
| ClientSocket.ResolvesAtMostOnce | shared/trivia-ws/src/client_socket.ts:30-85 | With the listener as written, and with the corrected one: given fresh tokens, no call is resolved twice, and only tokens that were pending or sent are resolved. |
| AdminPanelClient.Send | admin_panel/src/client_socket.ts:60-95 | The call is entered in the table, and the request is heard on `game_req` as an envelope that parses back to the call. |
| ServerSocket.Connect | shared/trivia-ws/src/server_socket.ts:15-16 | A connecting socket gets `{}`; no other connection changes. |
| ServerSocket.Disconnect | shared/trivia-ws/src/server_socket.ts:35-37 | A disconnecting socket's entry is removed; no other connection changes. |
| ServerSocket.InfoOf | shared/trivia-ws/src/server_socket.ts:23 | A handler sees the stored connection info, or `{}` when there is none. |
| ServerSocket.Respond | shared/trivia-ws/src/server_socket.ts:18-31 | There is an answer exactly when the envelope and the message of its kind validate. The answer echoes the request's kind and token and carries a valid response of that kind. |
| ServerSocket.OnGameReqAsWritten | shared/trivia-ws/src/server_socket.ts:18-33 | As written: the answer goes out on the "message" event with "game_resp" as its first argument. |
| ServerSocket.OnGameReq | shared/trivia-ws/src/server_socket.ts:18-33 | Corrected: the answer is heard on `game_resp` as the answer's envelope. |
| ServerSocket.HandlerSeesConnection | shared/trivia-ws/src/server_socket.ts:16-36 | A request is still answered after a disconnect. A freshly connected socket's request is handled with `{}`. |
| TriviaChannel.CallRoundTrip | shared/trivia-ws/src/server_socket.ts:18-33 | With the corrected emits, a valid call resolves to its handler's answer and its token leaves the table. A duplicate answer resolves nothing. |
| TriviaChannel.AsWrittenCallsTimeOut | shared/trivia-ws/src/client_socket.ts:73-81 | As written, no `game_req` listener hears the request and no `game_resp` listener hears the answer, so the call resolves only by its timer, to the timeout response. |
| TriviaChannel.CorrectedAnswerIsHeard | shared/trivia-ws/src/server_socket.ts:25-30 | The corrected answer is heard on `game_resp` and is a valid envelope. |
| Builder.PatchValue | shared/trivia-ws/src/builder.ts:62-75 | A falsy value keeps the current one. Two arrays are joined, current first. Anything else throws "Unable to patch value". |
| Builder.ConcatAll | shared/trivia-ws/src/builder.ts:53-60 | A concat patch succeeds exactly when every listed key can be patched. It keeps the unlisted keys and patches each listed key against the data from before the patch. |
| Builder.HandleConcatPatch | shared/trivia-ws/src/builder.ts:53-60 | The key-by-key loop, in any key order, computes the same result as the declarative concat. |
| Builder.ApplyPatch | shared/trivia-ws/src/builder.ts:34-51 | Initial replaces the data, replace overlays it, and concat is as above. What is returned is the new data, and a throw leaves the builder unchanged. |
| Builder.EmptyReplaceIsIdentity | shared/trivia-ws/src/builder.ts:49-51 | An empty replace patch changes nothing. |
| Builder.ConcatContents | shared/trivia-ws/src/builder.ts:62-75 | A one-key concat keeps the value on a falsy entry, joins arrays in order with the lengths adding up, and otherwise throws without changing the data. |
| Builder.ConcatTwice | shared/trivia-ws/src/builder.ts:53-75 | Two concat patches on an array key join the arrays in turn. |
| Docs.Patch | images/backend/src/socket/trivia/game_state.ts:79-83 | A spread patch overwrites its keys, keeps every other field and keeps the metadata. |
| EntityMerge.Overwrite | images/backend/src/socket/trivia/game_state.ts:179 | An upsert over a stored copy takes the new copy's metadata and fields and keeps the stored fields it does not carry. |
| EntityMerge.Upsert | images/backend/src/socket/trivia/game_state.ts:179 | An unseen id is inserted, a seen one is overwritten, and all other ids are unchanged. |
| EntityMerge.FilterNewer | images/backend/src/socket/trivia/game_state.ts:174-177 | The filter keeps exactly the documents newer than the copy stored before the batch. |
| EntityMerge.FilterNewerAppend | images/backend/src/socket/trivia/game_state.ts:174-177 | The filter keeps the batch's order: filtering a concatenation concatenates the filtered parts. |
| EntityMerge.MergeStep | images/backend/src/socket/trivia/game_state.ts:174-180 | Corrected merge step, last write wins on the document's id: a newer copy takes over the id's metadata and the fields it carries, an older or equal copy is discarded, and other ids are untouched. |
| EntityMerge.MergeFacts | images/backend/src/socket/trivia/game_state.ts:173-181 | Corrected merge: it adds exactly the batch's ids, leaves other ids alone, never lowers a `_modified`, and leaves each id at least as new as every copy of it in the batch. |
| EntityMerge.MergeSlice | images/backend/src/socket/trivia/game_state.ts:173-181 | One slice's case of the reducer as written: an absent list leaves the slice unchanged; a present one adds exactly its ids and leaves other ids alone; without repeated ids it equals the corrected merge. |
| EntityMerge.UpsertManyFacts | images/backend/src/socket/trivia/game_state.ts:179 | Upserting documents that are newer than the state they were filtered against adds exactly their ids, leaves other ids alone and never lowers a `_modified`. |
| EntityMerge.MergeAsWrittenFacts | images/backend/src/socket/trivia/game_state.ts:173-181 | As written: a merge adds exactly the batch's ids, leaves other ids alone and never lowers a `_modified`. |
| EntityMerge.MergeOne | images/backend/src/socket/trivia/game_state.ts:174-180 | For one document the as-written and corrected merges agree: it is inserted if unseen, overwrites an older copy, and is dropped when stale or equally old. |
| EntityMerge.MergeTwo | images/backend/src/socket/trivia/game_state.ts:174-180 | Corrected merge: a batch of two is one last-write-wins step after the other, so the newer copy wins. |
| EntityMerge.MergeIdempotent | images/backend/src/socket/trivia/game_state.ts:173-181 | Corrected merge: re-applying a batch changes nothing. |
| EntityMerge.MergeAbsorbs | images/backend/src/socket/trivia/game_state.ts:173-181 | Documents no newer than what is stored are absorbed without change. |
| EntityMerge.DeliveryOrderIrrelevant | images/backend/src/socket/trivia/game_state.ts:173-181 | Two single-document updates of one id, delivered in either order, both end with the newer copy's `_modified`, deletion flag and fields, and leave other ids alone. Newer-first, the older one is discarded. |
| EntityMerge.DeliveryOrderKeepsStaleFields | images/backend/src/socket/trivia/game_state.ts:179 | A field only the older copy carries survives when it arrives first and not otherwise, so the two orders can give different states. |
| EntityMerge.AgreeOnDistinctIds | images/backend/src/socket/trivia/game_state.ts:174-180 | On batches without repeated ids, the as-written filter-then-upsert equals the corrected merge. |
| EntityMerge.AgreeFrom | images/backend/src/socket/trivia/game_state.ts:174-180 | The induction behind the previous row: from any suffix of the batch, the two merges agree. |
| EntityMerge.StaleCopyInBatchWins | images/backend/src/socket/trivia/game_state.ts:174-180 | As written, with `x` stored at `_modified` 1, the batch [x@5, x@3] stores x@3, and applying it again moves `x` to 5. The corrected merge keeps 5. |
| AdminState.ReduceAdmin | libraries/game_socket/src/trivia/admin_state.ts:34-87 | An action of another type changes nothing. On `admin/update`, each absent list leaves its slice unchanged. A present one (questions, teams, guesses, or the order under its own id) adds exactly its ids and leaves every other id untouched; without repeated ids the slice is the last-write-wins merge. |
| AdminState.ReduceAdminIdempotent | libraries/game_socket/src/trivia/admin_state.ts:34-87 | Re-applying an admin update whose lists never repeat an id changes nothing. |
| AdminState.OrderSlice | libraries/game_socket/src/trivia/admin_state.ts:74-80 | An order-only update changes only the order slice. It inserts an unseen order and drops a stale one. |
| AdminState.OtherActionsIgnored | libraries/game_socket/src/trivia/admin_state.ts:34-87 | `game/update` and every other action type leave the admin view unchanged. |
| GameState.IndexField | images/backend/src/socket/trivia/game_state.ts:49-54 | The index is the id's first position in the list, or `undefined` when the id is absent. |
| GameState.AddOrderToQuestion | images/backend/src/socket/trivia/game_state.ts:48-56 | `mainIndex`/`bonusIndex` are the question's first positions in the main and bonus lists, or `undefined`. Every other field is kept. |
| GameState.StripGameQuestion | images/backend/src/socket/trivia/game_state.ts:58-84 | `answer` and `name` never get through. A tombstone keeps only the dummy fields and its own metadata. A locked question is blanked and every other field is kept. An open question is kept except for `answer` and `name`. |
| GameState.DummyQuestionFor | images/backend/src/socket/trivia/game_state.ts:61-68 | A tombstone becomes exactly the dummy question with its own metadata and hidden answer and name. |
| GameState.LockedQuestion | images/backend/src/socket/trivia/game_state.ts:70-77 | The title, text, image and frame are blanked and `hideAnswer` is set. Other fields are kept. |
| GameState.OpenQuestion | images/backend/src/socket/trivia/game_state.ts:79-83 | Only `answer` and `name` are hidden. |
| GameState.UnlockTimeZeroNeverLocks | images/backend/src/socket/trivia/game_state.ts:70 | An unlock time of 0, or none, never locks, whatever the clock says. |
| GameState.StripGameTeam | images/backend/src/socket/trivia/game_state.ts:102-110 | A live team passes unchanged. A tombstone becomes exactly the dummy team with its own metadata. |
| GameState.StripGameGuess | images/backend/src/socket/trivia/game_state.ts:129-141 | The team id is always hidden. A tombstone becomes the dummy guess; a live guess keeps every other field. |
| GameState.MapDocs | images/backend/src/socket/trivia/game_state.ts:160-162 | `list?.map(f)` keeps absence and length and maps each element. |
| GameState.UpdateGameState | images/backend/src/socket/trivia/game_state.ts:157-166 | Every present list is redacted element by element, keeping each document's id and `_modified`, so the player reducer never takes a redacted copy for a stale one. Questions carry no answer or name. A live team passes unchanged, and a deleted team keeps its metadata with the dummy team's fields. A guess loses its team id and keeps its `_deleted` flag; a live guess keeps every other field, a deleted one gets the dummy guess's fields. Game settings pass through. |
| GameState.ReduceGame | images/backend/src/socket/trivia/game_state.ts:168-222 | Each absent list leaves its slice unchanged. A present one adds exactly its ids and leaves every other id untouched. When no list repeats an id, each slice is the last-write-wins merge of the old slice and the list. |
| GameState.ReduceGameIdempotent | images/backend/src/socket/trivia/game_state.ts:168-222 | Re-applying a game update whose lists never repeat an id changes nothing. |
| GameState.UpsertKeepsHidden | images/backend/src/socket/trivia/game_state.ts:179 | Upserting documents that all hide a field into a slice that hides it keeps it hidden. |
| GameState.MergeKeepsHidden | images/backend/src/socket/trivia/game_state.ts:173-181 | The slice merge as written, repeated ids included, keeps a field hidden when the slice and every document of the batch hide it. |
| GameState.PlayersNeverSeeAnswers | images/backend/src/socket/trivia/game_state.ts:157-222 | With the reducer as written, a player store fed only `game/update` actions never holds an answer, a question name or a guess's team id. |
| LegacyGameState.StripGameQuestionAsWritten | libraries/game_socket/src/trivia/game_state.ts:42-63 | As written: only `answer` is hidden. A tombstone is `{title: "DUMMY"}` plus metadata. A locked question keeps its title. |
| LegacyGameState.AsWrittenLeaksName | libraries/game_socket/src/trivia/game_state.ts:59-62 | As written, a live question's admin-only `name` reaches players. |
| LegacyGameState.StripGameQuestion | libraries/game_socket/src/trivia/game_state.ts:42-63 | Corrected: `answer` and `name` never get through, with this version's dummy and locked patch. |
| LegacyGameState.CorrectionOnlyHidesName | libraries/game_socket/src/trivia/game_state.ts:42-63 | The corrected and as-written versions differ only in `name`. |
| LegacyGameState.UpdateGameState | libraries/game_socket/src/trivia/game_state.ts:127-135 | As written: questions go through the as-written strip (the answer is hidden, the name is not), teams and guesses are redacted as in the image's version, and the order is never forwarded. |
| LegacyGameState.UpdateGameStateCorrected | libraries/game_socket/src/trivia/game_state.ts:127-135 | Corrected: the same payload with the corrected strip, so neither the answer nor the name is forwarded. |
| LegacyGameState.ReduceGame | libraries/game_socket/src/trivia/game_state.ts:137-181 | Each absent list leaves its slice unchanged. A present one (questions, teams or guesses) adds exactly its ids and leaves other ids untouched; without repeated ids the slice is the last-write-wins merge. |
| LegacyGameState.OrderNeverReachesPlayers | libraries/game_socket/src/trivia/game_state.ts:127-135 | An order-only admin update leaves the player store unchanged. |
| LegacyGameState.PlayersNeverSeeAnswers | libraries/game_socket/src/trivia/game_state.ts:127-181 | As written, the player store never holds an answer or a guess's team id. |
| LegacyGameState.AsWrittenStoreHoldsName | libraries/game_socket/src/trivia/game_state.ts:127-181 | As written, a live question's `name` reaches an empty player store. |
| LegacyGameState.CorrectedPlayersNeverSeeNames | libraries/game_socket/src/trivia/game_state.ts:127-181 | Corrected: with the corrected strip the player store never holds an answer, a question name or a guess's team id. |
| GameClient.NewClient | libraries/game_socket/src/lib/client.ts:31 | The store starts as the reducer's answer to `INITIALIZE_REDUCER_ACTION`, with no listeners. |
| GameClient.ActionSchemaMeans | libraries/game_socket/src/lib/client.ts:13-16 | The action validator accepts exactly the objects whose `type` is a string. |
| GameClient.NotifyAll | libraries/game_socket/src/lib/client.ts:44-46 | Every listener, in order, is handed the same state. |
| GameClient.OnAction | libraries/game_socket/src/lib/client.ts:39-47 | An invalid action throws "Received invalid action message" and leaves the store unchanged. A valid one is reduced into the state, and every listener is told the new state in order. |
| GameClient.DeliverFolds | libraries/game_socket/src/lib/client.ts:39-47 | Each action is its own notification, so an invalid one throws for itself only. After a run the state is the reducer folded over exactly the valid actions, in order; the listeners are unchanged; one throw per invalid action. |
| GameClient.InvalidActionSkipped | libraries/game_socket/src/lib/client.ts:39-47 | A valid action after an invalid one is still reduced: the run [a, junk, b] leaves the state [a, b] leaves, with one throw. |
| GameClient.ValidActions | libraries/game_socket/src/lib/client.ts:40-42 | The kept actions are exactly the run's actions that pass the action validator. |
| GameClient.CheckResult | libraries/game_socket/src/lib/client.ts:54-67 | A result is returned unchanged exactly when it matches the result schema. Otherwise "Result does not match RPC definition." is thrown. |
| GameClient.Subscribe | libraries/game_socket/src/lib/client.ts:69-71 | The listener is appended and handed the current state at once. |
| GameClient.Unsubscribe | libraries/game_socket/src/lib/client.ts:72-77 | The first occurrence of the listener is removed and the others keep their order; nothing changes when it is absent. |
| GameClient.SubscribeThenUnsubscribe | libraries/game_socket/src/lib/client.ts:69-78 | Subscribing then unsubscribing restores a new listener's list exactly, and always keeps the same listeners. |
| WsServer.NewServer | shared/ws/src/server.ts:24-25 | No methods and no sessions. |
| WsServer.Register | shared/ws/src/server.ts:50-55 | A second registration of a method throws "Cannot register multiple handlers for method …". A first one is appended. |
| WsServer.RegisterKeepsNoDuplicates | shared/ws/src/server.ts:50-55 | The registered methods never repeat. |
| WsServer.GetSession | shared/ws/src/server.ts:91-98 | The stored session is returned unchanged, or a new one is created, stored and returned. |
| WsServer.GetSessionStable | shared/ws/src/server.ts:91-98 | Asking twice gives the same session and no further change. |
| WsServer.HandleCall | shared/ws/src/server.ts:73-86 | Params that fail the schema throw "Params object does not match expected params for RPC" before the handler. Otherwise the handler gets the caller's session. |
| WsServer.Dispatch | shared/ws/src/server.ts:57-71 | Every open socket ends up with a session (new ones created, old ones untouched). The notices built are exactly `Expected`: one per socket whose session yields an action, in socket order. |
| WsServer.Expected | shared/ws/src/server.ts:60-69 | At most one notice per socket, each carrying the action its socket's session yields. |
| WsServer.ExpectedAgrees | shared/ws/src/server.ts:60-69 | The notices depend only on the sessions of the listed sockets, so sessions created later do not change them. |
| WsServer.DispatchCallsAsWritten | shared/ws/src/server.ts:63-68 | As written, every built notice is passed to `emit` on its socket, a local event that transmits nothing. |
| WsServer.DispatchCalls | shared/ws/src/server.ts:63-68 | Corrected: every built notice is passed to `send`, in order. |
| WsServer.Transmitted | shared/ws/src/server.ts:63-68 | Only `send` calls reach a client. |
| WsServer.AsWrittenDispatchTransmitsNothing | shared/ws/src/server.ts:57-71 | As written, no dispatched action reaches any client. |
| WsServer.DispatchTransmitsAll | shared/ws/src/server.ts:57-71 | Corrected: every built notice reaches its client, in order. |
| WsServer.Sweep | shared/ws/src/server.ts:100-118 | A session is deleted exactly when its socket is closed and it was already an orphan. The new orphans are exactly the closed, not-yet-orphaned sessions. |
| WsServer.SweepOrphansAreSessions | shared/ws/src/server.ts:100-118 | Every orphan is still a session. |
| WsServer.SweepGrace | shared/ws/src/server.ts:106-113 | A session with an open socket, or not yet orphaned, survives a sweep. |
| WsServer.TwoSweepsRemove | shared/ws/src/server.ts:100-118 | A session whose socket stays closed across two consecutive sweeps is gone. |
| RpcServer.Register | images/backend/src/socket/lib/server.ts:37-61 | A second handler for a method throws and the first stays in force. Otherwise the method is added and the others are unchanged. |
| RpcServer.RequestHandler | libraries/game_socket/src/lib/server.ts:46-59 | A parse failure is only logged. Otherwise the answer is built from the handler's result, or from its error message ("Unknown error" for a non-`Error`). |
| RpcServer.NoHandlerResponse | images/backend/src/socket/lib/server.ts:28 | The answer to an unknown method carries the call's id and "No handler registered for method.". |
| RpcServer.OnRpc | images/backend/src/socket/lib/server.ts:20-33 | At most one emission, on `rpc`. An invalid envelope gets none, an unknown method gets the no-handler answer, and a known one gets its handler's answer. |
| RpcServer.RegisteredCallIsRouted | libraries/game_socket/src/lib/server.ts:18-62 | After registration, a well-formed call naming the method reaches that handler and gets one answer exactly when it parses. |
| RpcServer.ThrowsAreReported | images/backend/src/socket/lib/server.ts:51-54 | A throwing handler is answered with its message, or "Unknown error". |
| Rooms.TeamRoom | images/backend/src/game_handlers.ts:5-7 | The room is the team id behind the `TEAM_` prefix. |
| Rooms.QuestionRoom | images/backend/src/game_handlers.ts:9-11 | The room is the question id behind the `QUESTION_` prefix. |
| Rooms.RoomsAreInjective | images/backend/src/game_handlers.ts:5-11 | Different teams, and different questions, never share a room. |
| Rooms.RoomsAreDisjoint | images/backend/src/game_handlers.ts:3-11 | Team rooms, question rooms, `GAME` and `ADMIN` are all distinct. `ADMIN` itself is defined at images/backend/src/admin_handlers.ts:32. |
| Rooms.LiveDocs | images/backend/src/game_handlers.ts:1 | Exactly the documents whose `_deleted` is not true are kept. |
| Rooms.LiveDocsIdempotent | images/backend/src/game_handlers.ts:1 | Filtering twice is filtering once, and a live document is never dropped. |
| Json.StrictEquals | images/backend/src/admin_handlers.ts:91 | `===` holds only between equal primitives, and always between equal primitives. |
| AdminHandlers.ParamsBody | images/backend/src/admin_handlers.ts:131-134 | A document's fields are the params' own fields other than the metadata. |
| AdminHandlers.DocId | images/backend/src/admin_handlers.ts:51 | The caller's `_id` when it gives one, otherwise a new uuid. |
| AdminHandlers.DeletedFlag | images/backend/src/admin_handlers.ts:53 | The caller's `_deleted` flag is copied. |
| AdminHandlers.BuildDoc | images/backend/src/admin_handlers.ts:49-55 | The built document has the caller's or a new id, the current time and the caller's deletion flag. |
| AdminHandlers.DefaultOrder | images/backend/src/admin_handlers.ts:57 | The default order has id `QUESTION_ORDER` and empty main and bonus lists. |
| AdminHandlers.GetOrder | images/backend/src/admin_handlers.ts:79 | The stored order, or the default. |
| AdminHandlers.GetConfig | images/backend/src/admin_handlers.ts:75 | The stored config, or the default, whose password is "password". |
| AdminHandlers.GetAdminToken | images/backend/src/admin_handlers.ts:89-99 | A matching password stores and returns a new token. Any other stores nothing and returns "". |
| AdminHandlers.UpgradeToAdmin | images/backend/src/admin_handlers.ts:101-118 | A known token joins the admin room and is sent the full admin state. An unknown one changes nothing. The store is never changed. |
| AdminHandlers.Protect | images/backend/src/admin_handlers.ts:120-128 | A caller outside the admin room gets "Not authenticated" with no effect. Inside, the handler runs unchanged. |
| AdminHandlers.UpsertQuestion | images/backend/src/admin_handlers.ts:130-139 | The built question replaces its id's stored copy and is announced to the admin room. The answer carries its id. |
| AdminHandlers.UpsertTeam | images/backend/src/admin_handlers.ts:141-150 | The built team replaces its id's stored copy and is announced to the admin room; no socket joins a room. |
| AdminHandlers.UpsertGuess | images/backend/src/admin_handlers.ts:152-161 | The built guess replaces its id's stored copy and is announced to the admin room; no socket joins a room. |
| AdminHandlers.SetQuestionOrder | images/backend/src/admin_handlers.ts:163-174 | Whatever id the caller sends, the order is stored as `QUESTION_ORDER`, stamped now, with the caller's `_deleted` flag, and announced; no socket joins a room. |
| AdminHandlers.SetAdminPasswordAsWritten | images/backend/src/admin_handlers.ts:176-185 | As written: the params are spread over the config, so each param key takes the param's value and every other config key, `adminPassword` included, keeps its value. Every token is revoked. |
| AdminHandlers.PasswordChangeIgnored | images/backend/src/admin_handlers.ts:89-185 | As written, `{password}` leaves the login password unchanged in every store, so every login attempt gets the same answer as before. |
| AdminHandlers.PasswordChangeIgnoredFromDefault | images/backend/src/admin_handlers.ts:89-185 | From the default config, the new password "hunter2" is refused and "password" still logs in. |
| AdminHandlers.SetAdminPassword | images/backend/src/admin_handlers.ts:176-185 | Corrected: the new password is stored where the login reads it, the rest of the config is kept, and every token is revoked. |
| AdminHandlers.PasswordChangeTakesEffect | images/backend/src/admin_handlers.ts:89-185 | After a change only the new password logs in, and no earlier token upgrades. |
| AdminHandlers.LoginThenUpgrade | images/backend/src/admin_handlers.ts:89-118 | The token a successful login returns upgrades the caller to the admin room. |
| AdminHandlers.CurrentSettings | images/backend/src/admin_handlers.ts:187-190 | The stored settings, or the default, always under id `MAIN`. The default is exactly `state: "notActive"` and `refreshToken: "A"`, with no deletion flag. |
| AdminHandlers.StartForceRefresh | images/backend/src/admin_handlers.ts:187-201 | Only the refresh token and `_modified` change. The new settings go to the game and admin rooms. |
| AdminHandlers.SetGameState | images/backend/src/admin_handlers.ts:203-215 | Only `state` and `_modified` change. The new settings go to the game and admin rooms. |
| AdminHandlers.RefreshKeepsState | images/backend/src/admin_handlers.ts:187-215 | A forced refresh keeps the game state set before it. |
| AdminHandlers.FindFrom | images/backend/src/admin_handlers.ts:218 | The first occurrence of the separator at or after a position, or -1 when there is none. |
| AdminHandlers.SplitFirst | images/backend/src/admin_handlers.ts:218 | The header is the text before the first `;base64,`. The data is the text up to the next one. |
| AdminHandlers.PlanUpload | images/backend/src/admin_handlers.ts:217-233 | The extension follows the header's first `/` (the whole header without one). A zip is unpacked under the new id; anything else goes to `<id>.<extension>`. There is data exactly when the URL holds `;base64,`; without it the write fails. |
| AdminHandlers.UploadOfDataUrl | images/backend/src/admin_handlers.ts:218-229 | For a data URL `data:<type>/<subtype>;base64,…` the extension is the subtype and there is data to write. |
| AdminHandlers.UnauthenticatedCallRejected | images/backend/src/admin_handlers.ts:120-128 | A protected RPC called from outside the admin room is answered "Not authenticated", whatever the handler. |
| AdminHandlers.AdminSeesUpsert | images/backend/src/admin_handlers.ts:130-139 | An admin whose copy is older ends up with the upserted question's metadata and every field it carries. |

## Left out

- I/O and the runtime are left out: socket.io, rpc-websockets, MongoDB, the file system, unzipping, timers and logging. Sockets are ids, the database is a `Store` value, and timers are explicit events or a `now` parameter.
- `refreshAllTeams` (images/backend/src/admin_handlers.ts:81-86) is not modelled, because `checkAndFixTeam` and `sendInitialData` are not part of this model. The upserts' emissions list leaves out the per-team refresh messages.
- The `rpc.js` and `validator.js` of the backend image (with `parseCall`, `buildResponse` and `rpcCallValidator`) are not part of this model. The RPC server takes them as parameters.
- The shown libraries/game_socket/src/lib/rpc.ts is a different version without `parseCall`. The backend image's `admin_rpcs.js` and `admin_state.js` are not part of this model either: the admin update uses the library's `AdminStateUpdate` shape.
- AdminHandlers.UpgradeToAdmin: the snapshot it sends is modelled as the store's collections (`AdminSnapshot`) rather than as lists in database order.
- AdminHandlers.DocId: a non-string, non-nullish `_id` is treated as absent.
- AdminHandlers.DeletedFlag: a non-boolean `_deleted` is treated as absent.
- AdminHandlers.SetAdminPasswordAsWritten: a params value that is not a plain object is spread as `{}`.
- AdminHandlers.CurrentSettings: the default settings carry no `_modified` in the source; the model stamps them with the call's time, which every caller overwrites at once.
- Mongo `replaceOne` errors (for example a changed `_id`) and failed writes are not modelled.
- WsServer.GetSession: sessions are assumed truthy, as the session objects are. The JSON framing of the `action` notification is reduced to a `Notice`.
- The dispatch of shared/ws reads the open sockets as a list of ids. The cleanup timer's 15-minute period is a constant; the sweep itself is a function of the open-socket set.
- GameClient: listeners and the reducer are parameters. A listener that throws, and the connection-open promise, are not modelled.
- Numbers are integers: floating point and `NaN` are not modelled. Of an array, only `length` is modelled as a property.
- `Date.now()` inside `stripGameQuestion` is read once per update rather than once per question.
- EntityMerge.Overwrite: Redux's `upsertMany` is modelled as a shallow assign in which the incoming `_deleted` always replaces the stored one. Every document in this system carries `_deleted` as an own property.
- GameState.ReduceGameIdempotent and AdminState.ReduceAdminIdempotent require that no list repeats an id: as written the reducers are not idempotent otherwise (first Findings row). The server's batches are single documents or query results with distinct ids.
- EntityMerge.UpsertMany: an id the state does not hold that occurs twice in one batch is upserted twice, the later copy winning. Redux Toolkit 1.x adds only the first copy, so for that input the model follows one library version.
- EntityMerge.DeliveryOrderIrrelevant: states that the newer copy's metadata and fields win in either order, not that the two states are equal. They are not, because the upsert is shallow (`EntityMerge.DeliveryOrderKeepsStaleFields`).
- GameClient.ActionSchemaMeans, GameClient.CheckResult and WsServer.HandleCall check values with the game-socket library's `validator.js` and the `rpc` validators of shared/ws, which are not part of this model. They are given the semantics of `validate` in shared/trivia-ws/src/validator.ts.

## Findings

| source | as written | input that shows it | evidently intended | confidence | as-written member | corrected member |
|---|---|---|---|---|---|---|
| images/backend/src/socket/trivia/game_state.ts:174-180 (and the two library copies) | Each batch is filtered against the state before the batch, then upserted in order. | With `x` stored at `_modified` 1, the batch [x@5, x@3]: both copies pass the filter, x@3 is stored last, and applying the batch again moves `x` to 5. | Last write wins per document, so the newest copy is kept and replays change nothing. | medium: needs a batch with a repeated id; not executed | EntityMerge.MergeAsWritten, EntityMerge.StaleCopyInBatchWins | EntityMerge.Merge, EntityMerge.MergeIdempotent, EntityMerge.AgreeOnDistinctIds |
| shared/trivia-ws/src/client_socket.ts:31-36 (and admin_panel/src/client_socket.ts:37-42) | A response is checked against the validator of the kind the envelope names, not of the pending call. | A pending `guess` call answered with kind `guess2` and message `{isCorrect2: true}`: the call resolves to a value without `isCorrect`. | A call resolves only to a valid response of its own kind. | medium: the server always echoes the kind; not executed | ClientSocket.OnGameRespAsWritten, ClientSocket.MismatchedKindDelivered | ClientSocket.OnGameResp, ClientSocket.AgreeOnEchoedKind |
| shared/trivia-ws/src/client_socket.ts:77-81 and shared/trivia-ws/src/server_socket.ts:30 | `socket.send("game_req", …)` and `socket.send("game_resp", …)` emit on the "message" event, while the listeners are on `game_req` and `game_resp`. | Any call from the shared client: the server never hears it, and the call resolves only by timeout. | Emit on the named events, as the admin panel client does. | high: socket.io's `send` is `emit("message", …)`; not executed | ClientSocket.Send, ServerSocket.OnGameReqAsWritten, TriviaChannel.AsWrittenCallsTimeOut | AdminPanelClient.Send, ServerSocket.OnGameReq, TriviaChannel.CallRoundTrip |
| libraries/game_socket/src/trivia/game_state.ts:50-62 | A live question is spread as is, with only `answer` removed. | A live question with `name: "internal"`: players receive `name: "internal"`. | Admin-only fields never reach players; the image's copy also hides `name`. | medium: not executed | LegacyGameState.StripGameQuestionAsWritten, LegacyGameState.AsWrittenLeaksName, LegacyGameState.AsWrittenStoreHoldsName | LegacyGameState.StripGameQuestion, LegacyGameState.UpdateGameStateCorrected, LegacyGameState.CorrectedPlayersNeverSeeNames |
| images/backend/src/admin_handlers.ts:176-185 | The params are spread over the config, while logins compare with `adminPassword`. | With the params `{password: "hunter2"}` that the library's RPC declares (libraries/game_socket/src/trivia/admin_rpcs.ts:134-142): "hunter2" is refused and "password" still logs in. | The new password replaces `adminPassword`. | low: the image's own RPC definition is not part of this model; not executed | AdminHandlers.SetAdminPasswordAsWritten, AdminHandlers.PasswordChangeIgnored, AdminHandlers.PasswordChangeIgnoredFromDefault | AdminHandlers.SetAdminPassword, AdminHandlers.PasswordChangeTakesEffect |
| shared/ws/src/server.ts:63-68 | Dispatch calls `emit(JSON.stringify(...))` on each `ws` WebSocket of the map typed at line 28. | Any dispatched action: `emit` on a `ws` socket fires a local event named by the JSON text, and nothing reaches the client. | Send the notification frame with `socket.send(...)`. | medium: depends on the `ws` socket API; not executed | WsServer.DispatchCallsAsWritten, WsServer.AsWrittenDispatchTransmitsNothing | WsServer.DispatchCalls, WsServer.DispatchTransmitsAll |

=== FILE: admin_handlers.dfy ===
/** The administrator RPCs of the backend image
    (images/backend/src/admin_handlers.ts): admin tokens, the protected upserts
    that broadcast to the admin room, the question order, the admin password,
    the game settings and file upload. The database is a `Store` value, the
    clock and the id generators are an `Oracle`, and each handler returns its
    `Effect`: the new store, the rooms the caller joins, what is emitted, and
    how the call settles. */
module AdminHandlers {
  import opened Basics
  import opened Json
  import opened Docs
  import opened EntityMerge
  import opened AdminState
  import GameState
  import opened Rooms
  import opened RpcServer

  /** `Date.now()`, `uuid()` and `generateToken(5)` for one call. */
  datatype Oracle = Oracle(now: int, uuid: string, randomToken: string)

  /** The collections the handlers use. `config` is the stored config object,
      `startedAt` the clock reading when the module was loaded (when
      `DEFAULT_ORDER` was built). */
  datatype Store = Store(
    questions: Entities,
    teams: Entities,
    guesses: Entities,
    gameSettings: Entities,
    order: Option<Doc>,
    config: Option<map<string, Value>>,
    tokens: set<string>,
    startedAt: int)

  /** The calling socket: the rooms it is in. */
  datatype SocketCtx = SocketCtx(rooms: set<string>)

  /** An action sent to sockets. */
  datatype Action =
    | AdminUpdate(update: AdminStateUpdate)
    | GameUpdate(gameUpdate: GameState.GameStateUpdate)
    | AdminSnapshot(questions: Entities, teams: Entities, guesses: Entities, order: Doc, gameSettings: Entities)

  /** `server.to(room).emit('action', ...)` or `socket.emit('action', ...)`. */
  datatype Outgoing = ToRoom(room: string, action: Action) | ToCaller(callerAction: Action)

  /** What one handler call does. */
  datatype Effect = Effect(store: Store, joined: set<string>, out: seq<Outgoing>, outcome: Outcome)

  /** An effect that changes nothing and answers `result`. */
  function Answer(store: Store, result: Value): Effect {
    Effect(store, {}, [], Returned(result))
  }

  const ConfigId: string := "SERVER_CONFIG"
  const OrderId: string := "QUESTION_ORDER"
  const GameSettingsId: string := "MAIN"
  const NotAuthenticated: string := "Not authenticated"

  /** `DEFAULT_CONFIG`. */
  const DefaultConfig: map<string, Value> := map["_id" := Str(ConfigId), "adminPassword" := Str("password")]

  /** `DEFAULT_GAME_SETTINGS` without its (absent) `_modified`. */
  const DefaultGameSettingsBody: map<string, Value> := map["state" := Str("notActive"), "refreshToken" := Str("A")]

  /** The metadata keys `buildDoc` sets. */
  predicate IsMetadataKey(k: string) {
    k == "_id" || k == "_modified" || k == "_deleted"
  }

  /** The params' own fields other than the metadata `buildDoc` overrides. */
  function ParamsBody(params: Value): (body: map<string, Value>)
    ensures forall k :: k in body <==> params.Obj? && k in params.fields && !IsMetadataKey(k)
    ensures forall k :: k in body ==> body[k] == params.fields[k]
  {
    if params.Obj? then map k | k in params.fields && !IsMetadataKey(k) :: params.fields[k] else map[]
  }

  /** `params._id ?? uuid()`. */
  function DocId(params: Value, o: Oracle): (id: string)
    ensures Prop(params, "_id").Str? ==> id == Prop(params, "_id").s
    ensures !Prop(params, "_id").Str? ==> id == o.uuid
  {
    match Prop(params, "_id")
    case Str(s) => s
    case _ => o.uuid
  }

  /** `params._deleted`. */
  function DeletedFlag(params: Value): (d: Option<bool>)
    ensures Prop(params, "_deleted").Bool? <==> d.Some?
    ensures d.Some? ==> Prop(params, "_deleted") == Bool(d.value)
  {
    match Prop(params, "_deleted")
    case Bool(b) => Some(b)
    case _ => None
  }

  /** `{ ...params, ...buildDoc(params) }`: the caller's fields, stamped with
      the id (the caller's, or a new one), the current time, and the caller's
      deletion flag. */
  function BuildDoc(params: Value, o: Oracle): (d: Doc)
    ensures d.id == DocId(params, o) && d.modified == o.now && d.deleted == DeletedFlag(params)
    ensures d.body == ParamsBody(params)
  {
    Doc(DocId(params, o), o.now, DeletedFlag(params), ParamsBody(params))
  }

  /** `DEFAULT_ORDER`: empty lists, stamped when the module was loaded. */
  function DefaultOrder(startedAt: int): (d: Doc)
    ensures d.id == OrderId && d.modified == startedAt && d.deleted.None?
    ensures Get(d, "main") == Arr([]) && Get(d, "bonus") == Arr([])
  {
    Doc(OrderId, startedAt, None, map["main" := Arr([]), "bonus" := Arr([])])
  }

  /** `getOrder(db)`: the stored order, or the default. */
  function GetOrder(s: Store): (d: Doc)
    ensures s.order.Some? ==> d == s.order.value
    ensures s.order.None? ==> d.id == OrderId && Get(d, "main") == Arr([]) && Get(d, "bonus") == Arr([])
  {
    s.order.GetOr(DefaultOrder(s.startedAt))
  }

  /** `getConfig(db)`: the stored config, or the default. */
  function GetConfig(s: Store): (c: map<string, Value>)
    ensures s.config.Some? ==> c == s.config.value
    ensures s.config.None? ==> Prop(Obj(c), "adminPassword") == Str("password")
  {
    s.config.GetOr(DefaultConfig)
  }

  /** The password a login must present. */
  function AdminPassword(s: Store): Value {
    Prop(Obj(GetConfig(s)), "adminPassword")
  }

  /** `getAdminToken`: a matching password stores and returns a new token;
      any other answer stores nothing and returns the empty token. */
  function GetAdminToken(s: Store, params: Value, o: Oracle): (e: Effect)
    ensures e.joined == {} && e.out == []
    ensures var ok := StrictEquals(Prop(params, "password"), AdminPassword(s));
            && e.outcome == Returned(Obj(map["success" := Bool(ok), "token" := Str(if ok then o.uuid else "")])) 
            && (ok ==> e.store == s.(tokens := s.tokens + {o.uuid}))
            && (!ok ==> e.store == s)
  {
    var success := StrictEquals(Prop(params, "password"), AdminPassword(s));
    var store := if success then s.(tokens := s.tokens + {o.uuid}) else s;
    Answer(store, Obj(map["success" := Bool(success), "token" := Str(if success then o.uuid else "")]))
  }

  /** `upgradeToAdmin`: a known token puts the caller in the admin room and
      sends it the whole admin state; an unknown one changes nothing. */
  function UpgradeToAdmin(s: Store, params: Value): (e: Effect)
    ensures e.store == s
    ensures var ok := Prop(params, "token").Str? && Prop(params, "token").s in s.tokens;
            && e.outcome == Returned(Obj(map["success" := Bool(ok)]))
            && (ok ==> e.joined == {AdminRoom} &&
                       e.out == [ToCaller(AdminSnapshot(s.questions, s.teams, s.guesses, GetOrder(s), s.gameSettings))])
            && (!ok ==> e.joined == {} && e.out == [])
  {
    var success := Prop(params, "token").Str? && Prop(params, "token").s in s.tokens;
    if success then
      Effect(s, {AdminRoom},
             [ToCaller(AdminSnapshot(s.questions, s.teams, s.guesses, GetOrder(s), s.gameSettings))],
             Returned(Obj(map["success" := Bool(true)])))
    else Answer(s, Obj(map["success" := Bool(false)]))
  }

  /** A handler as the admin module writes it. */
  type Handler = (Store, Value, SocketCtx, Oracle) -> Effect

  /** `registerProtected`: a caller outside the admin room is refused before
      the handler runs. */
  function Protect(h: Handler): (p: Handler)
    ensures forall s: Store, params: Value, ctx: SocketCtx, o: Oracle :: AdminRoom !in ctx.rooms ==>
              p(s, params, ctx, o) == Effect(s, {}, [], ThrewError(NotAuthenticated))
    ensures forall s: Store, params: Value, ctx: SocketCtx, o: Oracle :: AdminRoom in ctx.rooms ==> p(s, params, ctx, o) == h(s, params, ctx, o)
  {
    (s: Store, params: Value, ctx: SocketCtx, o: Oracle) =>
      if AdminRoom !in ctx.rooms then Effect(s, {}, [], ThrewError(NotAuthenticated)) else h(s, params, ctx, o)
  }

  /** The admin update announcing one changed list. */
  function AnnounceToAdmins(u: AdminStateUpdate): seq<Outgoing> {
    [ToRoom(AdminRoom, AdminUpdate(u))]
  }

  /** `upsertQuestion`: the built question replaces any stored one of its id
      and is announced to the admin room. */
  function UpsertQuestion(s: Store, params: Value, ctx: SocketCtx, o: Oracle): (e: Effect)
    ensures var d := BuildDoc(params, o);
            && e.store == s.(questions := s.questions[d.id := d])
            && e.out == AnnounceToAdmins(AdminStateUpdate(Some([d]), None, None, None))
            && e.outcome == Returned(Obj(map["success" := Bool(true), "questionId" := Str(d.id)]))
            && e.joined == {}
  {
    var d := BuildDoc(params, o);
    Effect(s.(questions := s.questions[d.id := d]), {},
           AnnounceToAdmins(AdminStateUpdate(Some([d]), None, None, None)),
           Returned(Obj(map["success" := Bool(true), "questionId" := Str(d.id)])))
  }

  /** `upsertTeam`: as for questions, in the teams collection. */
  function UpsertTeam(s: Store, params: Value, ctx: SocketCtx, o: Oracle): (e: Effect)
    ensures var d := BuildDoc(params, o);
            && e.store == s.(teams := s.teams[d.id := d])
            && e.joined == {}
            && e.out == AnnounceToAdmins(AdminStateUpdate(None, Some([d]), None, None))
            && e.outcome == Returned(Obj(map["success" := Bool(true)]))
  {
    var d := BuildDoc(params, o);
    Effect(s.(teams := s.teams[d.id := d]), {},
           AnnounceToAdmins(AdminStateUpdate(None, Some([d]), None, None)),
           Returned(Obj(map["success" := Bool(true)])))
  }

  /** `upsertGuess`: as for questions, in the guesses collection. */
  function UpsertGuess(s: Store, params: Value, ctx: SocketCtx, o: Oracle): (e: Effect)
    ensures var d := BuildDoc(params, o);
            && e.store == s.(guesses := s.guesses[d.id := d])
            && e.joined == {}
            && e.out == AnnounceToAdmins(AdminStateUpdate(None, None, Some([d]), None))
            && e.outcome == Returned(Obj(map["success" := Bool(true)]))
  {
    var d := BuildDoc(params, o);
    Effect(s.(guesses := s.guesses[d.id := d]), {},
           AnnounceToAdmins(AdminStateUpdate(None, None, Some([d]), None)),
           Returned(Obj(map["success" := Bool(true)])))
  }

  /** `setQuestionOrder`: whatever id the caller sends, there is one order. */
  function SetQuestionOrder(s: Store, params: Value, ctx: SocketCtx, o: Oracle): (e: Effect)
    ensures e.store.order.Some? && e.store.order.value.id == OrderId
    ensures e.store.order.value.modified == o.now && e.store.order.value.body == ParamsBody(params)
    ensures e.store.order.value.deleted == DeletedFlag(params)
    ensures e.joined == {}
    ensures e.store == s.(order := e.store.order)
    ensures e.out == AnnounceToAdmins(AdminStateUpdate(None, None, None, e.store.order))
    ensures e.outcome == Returned(Obj(map["success" := Bool(true)]))
  {
    var d := BuildDoc(params, o).(id := OrderId);
    Effect(s.(order := Some(d)), {}, AnnounceToAdmins(AdminStateUpdate(None, None, None, Some(d))),
           Returned(Obj(map["success" := Bool(true)])))
  }

  /** `setAdminPassword` as written: the params are spread over the config, so
      `{ password }` lands in a `password` field while the login keeps
      comparing against `adminPassword`; every token is revoked. */
  function SetAdminPasswordAsWritten(s: Store, params: Value, ctx: SocketCtx, o: Oracle): (e: Effect)
    ensures e.store.tokens == {}
    ensures e.store.config.Some?
    ensures forall k :: params.Obj? && k in params.fields ==> Prop(Obj(e.store.config.value), k) == params.fields[k]
    ensures forall k :: k in GetConfig(s) && !(params.Obj? && k in params.fields) ==>
              Prop(Obj(e.store.config.value), k) == GetConfig(s)[k]
    ensures e.store == s.(config := e.store.config, tokens := {})
    ensures e.outcome == Returned(Obj(map["success" := Bool(true)])) && e.out == []
  {
    var fields := if params.Obj? then params.fields else map[];
    var config := s.config.GetOr(DefaultConfig) + fields;
    Answer(s.(config := Some(config), tokens := {}), Obj(map["success" := Bool(true)]))
  }

  /** With the parameters the password-change RPC declares, the as-written
      handler leaves the login password unchanged in every store, so every
      login attempt is answered as it was before. */
  lemma PasswordChangeIgnored(s: Store, pw: string, attempt: Value, ctx: SocketCtx, o: Oracle, o2: Oracle)
    ensures var s1 := SetAdminPasswordAsWritten(s, Obj(map["password" := Str(pw)]), ctx, o).store;
            && AdminPassword(s1) == AdminPassword(s)
            && GetAdminToken(s1, attempt, o2).outcome == GetAdminToken(s, attempt, o2).outcome
  {
    var params := Obj(map["password" := Str(pw)]);
    var s1 := SetAdminPasswordAsWritten(s, params, ctx, o).store;
    assert "adminPassword" !in params.fields;
    if "adminPassword" !in GetConfig(s) {
      assert "adminPassword" !in s1.config.value by {
        assert s1.config.value.Keys <= GetConfig(s).Keys + params.fields.Keys;
      }
    }
    assert AdminPassword(s1) == AdminPassword(s);
  }

  /** From the default config, the as-written change to "hunter2" is
      refused at the next login and the old password still yields a token. */
  lemma PasswordChangeIgnoredFromDefault(s: Store, ctx: SocketCtx, o: Oracle, o2: Oracle)
    requires s.config.None?
    ensures var s1 := SetAdminPasswordAsWritten(s, Obj(map["password" := Str("hunter2")]), ctx, o).store;
            && GetAdminToken(s1, Obj(map["password" := Str("hunter2")]), o2).outcome.result.fields["success"] == Bool(false)
            && GetAdminToken(s1, Obj(map["password" := Str("password")]), o2).outcome.result.fields["success"] == Bool(true)
  {
    var s1 := SetAdminPasswordAsWritten(s, Obj(map["password" := Str("hunter2")]), ctx, o).store;
    PasswordChangeIgnored(s, "hunter2", Obj(map["password" := Str("password")]), ctx, o, o2);
    assert AdminPassword(s1) == Str("password");
  }

  /** `setAdminPassword`, with the new password stored where the login reads
      it: the rest of the config is kept and every token is revoked. */
  function SetAdminPassword(s: Store, params: Value, ctx: SocketCtx, o: Oracle): (e: Effect)
    ensures e.store.tokens == {}
    ensures e.store.config.Some?
    ensures Prop(params, "password").Str? ==> AdminPassword(e.store) == Prop(params, "password")
    ensures !Prop(params, "password").Str? ==> AdminPassword(e.store) == AdminPassword(s)
    ensures forall k :: k in GetConfig(s) && k != "adminPassword" ==> Prop(Obj(e.store.config.value), k) == GetConfig(s)[k]
    ensures e.store == s.(config := e.store.config, tokens := {})
    ensures e.outcome == Returned(Obj(map["success" := Bool(true)])) && e.out == []
  {
    var current := GetConfig(s);
    var config := if Prop(params, "password").Str? then current["adminPassword" := Prop(params, "password")] else current;
    Answer(s.(config := Some(config), tokens := {}), Obj(map["success" := Bool(true)]))
  }

  /** After a password change only the new password logs in, and no token
      issued before it is accepted. */
  lemma PasswordChangeTakesEffect(s: Store, pw: string, guess: Value, token: Value, ctx: SocketCtx, o: Oracle, o2: Oracle)
    ensures var s1 := SetAdminPassword(s, Obj(map["password" := Str(pw)]), ctx, o).store;
            && (GetAdminToken(s1, Obj(map["password" := guess]), o2).outcome.result.fields["success"] == Bool(true) <==> guess == Str(pw))
            && UpgradeToAdmin(s1, Obj(map["token" := token])).outcome.result.fields["success"] == Bool(false)
  {
    var s1 := SetAdminPassword(s, Obj(map["password" := Str(pw)]), ctx, o).store;
    assert AdminPassword(s1) == Str(pw);
    assert Prop(Obj(map["password" := guess]), "password") == guess;
  }

  /** A login with the right password yields a token that upgrades the caller. */
  lemma LoginThenUpgrade(s: Store, params: Value, o: Oracle)
    requires StrictEquals(Prop(params, "password"), AdminPassword(s))
    ensures var e := GetAdminToken(s, params, o);
            var token := e.outcome.result.fields["token"];
            UpgradeToAdmin(e.store, Obj(map["token" := token])).joined == {AdminRoom}
  {
    var e := GetAdminToken(s, params, o);
    assert e.outcome.result.fields["token"] == Str(o.uuid);
    assert Prop(Obj(map["token" := Str(o.uuid)]), "token") == Str(o.uuid);
  }

  /** The stored game settings, or `DEFAULT_GAME_SETTINGS`. */
  function CurrentSettings(s: Store, o: Oracle): (d: Doc)
    ensures d.id == GameSettingsId
    ensures GameSettingsId in s.gameSettings ==> d == s.gameSettings[GameSettingsId].(id := GameSettingsId)
    ensures GameSettingsId !in s.gameSettings ==>
              && Get(d, "state") == Str("notActive") && Get(d, "refreshToken") == Str("A")
              && d.body.Keys == {"state", "refreshToken"} && d.deleted.None?
  {
    if GameSettingsId in s.gameSettings then s.gameSettings[GameSettingsId].(id := GameSettingsId)
    else Doc(GameSettingsId, o.now, None, DefaultGameSettingsBody)
  }

  /** New settings go to the game room and the admin room as a game update. */
  function AnnounceSettings(d: Doc, now: int): seq<Outgoing> {
    var u := GameState.UpdateGameState(GameState.GameStateUpdate(None, None, None, Some([d])), now);
    [ToRoom(GameRoom, GameUpdate(u)), ToRoom(AdminRoom, GameUpdate(u))]
  }

  /** Store settings under their fixed id and announce them. */
  function StoreSettings(s: Store, d: Doc, o: Oracle): Effect
    requires d.id == GameSettingsId
  {
    Effect(s.(gameSettings := s.gameSettings[GameSettingsId := d]), {}, AnnounceSettings(d, o.now),
           Returned(Obj(map["success" := Bool(true)])))
  }

  /** `startForceRefresh`: a new refresh token, everything else kept. */
  function StartForceRefresh(s: Store, params: Value, ctx: SocketCtx, o: Oracle): (e: Effect)
    ensures GameSettingsId in e.store.gameSettings
    ensures var d := e.store.gameSettings[GameSettingsId];
            && d.modified == o.now && Get(d, "refreshToken") == Str(o.randomToken)
            && (forall k :: k != "refreshToken" ==> Get(d, k) == Get(CurrentSettings(s, o), k))
            && e.out == [ToRoom(GameRoom, GameUpdate(GameState.GameStateUpdate(None, None, None, Some([d])))),
                         ToRoom(AdminRoom, GameUpdate(GameState.GameStateUpdate(None, None, None, Some([d]))))]
    ensures e.store == s.(gameSettings := e.store.gameSettings)
    ensures forall id :: id != GameSettingsId ==> (id in e.store.gameSettings <==> id in s.gameSettings)
  {
    var current := CurrentSettings(s, o);
    var d := Patch(current, map["refreshToken" := Str(o.randomToken)]).(modified := o.now);
    StoreSettings(s, d, o)
  }

  /** `setGameState`: a new `state`, everything else kept. */
  function SetGameState(s: Store, params: Value, ctx: SocketCtx, o: Oracle): (e: Effect)
    ensures GameSettingsId in e.store.gameSettings
    ensures var d := e.store.gameSettings[GameSettingsId];
            && d.modified == o.now && Get(d, "state") == Prop(params, "state")
            && (forall k :: k != "state" ==> Get(d, k) == Get(CurrentSettings(s, o), k))
            && e.out == [ToRoom(GameRoom, GameUpdate(GameState.GameStateUpdate(None, None, None, Some([d])))),
                         ToRoom(AdminRoom, GameUpdate(GameState.GameStateUpdate(None, None, None, Some([d]))))]
    ensures e.store == s.(gameSettings := e.store.gameSettings)
  {
    var current := CurrentSettings(s, o);
    var d := Patch(current, map["state" := Prop(params, "state")]).(modified := o.now);
    StoreSettings(s, d, o)
  }

  /** A forced refresh does not disturb the game state set before it. */
  lemma RefreshKeepsState(s: Store, params: Value, ctx: SocketCtx, o1: Oracle, o2: Oracle)
    ensures var s1 := SetGameState(s, params, ctx, o1).store;
            var s2 := StartForceRefresh(s1, Obj(map[]), ctx, o2).store;
            Get(s2.gameSettings[GameSettingsId], "state") == Prop(params, "state")
  {
    var s1 := SetGameState(s, params, ctx, o1).store;
    assert CurrentSettings(s1, o2) == s1.gameSettings[GameSettingsId];
  }

  /** `sep` occurs in `s` at index `j`. */
  predicate OccursAt(s: string, sep: string, j: int) {
    0 <= j && j + |sep| <= |s| && s[j..j + |sep|] == sep
  }

  /** The first index of `sep` in `s` at or after `from`, or -1. */
  function FindFrom(s: string, sep: string, from: nat): (i: int)
    requires |sep| > 0
    ensures i == -1 || (from <= i && OccursAt(s, sep, i))
    ensures i == -1 ==> forall j :: from <= j ==> !OccursAt(s, sep, j)
    ensures i != -1 ==> forall j :: from <= j < i ==> !OccursAt(s, sep, j)
    decreases |s| - from
  {
    if from + |sep| > |s| then -1
    else if s[from..from + |sep|] == sep then from
    else FindFrom(s, sep, from + 1)
  }

  /** The first two pieces of `s.split(sep)`: the text before the first
      separator, and the text between the first and the second (or to the end)
      when there is a first. */
  function SplitFirst(s: string, sep: string): (r: (string, Option<string>))
    requires |sep| > 0
    ensures FindFrom(s, sep, 0) == -1 ==> r == (s, None)
    ensures FindFrom(s, sep, 0) != -1 ==>
              var i := FindFrom(s, sep, 0);
              var rest := s[i + |sep|..];
              && r.0 == s[..i] && r.1.Some? && r.1.value <= rest
              && (r.1.value == rest || OccursAt(rest, sep, |r.1.value|))
              && forall j :: 0 <= j < |r.1.value| ==> !OccursAt(rest, sep, j)
  {
    var i := FindFrom(s, sep, 0);
    if i == -1 then (s, None)
    else
      var rest := s[i + |sep|..];
      var j := FindFrom(rest, sep, 0);
      (s[..i], Some(if j == -1 then rest else rest[..j]))
  }

  /** Where `uploadFile` writes: the extension is what follows the first `/`
      of the data-URL header; a zip is unpacked into a directory named by the
      new id, anything else is saved as `<id>.<extension>`. Without a
      `;base64,` separator there is no data and the write fails. */
  datatype Upload = Upload(extension: string, isZip: bool, path: string, data: Option<string>)

  function PlanUpload(base64: string, fileId: string): (u: Upload)
    ensures u.isZip <==> u.extension == "zip"
    ensures u.isZip ==> u.path == fileId
    ensures !u.isZip ==> u.path == fileId + "." + u.extension
    ensures var header := SplitFirst(base64, ";base64,").0;
            && ('/' !in header ==> u.extension == header)
            && ('/' in header ==>
                  var k := |header| - |u.extension| - 1;
                  0 <= k && header[k] == '/' && '/' !in header[..k] && header[k + 1..] == u.extension)
    ensures u.data.None? <==> FindFrom(base64, ";base64,", 0) == -1
  {
    var (header, data) := SplitFirst(base64, ";base64,");
    var slash := IndexOf(header, '/');
    var extension := header[slash + 1..];
    Upload(extension, extension == "zip", if extension == "zip" then fileId else fileId + "." + extension, data)
  }

  /** A data URL's extension is the subtype of its MIME type. */
  lemma UploadOfDataUrl(mime: string, ext: string, data: string, fileId: string)
    requires ';' !in mime && ';' !in ext && '/' !in mime && '/' !in ext
    ensures var u := PlanUpload("data:" + mime + "/" + ext + ";base64," + data, fileId);
            && u.extension == ext
            && u.path == (if ext == "zip" then fileId else fileId + "." + ext)
            && u.data.Some?
  {
    var sep := ";base64,";
    var p := "data:" + mime + "/" + ext;
    var s := p + sep + data;
    assert OccursAt(s, sep, |p|) by { assert s[|p|..|p| + |sep|] == sep; }
    forall j | 0 <= j < |p| ensures !OccursAt(s, sep, j) {
      assert s[j] == p[j];
      assert p[j] != ';' by {
        assert p == "data:" + mime + "/" + ext;
        if j < 5 + |mime| + 1 { assert p[j] in "data:" + mime + "/"; } else { assert p[j] == ext[j - 5 - |mime| - 1]; }
      }
    }
    var i := FindFrom(s, sep, 0);
    assert i == |p|;
    assert SplitFirst(s, sep).0 == p by { assert s[..|p|] == p; }
    var k := 5 + |mime|;
    assert p[k] == '/';
    assert '/' !in p[..k] by { assert p[..k] == "data:" + mime; }
    var slash := IndexOf(p, '/');
    assert p[k + 1..] == ext;
  }

  /** The socket, store and clock a handler runs with, as one RPC context. */
  datatype AdminCtx = AdminCtx(store: Store, socket: SocketCtx, oracle: Oracle)

  /** A handler as the RPC server sees it: only how it settles. */
  function AsRpcHandler(h: Handler): (f: (Value, AdminCtx) -> Outcome)
    ensures forall params: Value, c: AdminCtx :: f(params, c) == h(c.store, params, c.socket, c.oracle).outcome
  {
    (params: Value, c: AdminCtx) => h(c.store, params, c.socket, c.oracle).outcome
  }

  /** A protected RPC called from outside the admin room answers
      "Not authenticated", whatever the handler behind it would have done. */
  lemma UnauthenticatedCallRejected(h: Handler, parseCall: Value -> Option<Value>,
                                    buildResponse: (Value, Value, Option<string>) -> Value,
                                    value: Value, c: AdminCtx)
    requires parseCall(value).Some?
    requires AdminRoom !in c.socket.rooms
    ensures RequestHandler(Registration(parseCall, buildResponse, AsRpcHandler(Protect(h))), value, c)
            == Some(buildResponse(parseCall(value).value, Undefined, Some(NotAuthenticated)))
  {
  }

  /** An admin whose copy of a question is older than the upsert ends up with
      the stored question's metadata and every field it carries. */
  lemma AdminSeesUpsert(view: AdminEntities, s: Store, params: Value, ctx: SocketCtx, o: Oracle)
    requires var id := DocId(params, o); id !in view.questions || view.questions[id].modified < o.now
    ensures var e := UpsertQuestion(s, params, ctx, o);
            var id := DocId(params, o);
            var stored := e.store.questions[id];
            var view' := ReduceAdmin(view, UpdateAdminState(e.out[0].action.update));
            && id in view'.questions
            && view'.questions[id].modified == stored.modified && view'.questions[id].deleted == stored.deleted
            && forall k :: k in stored.body ==> Get(view'.questions[id], k) == stored.body[k]
  {
    var d := BuildDoc(params, o);
    MergeOne(view.questions, d);
  }
}

=== FILE: admin_panel_client.dfy ===
/** The admin panel's copy of the trivia socket client
    (admin_panel/src/client_socket.ts). Its pending table, response listener
    and timers are the shared client's; its requests go out with
    `socket.emit("game_req", ...)`. */
module AdminPanelClient {
  import opened Basics
  import opened Json
  import opened SocketInterface
  import opened Transport
  import opened ClientSocket

  /** `send(event, message)`: the token is entered before the request is
      emitted, and the request is emitted on the `game_req` event. */
  function Send(c: Client, kind: Kind, message: Value, token: string, now: int): (r: (Client, Emission))
    ensures r.0 == AddPending(c, kind, token, now)
    ensures Heard("game_req", r.1) == Some(RequestPayload(kind, token, message))
    ensures ParsePayload(Heard("game_req", r.1).value) == Some(Payload(kind, token, message))
  {
    (AddPending(c, kind, token, now), Emit("game_req", [RequestPayload(kind, token, message)]))
  }
}

=== FILE: admin_state.dfy ===
/** The administrator's view of the game: the `admin/update` action and its
    reducer (libraries/game_socket/src/trivia/admin_state.ts). */
module AdminState {
  import opened Basics
  import opened Json
  import opened Docs
  import opened EntityMerge

  /** `AdminStateUpdate`: any subset of the lists, and at most one order. */
  datatype AdminStateUpdate = AdminStateUpdate(
    questions: Option<seq<Doc>>,
    teams: Option<seq<Doc>>,
    guesses: Option<seq<Doc>>,
    order: Option<Doc>)

  /** An update that carries nothing. */
  const EmptyAdminUpdate: AdminStateUpdate := AdminStateUpdate(None, None, None, None)

  /** The action type of `updateAdminState`. */
  const AdminUpdateType: string := "admin/update"

  /** A created action: its type and payload. */
  datatype AdminAction = AdminAction(actionType: string, payload: AdminStateUpdate)

  /** `updateAdminState(payload)`: the payload travels unredacted. */
  function UpdateAdminState(payload: AdminStateUpdate): (a: AdminAction)
    ensures a.actionType == "admin/update" && a.payload == payload
  {
    AdminAction(AdminUpdateType, payload)
  }

  /** The admin reducer's four slices. */
  datatype AdminEntities = AdminEntities(
    questions: Entities,
    teams: Entities,
    guesses: Entities,
    order: Entities)

  const InitialAdminEntities: AdminEntities := AdminEntities(map[], map[], map[], map[])

  /** The order slice's getter: `order ? [order] : order`. */
  function OrderDocs(order: Option<Doc>): (r: Option<seq<Doc>>)
    ensures order.None? ==> r.None?
    ensures order.Some? ==> r == Some([order.value])
  {
    match order
    case None => None
    case Some(o) => Some([o])
  }

  /** The admin reducer: on an `admin/update` action every slice filters its
      own list against the stored copies and upserts the rest; an absent list
      leaves its slice as it was. Every other action leaves the state alone. */
  function ReduceAdmin(s: AdminEntities, a: AdminAction): (r: AdminEntities)
    ensures a.actionType != AdminUpdateType ==> r == s
    ensures a.payload.questions.None? ==> r.questions == s.questions
    ensures a.payload.teams.None? ==> r.teams == s.teams
    ensures a.payload.guesses.None? ==> r.guesses == s.guesses
    ensures a.payload.order.None? ==> r.order == s.order
    ensures a.actionType == AdminUpdateType && a.payload.questions.Some? ==>
              r.questions.Keys == s.questions.Keys + Ids(a.payload.questions.value)
    ensures a.actionType == AdminUpdateType && a.payload.order.Some? ==>
              r.order.Keys == s.order.Keys + {a.payload.order.value.id}
    ensures a.actionType == AdminUpdateType ==>
              && SliceMerged(s.questions, a.payload.questions, r.questions)
              && SliceMerged(s.teams, a.payload.teams, r.teams)
              && SliceMerged(s.guesses, a.payload.guesses, r.guesses)
              && SliceMerged(s.order, OrderDocs(a.payload.order), r.order)
    ensures a.actionType == AdminUpdateType && a.payload.teams.Some? ==>
              r.teams.Keys == s.teams.Keys + Ids(a.payload.teams.value)
    ensures a.actionType == AdminUpdateType && a.payload.guesses.Some? ==>
              r.guesses.Keys == s.guesses.Keys + Ids(a.payload.guesses.value)
  {
    if a.actionType != AdminUpdateType then s
    else
      assert a.payload.order.Some? ==> Ids([a.payload.order.value]) == {a.payload.order.value.id} by {
        if a.payload.order.Some? {
          var o := a.payload.order.value;
          assert o in [o];
        }
      }
      AdminEntities(
        MergeSlice(s.questions, a.payload.questions),
        MergeSlice(s.teams, a.payload.teams),
        MergeSlice(s.guesses, a.payload.guesses),
        MergeSlice(s.order, OrderDocs(a.payload.order)))
  }

  /** Re-applying an admin update whose lists never repeat an id changes
      nothing. With a repeated id the reducer as written is not idempotent
      (see `EntityMerge.StaleCopyInBatchWins`). */
  lemma ReduceAdminIdempotent(s: AdminEntities, u: AdminStateUpdate)
    requires u.questions.Some? ==> DistinctIds(u.questions.value)
    requires u.teams.Some? ==> DistinctIds(u.teams.value)
    requires u.guesses.Some? ==> DistinctIds(u.guesses.value)
    ensures ReduceAdmin(ReduceAdmin(s, UpdateAdminState(u)), UpdateAdminState(u)) == ReduceAdmin(s, UpdateAdminState(u))
  {
    if u.questions.Some? { MergeIdempotent(s.questions, u.questions.value); }
    if u.teams.Some? { MergeIdempotent(s.teams, u.teams.value); }
    if u.guesses.Some? { MergeIdempotent(s.guesses, u.guesses.value); }
    if u.order.Some? { MergeIdempotent(s.order, [u.order.value]); }
  }

  /** An action of any other type, such as `game/update`, leaves the admin
      view unchanged. */
  lemma OtherActionsIgnored(s: AdminEntities, a: AdminAction, u: AdminStateUpdate)
    requires a.actionType != AdminUpdateType
    ensures ReduceAdmin(s, a) == s
    ensures ReduceAdmin(s, AdminAction("game/update", u)) == s
  {
  }

  /** A single order is merged as a one-element list under its own id: an
      unseen id is inserted, a stale one discarded. */
  lemma OrderSlice(s: AdminEntities, o: Doc)
    ensures var r := ReduceAdmin(s, UpdateAdminState(AdminStateUpdate(None, None, None, Some(o))));
            && r.questions == s.questions && r.teams == s.teams && r.guesses == s.guesses
            && (o.id !in s.order ==> r.order == s.order[o.id := o])
            && (o.id in s.order && o.modified <= s.order[o.id].modified ==> r.order == s.order)
  {
    MergeOne(s.order, o);
  }
}

=== FILE: basics.dfy ===
/** Failure-carrying wrappers shared by every module of the model. */
module Basics {

  /** A value that may be missing: JavaScript's `T | undefined`. */
  datatype Option<+T> = None | Some(value: T) {
    function GetOr(default: T): T {
      match this
      case Some(v) => v
      case None => default
    }
  }

  /** The outcome of an operation that may throw: the thrown message is kept. */
  datatype Result<+T> = Ok(value: T) | Err(message: string)

  /** First position of `x` in `s`, or -1: JavaScript's `Array.prototype.indexOf`. */
  function IndexOf<T(==)>(s: seq<T>, x: T): (i: int)
    ensures -1 <= i < |s|
    ensures i == -1 <==> x !in s
    ensures 0 <= i ==> s[i] == x && x !in s[..i]
  {
    if |s| == 0 then -1
    else if s[0] == x then 0
    else
      var j := IndexOf(s[1..], x);
      if j == -1 then -1
      else
        assert s[1..][..j] == s[1..j + 1];
        assert s[..j + 1] == [s[0]] + s[1..j + 1];
        j + 1
  }
}

=== FILE: builder.dfy ===
/** The patch algebra of `Builder` (shared/trivia-ws/src/builder.ts): an
    object is rebuilt by initial, replace and concat patches. */
module Builder {
  import opened Basics
  import opened Json

  /** The built object, as its own enumerable properties. */
  type Data = map<string, Value>

  /** The three patch kinds. */
  datatype Patch =
    | Initial(value: Data)
    | Replace(data: Data)
    | Concat(data: Data)

  /** A `Builder` holds the current data. */
  datatype Builder = Builder(data: Data)

  /** The message every failed concat throws. */
  const PatchError: string := "Unable to patch value"

  /** `new Builder(initialData)`: a shallow copy, so the same properties. */
  function New(initialData: Data): (b: Builder)
    ensures b.data == initialData
  {
    Builder(initialData)
  }

  /** `this.data[key]`, `undefined` when absent. */
  function Lookup(d: Data, key: string): Value {
    if key in d then d[key] else Undefined
  }

  /** `patchValue`: a falsy new value keeps the current one; two arrays are
      joined, current first; anything else throws. */
  function PatchValue(current: Value, value: Value): (r: Result<Value>)
    ensures !Truthy(value) ==> r == Ok(current)
    ensures Truthy(value) && current.Arr? && value.Arr? ==>
              r.Ok? && r.value.Arr? && r.value.items == current.items + value.items
    ensures Truthy(value) && !(current.Arr? && value.Arr?) ==> r == Err(PatchError)
  {
    if !Truthy(value) then Ok(current)
    else if current.Arr? && value.Arr? then Ok(Arr(current.items + value.items))
    else Err(PatchError)
  }

  /** Every listed key can be patched. */
  predicate Concatenable(data: Data, patchData: Data) {
    forall k :: k in patchData ==> PatchValue(Lookup(data, k), patchData[k]).Ok?
  }

  /** The concat patch, all at once: every listed key patched against the data
      as it was before the patch, or the throw of the first key that fails. */
  function ConcatAll(data: Data, patchData: Data): (r: Result<Data>)
    ensures r.Ok? <==> Concatenable(data, patchData)
    ensures r.Err? ==> r.message == PatchError
    ensures r.Ok? ==>
              && r.value.Keys == data.Keys + patchData.Keys
              && (forall k :: k in data && k !in patchData ==> r.value[k] == data[k])
              && (forall k :: k in patchData ==> r.value[k] == PatchValue(Lookup(data, k), patchData[k]).value)
  {
    if Concatenable(data, patchData) then
      Ok(data + map k | k in patchData :: PatchValue(Lookup(data, k), patchData[k]).value)
    else
      Err(PatchError)
  }

  /** `handleConcatPatch`: the loop over `Object.keys(patch.data)`, in any
      order, building `patchedData` from a copy of the data. */
  method HandleConcatPatch(data: Data, patchData: Data) returns (r: Result<Data>)
    ensures r == ConcatAll(data, patchData)
  {
    var patched := data;
    var remaining := patchData.Keys;
    while remaining != {}
      invariant remaining <= patchData.Keys
      invariant patched.Keys == data.Keys + (patchData.Keys - remaining)
      invariant forall k :: k in data && k !in patchData.Keys - remaining ==> patched[k] == data[k]
      invariant forall k :: k in patchData.Keys - remaining ==>
                  PatchValue(Lookup(data, k), patchData[k]).Ok? &&
                  patched[k] == PatchValue(Lookup(data, k), patchData[k]).value
      decreases remaining
    {
      var k :| k in remaining;
      var v := PatchValue(Lookup(data, k), patchData[k]);
      if v.Err? {
        return Err(PatchError);
      }
      patched := patched[k := v.value];
      remaining := remaining - {k};
    }
    var expected := data + map k | k in patchData :: PatchValue(Lookup(data, k), patchData[k]).value;
    assert patched == expected;
    r := Ok(patched);
  }

  /** `patch(p)`: the new builder and what the call returns. A throw leaves
      the builder as it was. */
  function ApplyPatch(b: Builder, p: Patch): (r: (Builder, Result<Data>))
    ensures r.1.Ok? ==> r.1.value == r.0.data
    ensures r.1.Err? ==> r.0 == b && r.1.message == PatchError
    ensures p.Initial? ==> r.1 == Ok(p.value)
    ensures p.Replace? ==>
              && r.1.Ok?
              && r.0.data.Keys == b.data.Keys + p.data.Keys
              && (forall k :: k in p.data ==> r.0.data[k] == p.data[k])
              && (forall k :: k in b.data && k !in p.data ==> r.0.data[k] == b.data[k])
    ensures p.Concat? ==> r.1 == ConcatAll(b.data, p.data)
  {
    match p
    case Initial(value) => (Builder(value), Ok(value))
    case Replace(data) => (Builder(b.data + data), Ok(b.data + data))
    case Concat(data) =>
      match ConcatAll(b.data, data)
      case Ok(d) => (Builder(d), Ok(d))
      case Err(m) => (b, Err(m))
  }

  /** An empty replace patch changes nothing. */
  lemma EmptyReplaceIsIdentity(b: Builder)
    ensures ApplyPatch(b, Replace(map[])) == (b, Ok(b.data))
  {
    assert b.data + map[] == b.data;
  }

  /** Concat on two arrays keeps their order and sums their lengths; a falsy
      entry keeps the key's value; an entry that is not an array throws and
      the data stays as it was. */
  lemma ConcatContents(b: Builder, key: string, value: Value)
    ensures var cur := Lookup(b.data, key);
            var r := ApplyPatch(b, Concat(map[key := value]));
            && (!Truthy(value) ==> r.1.Ok? && Lookup(r.0.data, key) == cur)
            && (Truthy(value) && cur.Arr? && value.Arr? ==>
                  && r.1.Ok?
                  && r.0.data[key] == Arr(cur.items + value.items)
                  && |r.0.data[key].items| == |cur.items| + |value.items|)
            && (Truthy(value) && !(cur.Arr? && value.Arr?) ==> r == (b, Err(PatchError)))
  {
    var p := map[key := value];
    assert p.Keys == {key};
    if Truthy(value) && !(Lookup(b.data, key).Arr? && value.Arr?) {
      assert !Concatenable(b.data, p);
    } else {
      assert Concatenable(b.data, p);
    }
  }

  /** Two concat patches compose as one whose arrays are joined in turn. */
  lemma ConcatTwice(b: Builder, key: string, first: seq<Value>, second: seq<Value>)
    requires Lookup(b.data, key).Arr?
    ensures var r1 := ApplyPatch(b, Concat(map[key := Arr(first)]));
            && r1.1.Ok?
            && var r2 := ApplyPatch(r1.0, Concat(map[key := Arr(second)]));
               && r2.1.Ok?
               && r2.0.data[key] == Arr(Lookup(b.data, key).items + first + second)
  {
    ConcatContents(b, key, Arr(first));
    var b1 := ApplyPatch(b, Concat(map[key := Arr(first)])).0;
    assert Lookup(b1.data, key) == Arr(Lookup(b.data, key).items + first);
    ConcatContents(b1, key, Arr(second));
  }
}

=== FILE: channel.dfy ===
/** One call across the trivia socket, client to server and back. */
module TriviaChannel {
  import opened Basics
  import opened Json
  import opened Validator
  import opened SocketInterface
  import opened Handlers
  import opened Transport
  import opened ClientSocket
  import opened ServerSocket
  import AdminPanelClient

  /** With the request emitted on `game_req` and the answer emitted on
      `game_resp`, a valid call resolves to its handler's answer, the token
      leaves the table, and a second copy of the answer resolves nothing. */
  lemma {:induction false} CallRoundTrip(c: Client, kind: Kind, message: Value, token: string, now: int,
                                         s: Server, socketId: string)
    requires Validate(message, MessageSchema(kind))
    ensures var (c1, req) := AdminPanelClient.Send(c, kind, message, token, now);
            var answer := OnGameReq(s, socketId, Heard("game_req", req).value);
            && answer.Some?
            && var back := Heard("game_resp", answer.value).value;
               var (c2, resolved) := OnGameResp(c1, back);
               && resolved == Some(Resolution(token, ServerHandler(kind, message, ServerInfo(InfoOf(s, socketId)))))
               && c2.pending == c.pending - {token}
               && OnGameResp(c2, back) == (c2, None)
  {
    var (c1, req) := AdminPanelClient.Send(c, kind, message, token, now);
    var heard := Heard("game_req", req).value;
    assert ParsePayload(heard) == Some(Payload(kind, token, message));
    var answer := OnGameReq(s, socketId, heard);
    var resp := Respond(s, socketId, heard).value;
    var back := Heard("game_resp", answer.value).value;
    assert back == PayloadValue(resp);
    PayloadRoundTrip(resp);
    assert token in c1.pending && c1.pending[token].kind == kind;
    assert c1.pending - {token} == c.pending - {token};
  }

  /** As written, the shared client's request is sent on the "message" event,
      which the server's `game_req` listener never hears; and the server's
      answers are sent on "message" too, which no `game_resp` listener hears.
      A call can then only resolve by its timer, to the timeout response. */
  lemma AsWrittenCallsTimeOut(c: Client, kind: Kind, message: Value, token: string, now: int,
                              s: Server, socketId: string, payload: Value)
    ensures Heard("game_req", ClientSocket.Send(c, kind, message, token, now).1).None?
    ensures OnGameReqAsWritten(s, socketId, payload).Some? ==>
              Heard("game_resp", OnGameReqAsWritten(s, socketId, payload).value).None?
    ensures Expire(ClientSocket.Send(c, kind, message, token, now).0, token, now + RequestTimeout).1
            == Some(Resolution(token, TimeoutResponse(kind)))
  {
  }

  /** The corrected server's answer to a valid request is heard on `game_resp`
      and, for the kind the request named, always passes the response check. */
  lemma CorrectedAnswerIsHeard(s: Server, socketId: string, payload: Value)
    requires Respond(s, socketId, payload).Some?
    ensures Heard("game_resp", OnGameReq(s, socketId, payload).value).Some?
    ensures ValidPayload(Heard("game_resp", OnGameReq(s, socketId, payload).value).value)
  {
    PayloadRoundTrip(Respond(s, socketId, payload).value);
  }
}

=== FILE: client_socket.dfy ===
/** The caller side of the trivia socket: a pending-request table keyed by
    correlation token (shared/trivia-ws/src/client_socket.ts). Timers are
    explicit `Expire` events; `uuid()` and `Date.now()` are parameters. */
module ClientSocket {
  import opened Basics
  import opened Json
  import opened Validator
  import opened SocketInterface
  import opened Transport

  /** `REQUEST_TIMEOUT`, in milliseconds. */
  const RequestTimeout: int := 5000

  /** A call waiting for its answer: its kind and the time its timer fires. */
  datatype PendingCall = PendingCall(kind: Kind, deadline: int)

  /** The `pendingRequests` table. */
  datatype Client = Client(pending: map<string, PendingCall>)

  /** A fresh socket has nothing pending. */
  const NewClient: Client := Client(map[])

  /** A call resolved: the token it was made with and the value it resolves to. */
  datatype Resolution = Resolution(token: string, response: Value)

  /** The request envelope `{ kind, token, message }`. */
  function RequestPayload(kind: Kind, token: string, message: Value): (v: Value)
    ensures ParsePayload(v) == Some(Payload(kind, token, message))
  {
    PayloadRoundTrip(Payload(kind, token, message));
    PayloadValue(Payload(kind, token, message))
  }

  /** The table change of `send`: the token is entered, with its timer armed
      `REQUEST_TIMEOUT` after `now`, before the request leaves. */
  function AddPending(c: Client, kind: Kind, token: string, now: int): (c': Client)
    ensures token in c'.pending && c'.pending[token] == PendingCall(kind, now + RequestTimeout)
    ensures c'.pending.Keys == c.pending.Keys + {token}
    ensures forall t :: t in c.pending && t != token ==> t in c'.pending && c'.pending[t] == c.pending[t]
  {
    Client(c.pending[token := PendingCall(kind, now + RequestTimeout)])
  }

  /** `send(event, message)` as written: the request goes out through
      `socket.send("game_req", payload)`. */
  function Send(c: Client, kind: Kind, message: Value, token: string, now: int): (r: (Client, Emission))
    ensures r.0 == AddPending(c, kind, token, now)
    ensures r.1.event == "message" && r.1.args == [Str("game_req"), RequestPayload(kind, token, message)]
  {
    (AddPending(c, kind, token, now), SocketSend([Str("game_req"), RequestPayload(kind, token, message)]))
  }

  /** The `game_resp` listener as written: the message is checked against the
      response validator of the kind the ENVELOPE names. */
  function OnGameRespAsWritten(c: Client, payload: Value): (r: (Client, Option<Resolution>))
    ensures r.1.Some? <==>
              && ParsePayload(payload).Some?
              && Validate(ParsePayload(payload).value.message, ResponseSchema(ParsePayload(payload).value.kind))
              && ParsePayload(payload).value.token in c.pending
    ensures r.1.Some? ==>
              && r.1.value == Resolution(ParsePayload(payload).value.token, Prop(payload, "message"))
              && r.0.pending == c.pending - {r.1.value.token}
    ensures r.1.None? ==> r.0 == c
  {
    match ParsePayload(payload)
    case None => (c, None)
    case Some(p) =>
      if !Validate(p.message, ResponseSchema(p.kind)) then (c, None)
      else if p.token !in c.pending then (c, None)
      else (Client(c.pending - {p.token}), Some(Resolution(p.token, p.message)))
  }

  /** The `game_resp` listener, corrected: the message must be a valid response
      of the kind the pending CALL was made with, so what a call resolves to
      always has that call's response shape. */
  function OnGameResp(c: Client, payload: Value): (r: (Client, Option<Resolution>))
    ensures r.1.Some? <==>
              && ParsePayload(payload).Some?
              && ParsePayload(payload).value.token in c.pending
              && Validate(ParsePayload(payload).value.message,
                          ResponseSchema(c.pending[ParsePayload(payload).value.token].kind))
    ensures r.1.Some? ==>
              && r.1.value == Resolution(ParsePayload(payload).value.token, Prop(payload, "message"))
              && r.0.pending == c.pending - {r.1.value.token}
              && Validate(r.1.value.response, ResponseSchema(c.pending[r.1.value.token].kind))
    ensures r.1.None? ==> r.0 == c
  {
    match ParsePayload(payload)
    case None => (c, None)
    case Some(p) =>
      if p.token !in c.pending then (c, None)
      else if !Validate(p.message, ResponseSchema(c.pending[p.token].kind)) then (c, None)
      else (Client(c.pending - {p.token}), Some(Resolution(p.token, p.message)))
  }

  /** The timer of `token` fires at `now`: a call still pending whose deadline
      has come resolves to its kind's timeout response and leaves the table.
      A cleared timer (the token is gone) or an early tick does nothing. */
  function Expire(c: Client, token: string, now: int): (r: (Client, Option<Resolution>))
    ensures r.1.Some? <==> token in c.pending && c.pending[token].deadline <= now
    ensures r.1.Some? ==>
              && r.1.value == Resolution(token, TimeoutResponse(c.pending[token].kind))
              && r.0.pending == c.pending - {token}
              && Validate(r.1.value.response, ResponseSchema(c.pending[token].kind))
    ensures r.1.None? ==> r.0 == c
  {
    if token in c.pending && c.pending[token].deadline <= now then
      TablesCoverEveryKind(c.pending[token].kind);
      (Client(c.pending - {token}), Some(Resolution(token, TimeoutResponse(c.pending[token].kind))))
    else (c, None)
  }

  /** The as-written and corrected listeners agree on every response that
      echoes the kind of the call it answers, as the server always does. */
  lemma AgreeOnEchoedKind(c: Client, payload: Value)
    requires ParsePayload(payload).Some?
    requires ParsePayload(payload).value.token in c.pending ==>
               c.pending[ParsePayload(payload).value.token].kind == ParsePayload(payload).value.kind
    ensures OnGameRespAsWritten(c, payload) == OnGameResp(c, payload)
  {
  }

  /** A response whose envelope names the other kind is delivered, as written,
      to a pending guess call although it is no guess response: the call
      resolves to `{isCorrect2: true}`, which lacks `isCorrect`. The corrected
      listener drops it and leaves the call pending. */
  lemma MismatchedKindDelivered()
    ensures var c := Client(map["t" := PendingCall(Guess, RequestTimeout)]);
            var resp := RequestPayload(Guess2, "t", Obj(map["isCorrect2" := Bool(true)]));
            && OnGameRespAsWritten(c, resp).1 == Some(Resolution("t", Obj(map["isCorrect2" := Bool(true)])))
            && !Validate(Obj(map["isCorrect2" := Bool(true)]), ResponseSchema(Guess))
            && OnGameResp(c, resp) == (c, None)
  {
    var c := Client(map["t" := PendingCall(Guess, RequestTimeout)]);
    var m := Obj(map["isCorrect2" := Bool(true)]);
    var resp := RequestPayload(Guess2, "t", m);
    assert Validate(m, ResponseSchema(Guess2)) by {
      assert Messages.ValidGuess2Response(m);
    }
    assert !Validate(m, ResponseSchema(Guess)) by {
      assert !Messages.ValidGuessResponse(m);
    }
  }

  /** The events a client sees. */
  datatype Event =
    | SendCall(kind: Kind, message: Value, token: string, now: int)
    | GameResp(payload: Value)
    | TimerFired(token: string, now: int)

  /** Which `game_resp` listener a client runs. */
  datatype Listener = AsWrittenListener | CorrectedListener

  /** The response listener of that choice. */
  function OnResponse(l: Listener, c: Client, payload: Value): (Client, Option<Resolution>) {
    match l
    case AsWrittenListener => OnGameRespAsWritten(c, payload)
    case CorrectedListener => OnGameResp(c, payload)
  }

  /** One event applied to the table, with either listener. */
  function Step(c: Client, e: Event, l: Listener): (r: (Client, Option<Resolution>))
    ensures r.1.Some? ==> r.1.value.token in c.pending && r.1.value.token !in r.0.pending
    ensures r.0.pending.Keys <= c.pending.Keys + (if e.SendCall? then {e.token} else {})
  {
    match e
    case SendCall(kind, message, token, now) => (Send(c, kind, message, token, now).0, None)
    case GameResp(payload) => OnResponse(l, c, payload)
    case TimerFired(token, now) => Expire(c, token, now)
  }

  /** The tokens the `SendCall` events of a trace use. */
  function SentTokens(es: seq<Event>): set<string> {
    set i | 0 <= i < |es| && es[i].SendCall? :: es[i].token
  }

  /** Every `send` draws a token no pending call and no other send uses. */
  ghost predicate FreshTokens(c: Client, es: seq<Event>) {
    forall i :: 0 <= i < |es| && es[i].SendCall? ==>
      && es[i].token !in c.pending
      && forall j :: i < j < |es| && es[j].SendCall? ==> es[j].token != es[i].token
  }

  /** A trace of events, with every call resolved along the way. */
  function Run(c: Client, es: seq<Event>, l: Listener): (r: (Client, seq<Resolution>))
    decreases |es|
  {
    if |es| == 0 then (c, [])
    else
      var (c1, d) := Step(c, es[0], l);
      var (c2, ds) := Run(c1, es[1..], l);
      (c2, (if d.Some? then [d.value] else []) + ds)
  }

  lemma SentTokensTail(es: seq<Event>)
    requires |es| > 0
    ensures SentTokens(es) == SentTokens(es[1..]) + (if es[0].SendCall? then {es[0].token} else {})
  {
    var tail := es[1..];
    forall t | t in SentTokens(es)
      ensures t in SentTokens(tail) + (if es[0].SendCall? then {es[0].token} else {})
    {
      var i :| 0 <= i < |es| && es[i].SendCall? && es[i].token == t;
      if i > 0 {
        assert tail[i - 1] == es[i];
      }
    }
    forall t | t in SentTokens(tail)
      ensures t in SentTokens(es)
    {
      var i :| 0 <= i < |tail| && tail[i].SendCall? && tail[i].token == t;
      assert es[i + 1] == tail[i];
    }
  }

  /** No token is resolved twice. */
  predicate DistinctTokens(rs: seq<Resolution>) {
    forall i, j :: 0 <= i < j < |rs| ==> rs[i].token != rs[j].token
  }

  /** Every resolved token is one of `tokens`. */
  predicate TokensWithin(rs: seq<Resolution>, tokens: set<string>) {
    forall i :: 0 <= i < |rs| ==> rs[i].token in tokens
  }

  /** Each call resolves at most once, with the listener as written and with
      the corrected one: with fresh tokens, no token is resolved twice in a
      trace, and only tokens that were pending or sent resolve. */
  lemma {:induction false} ResolvesAtMostOnce(c: Client, es: seq<Event>, l: Listener)
    requires FreshTokens(c, es)
    ensures DistinctTokens(Run(c, es, l).1)
    ensures TokensWithin(Run(c, es, l).1, c.pending.Keys + SentTokens(es))
    decreases |es|
  {
    if |es| == 0 {
    } else {
      var (c1, d) := Step(c, es[0], l);
      var tail := es[1..];
      assert FreshTokens(c1, tail) by {
        forall i | 0 <= i < |tail| && tail[i].SendCall?
          ensures tail[i].token !in c1.pending
        {
          assert es[i + 1] == tail[i];
          if es[0].SendCall? {
            assert tail[i].token != es[0].token;
          }
        }
        forall i, j | 0 <= i < j < |tail| && tail[i].SendCall? && tail[j].SendCall?
          ensures tail[j].token != tail[i].token
        {
          assert es[i + 1] == tail[i] && es[j + 1] == tail[j];
        }
      }
      ResolvesAtMostOnce(c1, tail, l);
      SentTokensTail(es);
      var ds := Run(c1, tail, l).1;
      assert TokensWithin(ds, c1.pending.Keys + SentTokens(tail));
      assert DistinctTokens(ds);
      var rs := Run(c, es, l).1;
      var head: seq<Resolution> := if d.Some? then [d.value] else [];
      assert rs == head + ds;
      assert c1.pending.Keys <= c.pending.Keys + (if es[0].SendCall? then {es[0].token} else {});
      forall j | 0 <= j < |ds|
        ensures ds[j].token in c.pending.Keys + SentTokens(es)
      {
      }
      if d.Some? {
        var t := d.value.token;
        assert t in c.pending && t !in c1.pending;
        assert t !in SentTokens(tail);
        forall j | 0 <= j < |ds| ensures ds[j].token != t {
        }
        assert rs[0].token == t;
        forall i, j | 0 <= i < j < |rs| ensures rs[i].token != rs[j].token {
          if i == 0 {
            assert rs[j] == ds[j - 1];
          } else {
            assert rs[i] == ds[i - 1] && rs[j] == ds[j - 1];
          }
        }
      } else {
        assert rs == ds;
      }
    }
  }
}

=== FILE: docs.dfy ===
/** The `Doc` base every stored entity shares: `_id`, `_modified`, `_deleted`,
    plus the entity's other fields. */
module Docs {
  import opened Basics
  import opened Json

  /** A document. `deleted` is `None` when `_deleted` is absent or undefined;
      `body` holds every other field, a field set to `undefined` included. */
  datatype Doc = Doc(id: string, modified: int, deleted: Option<bool>, body: map<string, Value>)

  /** `if (doc._deleted)`: a tombstone. */
  predicate IsDeleted(d: Doc) {
    d.deleted == Some(true)
  }

  /** `doc.field`, `undefined` when absent. */
  function Get(d: Doc, key: string): Value {
    if key in d.body then d.body[key] else Undefined
  }

  /** `getMetadata(doc)`: only `_id`, `_modified` and `_deleted`. */
  function Metadata(d: Doc): (m: Doc)
    ensures m.id == d.id && m.modified == d.modified && m.deleted == d.deleted
    ensures m.body == map[]
  {
    Doc(d.id, d.modified, d.deleted, map[])
  }

  /** `{ ...d, ...patch }` on the fields other than the metadata. */
  function Patch(d: Doc, patch: map<string, Value>): (r: Doc)
    ensures r.id == d.id && r.modified == d.modified && r.deleted == d.deleted
    ensures r.body.Keys == d.body.Keys + patch.Keys
    ensures forall k :: k in patch ==> r.body[k] == patch[k]
    ensures forall k :: k in d.body && k !in patch ==> r.body[k] == d.body[k]
  {
    Doc(d.id, d.modified, d.deleted, d.body + patch)
  }
}

=== FILE: entity_merge.dfy ===
/** The last-write-wins merge of the state reducers: a received document is
    applied only if its `_modified` is strictly greater than the stored one
    (the `handleUpdate*State` functions of the game and admin state files).
    Redux's `upsertMany` is modelled as a shallow field-wise overwrite. */
module EntityMerge {
  import opened Basics
  import opened Json
  import opened Docs

  /** One entity slice: documents keyed by `_id`. */
  type Entities = map<string, Doc>

  /** The stored copy is older: absent, or with a strictly smaller `_modified`. */
  predicate Newer(es: Entities, d: Doc) {
    d.id !in es || es[d.id].modified < d.modified
  }

  /** Upserting `d` over `stored`: every field `d` carries overwrites, the
      others stay. The metadata always comes from `d`: `buildDoc` and
      `getMetadata` set `_deleted` as an own property even when it is
      undefined, so the shallow assign always copies it. */
  function Overwrite(stored: Doc, d: Doc): (r: Doc)
    ensures r.id == d.id && r.modified == d.modified && r.deleted == d.deleted
    ensures r.body.Keys == stored.body.Keys + d.body.Keys
    ensures forall k :: k in d.body ==> r.body[k] == d.body[k]
    ensures forall k :: k in stored.body && k !in d.body ==> r.body[k] == stored.body[k]
  {
    Doc(d.id, d.modified, d.deleted, stored.body + d.body)
  }

  /** `upsertOne`: insert an unseen id, overwrite a seen one. */
  function Upsert(es: Entities, d: Doc): (r: Entities)
    ensures r.Keys == es.Keys + {d.id}
    ensures d.id !in es ==> r[d.id] == d
    ensures d.id in es ==> r[d.id] == Overwrite(es[d.id], d)
    ensures forall id :: id in es && id != d.id ==> r[id] == es[id]
  {
    if d.id in es then es[d.id := Overwrite(es[d.id], d)] else es[d.id := d]
  }

  /** `upsertMany`: the documents upserted in turn. */
  function UpsertMany(es: Entities, ds: seq<Doc>): Entities
    decreases |ds|
  {
    if |ds| == 0 then es else UpsertMany(Upsert(es, ds[0]), ds[1..])
  }

  /** The `filter` step as written: every document is compared with the state
      BEFORE the batch. */
  function FilterNewer(ds: seq<Doc>, es: Entities): (r: seq<Doc>)
    ensures forall d :: d in r ==> d in ds && Newer(es, d)
    ensures forall d :: d in ds && Newer(es, d) ==> d in r
    decreases |ds|
  {
    if |ds| == 0 then []
    else (if Newer(es, ds[0]) then [ds[0]] else []) + FilterNewer(ds[1..], es)
  }

  /** `filter` keeps the batch's order: filtering a concatenation is
      concatenating the filtered parts, so `upsertMany` sees the surviving
      documents in the order they were sent. */
  lemma {:induction false} FilterNewerAppend(a: seq<Doc>, b: seq<Doc>, es: Entities)
    ensures FilterNewer(a + b, es) == FilterNewer(a, es) + FilterNewer(b, es)
    decreases |a|
  {
    if |a| == 0 {
      assert a + b == b;
    } else {
      assert (a + b)[1..] == a[1..] + b;
      FilterNewerAppend(a[1..], b, es);
    }
  }

  /** The reducer case as written: filter against the stored state, then upsert
      what is left. */
  function MergeAsWritten(es: Entities, ds: seq<Doc>): Entities {
    UpsertMany(es, FilterNewer(ds, es))
  }

  /** The ids a batch touches. */
  function Ids(ds: seq<Doc>): set<string> {
    set d | d in ds :: d.id
  }

  /** One step of the corrected merge: last write wins on `d.id`. A newer
      copy takes over the id's metadata and the fields it carries; a copy no
      newer than the stored one is discarded; every other id is untouched. */
  function MergeStep(es: Entities, d: Doc): (r: Entities)
    ensures r.Keys == es.Keys + {d.id}
    ensures forall id :: id in es && id != d.id ==> r[id] == es[id]
    ensures d.id in es ==> d.modified <= r[d.id].modified && es[d.id].modified <= r[d.id].modified
    ensures Newer(es, d) ==>
              && r[d.id].modified == d.modified && r[d.id].deleted == d.deleted
              && forall k :: k in d.body ==> Get(r[d.id], k) == d.body[k]
    ensures !Newer(es, d) ==> r[d.id] == es[d.id]
  {
    if Newer(es, d) then Upsert(es, d) else es
  }

  /** The merge, corrected: each document is compared with the state as the
      documents before it left it, so a stale copy later in the same batch is
      discarded like any other stale copy. */
  function Merge(es: Entities, ds: seq<Doc>): Entities
    decreases |ds|
  {
    if |ds| == 0 then es else Merge(MergeStep(es, ds[0]), ds[1..])
  }

  /** What a merge keeps and what it changes: the keys grow by the batch's
      ids, ids outside the batch are untouched, no `_modified` goes down, and
      every id ends at least as recent as each copy of it in the batch. */
  lemma {:induction false} MergeFacts(es: Entities, ds: seq<Doc>)
    ensures Merge(es, ds).Keys == es.Keys + Ids(ds)
    ensures forall id :: id in es && id !in Ids(ds) ==> Merge(es, ds)[id] == es[id]
    ensures forall id :: id in es ==> es[id].modified <= Merge(es, ds)[id].modified
    ensures forall d :: d in ds ==> d.id in Merge(es, ds) && d.modified <= Merge(es, ds)[d.id].modified
    decreases |ds|
  {
    if |ds| == 0 {
      assert Ids(ds) == {};
    } else {
      var d0 := ds[0];
      var es1 := MergeStep(es, d0);
      var r := Merge(es1, ds[1..]);
      assert Merge(es, ds) == r;
      MergeFacts(es1, ds[1..]);
      assert Ids(ds) == {d0.id} + Ids(ds[1..]) by {
        assert forall d :: d in ds <==> d == d0 || d in ds[1..];
      }
      assert d0.id in es1 && d0.modified <= es1[d0.id].modified;
      forall id | id in es
        ensures es[id].modified <= r[id].modified
      {
        assert es[id].modified <= es1[id].modified;
      }
      forall d | d in ds
        ensures d.id in r && d.modified <= r[d.id].modified
      {
        if d != d0 {
          assert d in ds[1..];
        }
      }
    }
  }

  /** What a reducer promises of one slice `after` it merged the optional
      list `ds` into `before`: an absent list changes nothing; a present one
      adds exactly its ids, leaves every other id untouched, and, when it
      repeats no id, gives the corrected last-write-wins merge. */
  predicate SliceMerged(before: Entities, ds: Option<seq<Doc>>, after: Entities) {
    match ds
    case None => after == before
    case Some(docs) =>
      && after.Keys == before.Keys + Ids(docs)
      && (forall id :: id in before && id !in Ids(docs) ==> after[id] == before[id])
      && (DistinctIds(docs) ==> after == Merge(before, docs))
  }

  /** One slice's case of the reducer, as written: a present list is
      filtered and upserted; an absent one (`undefined`) changes nothing.
      On a list without repeated ids this is the corrected merge. */
  function MergeSlice(es: Entities, ds: Option<seq<Doc>>): (r: Entities)
    ensures ds.None? ==> r == es
    ensures ds.Some? ==> r.Keys == es.Keys + Ids(ds.value)
    ensures ds.Some? ==> forall id :: id in es && id !in Ids(ds.value) ==> r[id] == es[id]
    ensures ds.Some? && DistinctIds(ds.value) ==> r == Merge(es, ds.value)
    ensures SliceMerged(es, ds, r)
  {
    match ds
    case None => es
    case Some(docs) =>
      MergeAsWrittenFacts(es, docs);
      assert DistinctIds(docs) ==> MergeAsWritten(es, docs) == Merge(es, docs) by {
        if DistinctIds(docs) { AgreeOnDistinctIds(es, docs); }
      }
      MergeAsWritten(es, docs)
  }

  /** What `upsertMany` keeps and changes when every document is newer than
      the state `es0` it was filtered against: the keys grow by the batch's
      ids, other ids are untouched, and no `_modified` of `es0` goes down. */
  lemma {:induction false} UpsertManyFacts(es0: Entities, es: Entities, ds: seq<Doc>)
    requires es0.Keys <= es.Keys
    requires forall id :: id in es0 ==> es0[id].modified <= es[id].modified
    requires forall d :: d in ds ==> Newer(es0, d)
    ensures UpsertMany(es, ds).Keys == es.Keys + Ids(ds)
    ensures forall id :: id in es && id !in Ids(ds) ==> UpsertMany(es, ds)[id] == es[id]
    ensures forall id :: id in es0 ==> es0[id].modified <= UpsertMany(es, ds)[id].modified
    decreases |ds|
  {
    if |ds| == 0 {
      assert Ids(ds) == {};
    } else {
      var es1 := Upsert(es, ds[0]);
      assert ds[0] in ds;
      assert forall d :: d in ds[1..] ==> d in ds;
      UpsertManyFacts(es0, es1, ds[1..]);
      assert Ids(ds) == {ds[0].id} + Ids(ds[1..]) by {
        assert forall d :: d in ds <==> d == ds[0] || d in ds[1..];
      }
    }
  }

  /** The as-written merge: the keys grow by the batch's ids, ids outside the
      batch are untouched, and no `_modified` goes down. */
  lemma MergeAsWrittenFacts(es: Entities, ds: seq<Doc>)
    ensures MergeAsWritten(es, ds).Keys == es.Keys + Ids(ds)
    ensures forall id :: id in es && id !in Ids(ds) ==> MergeAsWritten(es, ds)[id] == es[id]
    ensures forall id :: id in es ==> es[id].modified <= MergeAsWritten(es, ds)[id].modified
  {
    var kept := FilterNewer(ds, es);
    UpsertManyFacts(es, es, kept);
    assert es.Keys + Ids(kept) == es.Keys + Ids(ds) by {
      forall d | d in ds ensures d.id in es.Keys + Ids(kept) {
        if Newer(es, d) { assert d in kept; }
      }
    }
    assert Ids(kept) <= Ids(ds);
  }

  /** One document: applied exactly when its id is unseen or the stored
      `_modified` is strictly smaller; equal or older copies are discarded. */
  lemma MergeOne(es: Entities, d: Doc)
    ensures MergeAsWritten(es, [d]) == Merge(es, [d])
    ensures Newer(es, d) ==> Merge(es, [d]) == Upsert(es, d)
    ensures !Newer(es, d) ==> Merge(es, [d]) == es
    ensures forall id :: id in es && id != d.id ==> Merge(es, [d])[id] == es[id]
  {
    assert [d][1..] == [];
    AgreeOnDistinctIds(es, [d]);
  }

  /** A batch of two is one step after the other. */
  lemma MergeTwo(es: Entities, a: Doc, b: Doc)
    ensures Merge(es, [a, b]) == MergeStep(MergeStep(es, a), b)
  {
    assert [a, b][1..] == [b];
    assert [b][1..] == [];
    assert Merge(es, [a, b]) == Merge(MergeStep(es, a), [b]);
    assert Merge(MergeStep(es, a), [b]) == Merge(MergeStep(MergeStep(es, a), b), []);
  }

  /** Merging is idempotent: delivering the same batch twice is the same as once. */
  lemma {:induction false} MergeIdempotent(es: Entities, ds: seq<Doc>)
    ensures Merge(Merge(es, ds), ds) == Merge(es, ds)
  {
    MergeFacts(es, ds);
    MergeAbsorbs(Merge(es, ds), ds);
  }

  /** A state already at least as recent as every document of a batch is left
      unchanged by it. */
  lemma {:induction false} MergeAbsorbs(es: Entities, ds: seq<Doc>)
    requires forall d :: d in ds ==> d.id in es && d.modified <= es[d.id].modified
    ensures Merge(es, ds) == es
    decreases |ds|
  {
    if |ds| == 0 {
    } else {
      assert ds[0] in ds;
      assert !Newer(es, ds[0]);
      assert forall d :: d in ds[1..] ==> d in ds;
      MergeAbsorbs(es, ds[1..]);
    }
  }

  /** Two updates of one document, delivered as two actions in either
      order, leave the newer one's `_modified`, deletion flag and fields in
      place (provided it beats the stored copy). Fields only the older copy
      carries survive in one order only, since the upsert is shallow. */
  lemma DeliveryOrderIrrelevant(es: Entities, a: Doc, b: Doc)
    requires a.id == b.id && a.modified < b.modified && Newer(es, b)
    ensures var ab := MergeAsWritten(MergeAsWritten(es, [a]), [b]);
            var ba := MergeAsWritten(MergeAsWritten(es, [b]), [a]);
            && ba == MergeAsWritten(es, [b])
            && b.id in ab && ab[b.id].modified == b.modified && ab[b.id].deleted == b.deleted
            && b.id in ba && ba[b.id].modified == b.modified && ba[b.id].deleted == b.deleted
            && (forall k :: k in b.body ==> Get(ab[b.id], k) == b.body[k] && Get(ba[b.id], k) == b.body[k])
            && (forall id :: id in es && id != b.id ==> id in ab && id in ba && ab[id] == es[id] && ba[id] == es[id])
  {
    MergeOne(es, a);
    var es1 := MergeAsWritten(es, [a]);
    MergeOne(es1, b);
    assert Newer(es1, b);
    MergeOne(es, b);
    var es2 := MergeAsWritten(es, [b]);
    MergeOne(es2, a);
    assert !Newer(es2, a);
  }

  /** Two copies of one document with no stored copy, where the older one
      brings a field the newer lacks: delivered older-first the field is
      kept, newer-first it is not, so the resulting states differ. */
  lemma DeliveryOrderKeepsStaleFields()
    ensures var a := Doc("x", 1, None, map["p" := Num(1)]);
            var b := Doc("x", 2, None, map["q" := Num(2)]);
            && Get(MergeAsWritten(MergeAsWritten(map[], [a]), [b])["x"], "p") == Num(1)
            && Get(MergeAsWritten(MergeAsWritten(map[], [b]), [a])["x"], "p") == Undefined
  {
    var a := Doc("x", 1, None, map["p" := Num(1)]);
    var b := Doc("x", 2, None, map["q" := Num(2)]);
    var empty: Entities := map[];
    MergeOne(empty, a);
    MergeOne(empty[a.id := a], b);
    MergeOne(empty, b);
    MergeOne(empty[b.id := b], a);
  }

  /** No id occurs twice in the batch. */
  predicate DistinctIds(ds: seq<Doc>) {
    forall i, j :: 0 <= i < j < |ds| ==> ds[i].id != ds[j].id
  }

  /** Whenever no id occurs twice in a batch, as the server's batches are
      built, the as-written merge and the corrected one agree. */
  lemma AgreeOnDistinctIds(es: Entities, ds: seq<Doc>)
    requires DistinctIds(ds)
    ensures MergeAsWritten(es, ds) == Merge(es, ds)
  {
    AgreeFrom(es, es, ds);
  }

  lemma {:induction false} AgreeFrom(es: Entities, es0: Entities, ds: seq<Doc>)
    requires DistinctIds(ds)
    requires forall i :: 0 <= i < |ds| ==> (ds[i].id in es <==> ds[i].id in es0)
    requires forall i :: 0 <= i < |ds| && ds[i].id in es ==> es[ds[i].id].modified == es0[ds[i].id].modified
    ensures UpsertMany(es, FilterNewer(ds, es0)) == Merge(es, ds)
    decreases |ds|
  {
    if |ds| == 0 {
    } else {
      var d := ds[0];
      var tail := ds[1..];
      assert Newer(es, d) == Newer(es0, d);
      var es1 := MergeStep(es, d);
      assert DistinctIds(tail) by {
        forall i, j | 0 <= i < j < |tail| ensures tail[i].id != tail[j].id {
          assert tail[i] == ds[i + 1] && tail[j] == ds[j + 1];
        }
      }
      forall i | 0 <= i < |tail|
        ensures (tail[i].id in es1 <==> tail[i].id in es0)
        ensures tail[i].id in es1 ==> es1[tail[i].id].modified == es0[tail[i].id].modified
      {
        assert ds[i + 1] == tail[i];
        assert tail[i].id != d.id;
      }
      AgreeFrom(es1, es0, tail);
      if Newer(es0, d) {
        assert FilterNewer(ds, es0) == [d] + FilterNewer(tail, es0);
        assert ([d] + FilterNewer(tail, es0))[1..] == FilterNewer(tail, es0);
      } else {
        assert FilterNewer(ds, es0) == FilterNewer(tail, es0);
      }
    }
  }

  /** As written, a stale copy later in the same batch overwrites a newer one:
      with `x` stored at time 1, the batch [x@5, x@3] leaves `x` at time 3, and
      delivering the same batch again moves it to 5, so the merge is not
      idempotent. The corrected merge keeps 5 both times. */
  lemma StaleCopyInBatchWins()
    ensures var es := map["x" := Doc("x", 1, None, map[])];
            var ds := [Doc("x", 5, None, map[]), Doc("x", 3, None, map[])];
            && MergeAsWritten(es, ds)["x"].modified == 3
            && MergeAsWritten(MergeAsWritten(es, ds), ds)["x"].modified == 5
            && Merge(es, ds)["x"].modified == 5
  {
    var es := map["x" := Doc("x", 1, None, map[])];
    var a := Doc("x", 5, None, map[]);
    var b := Doc("x", 3, None, map[]);
    var ds := [a, b];
    assert ds[1..] == [b];
    assert [b][1..] == [];
    assert [a][1..] == [];
    assert FilterNewer([b], es) == [b] + FilterNewer([], es);
    assert FilterNewer(ds, es) == [a] + FilterNewer([b], es);
    assert FilterNewer(ds, es) == [a, b];
    var once := MergeAsWritten(es, ds);
    assert UpsertMany(es, [a, b]) == UpsertMany(Upsert(es, a), [b]);
    assert UpsertMany(Upsert(es, a), [b]) == UpsertMany(Upsert(Upsert(es, a), b), []);
    assert once == Upsert(Upsert(es, a), b);
    assert once["x"].modified == 3;
    assert FilterNewer([b], once) == FilterNewer([], once);
    assert FilterNewer(ds, once) == [a] + FilterNewer([b], once);
    assert FilterNewer(ds, once) == [a];
    assert UpsertMany(once, [a]) == UpsertMany(Upsert(once, a), []);
    assert MergeAsWritten(once, ds)["x"].modified == 5;
    MergeTwo(es, a, b);
  }
}

=== FILE: game_client.dfy ===
/** The player-side RPC client of the game-socket library
    (libraries/game_socket/src/lib/client.ts): a local store fed by `action`
    notifications, result checking on calls, and state listeners. The reducer
    is a parameter; listeners are named by an identity of type `L`. */
module GameClient {
  import opened Basics
  import opened Json
  import opened Validator

  /** `actionValidator`: a string `type`, any `payload`. */
  const ActionSchema: Schema := [Field("type", StringField), Field("payload", UnknownField)]

  /** The action the store is initialised with. */
  const InitAction: Value := Obj(map["type" := Str("INITIALIZE_REDUCER_ACTION")])

  const InvalidActionError: string := "Received invalid action message"
  const InvalidResultError: string := "Result does not match RPC definition."

  /** A reducer: previous state (none before initialisation) and action to next state. */
  type Reducer<!S> = (Option<S>, Value) -> S

  /** A listener call: which listener was handed which state. */
  datatype Notification<S, L> = Notification(listener: L, state: S)

  /** The client: the current state and the listeners, in subscription order. */
  datatype ClientState<S, L> = ClientState(state: S, listeners: seq<L>)

  /** The constructor: the reducer's answer to the initialisation action, no listeners. */
  function NewClient<S, L>(reducer: Reducer<S>): (c: ClientState<S, L>)
    ensures c.state == reducer(None, InitAction)
    ensures c.listeners == []
  {
    ClientState(reducer(None, InitAction), [])
  }

  /** The messages `validate(action, actionValidator)` accepts: objects whose `type` is a string. */
  predicate IsAction(action: Value) {
    action.Obj? && "type" in action.fields && action.fields["type"].Str?
  }

  /** The validator accepts exactly the objects with a string `type`. */
  lemma ActionSchemaMeans(action: Value)
    ensures Validate(action, ActionSchema) <==> IsAction(action)
  {
    if Validate(action, ActionSchema) {
      assert EntryAccepts(action, ActionSchema, 0);
    }
    if IsAction(action) {
      assert EntryAccepts(action, ActionSchema, 0);
      assert EntryAccepts(action, ActionSchema, 1);
    }
  }

  /** Every listener, in order, handed the same state. */
  function NotifyAll<S, L>(listeners: seq<L>, state: S): (ns: seq<Notification<S, L>>)
    ensures |ns| == |listeners|
    ensures forall i :: 0 <= i < |ns| ==> ns[i] == Notification(listeners[i], state)
  {
    seq(|listeners|, i requires 0 <= i < |listeners| => Notification(listeners[i], state))
  }

  /** The `action` notification handler: an invalid message throws and leaves
      the store alone; a valid one is reduced into the state and every
      listener is told the new state. */
  function OnAction<S, L>(c: ClientState<S, L>, reducer: Reducer<S>, action: Value)
    : (r: Result<(ClientState<S, L>, seq<Notification<S, L>>)>)
    ensures r.Err? <==> !IsAction(action)
    ensures r.Err? ==> r.message == InvalidActionError
    ensures r.Ok? ==> r.value.0.listeners == c.listeners
    ensures r.Ok? ==> r.value.0.state == reducer(Some(c.state), action)
    ensures r.Ok? ==>
              && |r.value.1| == |c.listeners|
              && forall i :: 0 <= i < |r.value.1| ==>
                   r.value.1[i].listener == c.listeners[i] && r.value.1[i].state == r.value.0.state
  {
    ActionSchemaMeans(action);
    if !Validate(action, ActionSchema) then Err(InvalidActionError)
    else
      var s := reducer(Some(c.state), action);
      Ok((ClientState(s, c.listeners), NotifyAll(c.listeners, s)))
  }

  /** The state after a run of valid actions. */
  function Fold<S>(s: S, reducer: Reducer<S>, actions: seq<Value>): S
    decreases |actions|
  {
    if |actions| == 0 then s else Fold(reducer(Some(s), actions[0]), reducer, actions[1..])
  }

  /** The actions of a run that pass the action validator, in order. */
  function ValidActions(actions: seq<Value>): (r: seq<Value>)
    ensures forall a :: a in r <==> a in actions && IsAction(a)
    ensures |r| <= |actions|
    decreases |actions|
  {
    if |actions| == 0 then []
    else (if IsAction(actions[0]) then [actions[0]] else []) + ValidActions(actions[1..])
  }

  /** Deliver actions one by one, each as its own `action` notification: an
      invalid one throws from its own call only and the next is still
      handled. The count is the number of calls that threw. */
  function Deliver<S, L>(c: ClientState<S, L>, reducer: Reducer<S>, actions: seq<Value>): (r: (ClientState<S, L>, nat))
    decreases |actions|
  {
    if |actions| == 0 then (c, 0)
    else
      match OnAction(c, reducer, actions[0])
      case Err(_) =>
        var (c', n) := Deliver(c, reducer, actions[1..]);
        (c', n + 1)
      case Ok(p) => Deliver(p.0, reducer, actions[1..])
  }

  /** After a run, the client's state is the reducer folded over exactly the
      valid actions, in order; the listeners are unchanged, and every invalid
      action threw once. */
  lemma {:induction false} DeliverFolds<S, L>(c: ClientState<S, L>, reducer: Reducer<S>, actions: seq<Value>)
    ensures Deliver(c, reducer, actions).0 == ClientState(Fold(c.state, reducer, ValidActions(actions)), c.listeners)
    ensures Deliver(c, reducer, actions).1 == |actions| - |ValidActions(actions)|
    decreases |actions|
  {
    if |actions| > 0 {
      var r := OnAction(c, reducer, actions[0]);
      var tail := ValidActions(actions[1..]);
      if r.Ok? {
        DeliverFolds(r.value.0, reducer, actions[1..]);
        assert ValidActions(actions) == [actions[0]] + tail;
        assert ([actions[0]] + tail)[1..] == tail;
      } else {
        DeliverFolds(c, reducer, actions[1..]);
        assert ValidActions(actions) == tail;
      }
    }
  }

  /** A valid action after an invalid one is still reduced: the run
      [a, junk, b] leaves the state the run [a, b] leaves. */
  lemma InvalidActionSkipped<S, L>(c: ClientState<S, L>, reducer: Reducer<S>, a: Value, junk: Value, b: Value)
    requires IsAction(a) && !IsAction(junk) && IsAction(b)
    ensures Deliver(c, reducer, [a, junk, b]).0 == Deliver(c, reducer, [a, b]).0
    ensures Deliver(c, reducer, [a, junk, b]).1 == 1
  {
    DeliverFolds(c, reducer, [a, junk, b]);
    DeliverFolds(c, reducer, [a, b]);
    assert [a, junk, b][1..] == [junk, b] && [junk, b][1..] == [b] && [b][1..] == [];
    assert [a, b][1..] == [b];
    assert ValidActions([b]) == [b];
    assert ValidActions([junk, b]) == [b];
    assert ValidActions([a, junk, b]) == [a, b];
    assert ValidActions([a, b]) == [a, b];
  }

  /** The check `call` makes on a result: returned unchanged when it matches
      the method's result schema, rejected otherwise. */
  function CheckResult(result: Value, resultSchema: Schema): (r: Result<Value>)
    ensures r.Ok? <==> Validate(result, resultSchema)
    ensures r.Ok? ==> r.value == result
    ensures r.Err? ==> r.message == InvalidResultError
  {
    if !Validate(result, resultSchema) then Err(InvalidResultError) else Ok(result)
  }

  /** `subscribe(listener)`: appended, and handed the current state at once. */
  function Subscribe<S, L>(c: ClientState<S, L>, listener: L): (r: (ClientState<S, L>, Notification<S, L>))
    ensures r.0.state == c.state
    ensures r.0.listeners == c.listeners + [listener]
    ensures r.1 == Notification(listener, c.state)
  {
    (ClientState(c.state, c.listeners + [listener]), Notification(listener, c.state))
  }

  /** The function `subscribe` returns: removes the first occurrence of the
      listener, if any. */
  function Unsubscribe<S, L(==)>(c: ClientState<S, L>, listener: L): (r: ClientState<S, L>)
    ensures r.state == c.state
    ensures listener !in c.listeners ==> r.listeners == c.listeners
    ensures listener in c.listeners ==>
              |r.listeners| == |c.listeners| - 1 &&
              multiset(r.listeners) == multiset(c.listeners) - multiset{listener}
    ensures listener in c.listeners ==>
              exists i :: 0 <= i < |c.listeners| && c.listeners[i] == listener && listener !in c.listeners[..i]
                && r.listeners == c.listeners[..i] + c.listeners[i + 1..]
  {
    var i := IndexOf(c.listeners, listener);
    if i == -1 then c
    else
      assert c.listeners == c.listeners[..i] + [listener] + c.listeners[i + 1..];
      ClientState(c.state, c.listeners[..i] + c.listeners[i + 1..])
  }

  /** Subscribing and then unsubscribing restores the listener list when the
      listener was new; when it was already there, the older entry is the one
      removed and the list keeps the same listeners. */
  lemma SubscribeThenUnsubscribe<S, L>(c: ClientState<S, L>, listener: L)
    ensures listener !in c.listeners ==> Unsubscribe(Subscribe(c, listener).0, listener) == c
    ensures multiset(Unsubscribe(Subscribe(c, listener).0, listener).listeners) == multiset(c.listeners)
  {
    var ls := c.listeners + [listener];
    if listener !in c.listeners {
      assert IndexOf(ls, listener) == |c.listeners|;
      assert ls[..|c.listeners|] + ls[|c.listeners| + 1..] == c.listeners;
    }
  }
}

=== FILE: game_state.dfy ===
/** What players are shown of the game: per-kind redaction, the
    `game/update` action and its reducer
    (images/backend/src/socket/trivia/game_state.ts). */
module GameState {
  import opened Basics
  import opened Json
  import opened Docs
  import opened EntityMerge

  /** The parts of the question order a question is annotated from. */
  datatype QuestionOrder = QuestionOrder(main: seq<string>, bonus: seq<string>)

  /** The annotation `addOrderToQuestion` gives a position in one list:
      the first index of the id, or `undefined`. */
  function IndexField(ids: seq<string>, id: string): (v: Value)
    ensures v.Num? <==> id in ids
    ensures v.Num? ==> 0 <= v.n < |ids| && ids[v.n] == id && id !in ids[..v.n]
    ensures !v.Num? ==> v == Undefined
  {
    var i := IndexOf(ids, id);
    if i != -1 then Num(i) else Undefined
  }

  /** `addOrderToQuestion`: `mainIndex` and `bonusIndex` are the question's
      first positions in the main and bonus lists, or `undefined`; every other
      field stays as it was. */
  function AddOrderToQuestion(q: Doc, order: QuestionOrder): (r: Doc)
    ensures r.id == q.id && r.modified == q.modified && r.deleted == q.deleted
    ensures r.body.Keys == q.body.Keys + {"mainIndex", "bonusIndex"}
    ensures forall k :: k in q.body && k != "mainIndex" && k != "bonusIndex" ==> r.body[k] == q.body[k]
    ensures r.body["mainIndex"].Num? <==> q.id in order.main
    ensures r.body["mainIndex"].Num? ==>
              var i := r.body["mainIndex"].n; 0 <= i < |order.main| && order.main[i] == q.id && q.id !in order.main[..i]
    ensures !r.body["mainIndex"].Num? ==> r.body["mainIndex"] == Undefined
    ensures r.body["bonusIndex"].Num? <==> q.id in order.bonus
    ensures r.body["bonusIndex"].Num? ==>
              var i := r.body["bonusIndex"].n; 0 <= i < |order.bonus| && order.bonus[i] == q.id && q.id !in order.bonus[..i]
    ensures !r.body["bonusIndex"].Num? ==> r.body["bonusIndex"] == Undefined
  {
    Patch(q, map["mainIndex" := IndexField(order.main, q.id), "bonusIndex" := IndexField(order.bonus, q.id)])
  }

  /** `DUMMY_GAME_QUESTION`. */
  const DummyGameQuestion: map<string, Value> :=
    map["title" := Str("DUMMY"), "mainIndex" := Num(-1), "bonusIndex" := Num(-1)]

  /** `LOCKED_QUESTION_PATCH`. */
  const LockedQuestionPatch: map<string, Value> :=
    map["title" := Str(""), "text" := Str(""), "image" := Str(""), "frame" := Str(""), "hideAnswer" := Bool(true)]

  /** `answer: undefined, name: undefined`. */
  const HiddenQuestionFields: map<string, Value> := map["answer" := Undefined, "name" := Undefined]

  /** `question.unlockTime && question.unlockTime > Date.now()`: a non-zero
      unlock time still in the future. */
  predicate IsLocked(q: Doc, now: int) {
    Get(q, "unlockTime").Num? && Truthy(Get(q, "unlockTime")) && Get(q, "unlockTime").n > now
  }

  /** The fields a locked question loses. */
  predicate IsLockedField(k: string) {
    k == "title" || k == "text" || k == "image" || k == "frame" || k == "hideAnswer"
  }

  /** `stripGameQuestion`: a tombstone becomes the dummy question, a locked
      question loses its content, and no branch ever lets `answer` or `name`
      through. */
  function StripGameQuestion(q: Doc, now: int): (r: Doc)
    ensures r.id == q.id && r.modified == q.modified && r.deleted == q.deleted
    ensures Get(r, "answer") == Undefined && Get(r, "name") == Undefined
    ensures IsDeleted(q) ==>
              && Get(r, "title") == Str("DUMMY")
              && Get(r, "mainIndex") == Num(-1) && Get(r, "bonusIndex") == Num(-1)
              && r.body.Keys == {"title", "mainIndex", "bonusIndex", "answer", "name"}
    ensures !IsDeleted(q) && IsLocked(q, now) ==>
              && Get(r, "title") == Str("") && Get(r, "text") == Str("")
              && Get(r, "image") == Str("") && Get(r, "frame") == Str("")
              && Get(r, "hideAnswer") == Bool(true)
              && forall k :: k in q.body && !IsLockedField(k) && k != "answer" && k != "name" ==>
                   Get(r, k) == q.body[k]
    ensures !IsDeleted(q) && !IsLocked(q, now) ==>
              && r.body.Keys == q.body.Keys + {"answer", "name"}
              && forall k :: k in q.body && k != "answer" && k != "name" ==> r.body[k] == q.body[k]
  {
    if IsDeleted(q) then DummyQuestionFor(q)
    else if IsLocked(q, now) then LockedQuestion(q)
    else OpenQuestion(q)
  }

  /** The dummy question a tombstone is shown as, with the tombstone's metadata. */
  function DummyQuestionFor(q: Doc): (r: Doc)
    ensures r.id == q.id && r.modified == q.modified && r.deleted == q.deleted
    ensures Get(r, "answer") == Undefined && Get(r, "name") == Undefined
    ensures Get(r, "title") == Str("DUMMY")
    ensures Get(r, "mainIndex") == Num(-1) && Get(r, "bonusIndex") == Num(-1)
    ensures r.body.Keys == {"title", "mainIndex", "bonusIndex", "answer", "name"}
  {
    var body := map["title" := Str("DUMMY"), "mainIndex" := Num(-1), "bonusIndex" := Num(-1),
                    "answer" := Undefined, "name" := Undefined];
    assert body == DummyGameQuestion + HiddenQuestionFields;
    Doc(q.id, q.modified, q.deleted, body)
  }

  /** A locked question: its content blanked, the answer hidden. */
  function LockedQuestion(q: Doc): (r: Doc)
    ensures r.id == q.id && r.modified == q.modified && r.deleted == q.deleted
    ensures Get(r, "answer") == Undefined && Get(r, "name") == Undefined
    ensures Get(r, "title") == Str("") && Get(r, "text") == Str("")
    ensures Get(r, "image") == Str("") && Get(r, "frame") == Str("")
    ensures Get(r, "hideAnswer") == Bool(true)
    ensures forall k :: k in q.body && !IsLockedField(k) && k != "answer" && k != "name" ==>
              Get(r, k) == q.body[k]
  {
    var patch := LockedQuestionPatch + HiddenQuestionFields;
    assert patch.Keys == {"title", "text", "image", "frame", "hideAnswer", "answer", "name"};
    Patch(q, patch)
  }

  /** An unlocked, live question: everything but the answer and the name. */
  function OpenQuestion(q: Doc): (r: Doc)
    ensures r.id == q.id && r.modified == q.modified && r.deleted == q.deleted
    ensures Get(r, "answer") == Undefined && Get(r, "name") == Undefined
    ensures r.body.Keys == q.body.Keys + {"answer", "name"}
    ensures forall k :: k in q.body && k != "answer" && k != "name" ==> r.body[k] == q.body[k]
  {
    Patch(q, HiddenQuestionFields)
  }

  /** An unlock time of 0, or none at all, never locks, whatever the clock says;
      a tombstone is redacted as deleted even when it is also locked. */
  lemma UnlockTimeZeroNeverLocks(q: Doc, now: int)
    requires Get(q, "unlockTime") == Num(0) || Get(q, "unlockTime") == Undefined
    ensures !IsLocked(q, now)
    ensures !IsDeleted(q) ==> forall k :: k in q.body && k != "answer" && k != "name" ==>
              StripGameQuestion(q, now).body[k] == q.body[k]
  {
  }

  /** `DUMMY_GAME_TEAM`. */
  const DummyGameTeam: map<string, Value> :=
    map["name" := Str("DUMMY"), "token" := Str("DUMMY"), "completedBonusQuestions" := Arr([]),
        "mainQuestionId" := Str("DUMMY")]

  /** `stripGameTeam`: a live team unchanged, a tombstone as the dummy team
      with the team's own metadata. */
  function StripGameTeam(t: Doc): (r: Doc)
    ensures !IsDeleted(t) ==> r == t
    ensures IsDeleted(t) ==>
              && r.id == t.id && r.modified == t.modified && r.deleted == t.deleted
              && Get(r, "name") == Str("DUMMY") && Get(r, "token") == Str("DUMMY")
              && Get(r, "mainQuestionId") == Str("DUMMY") && Get(r, "completedBonusQuestions") == Arr([])
              && r.body.Keys == {"name", "token", "completedBonusQuestions", "mainQuestionId"}
  {
    if IsDeleted(t) then Doc(t.id, t.modified, t.deleted, DummyGameTeam) else t
  }

  /** `DUMMY_GAME_GUESS`. */
  const DummyGameGuess: map<string, Value> :=
    map["questionId" := Str("DUMMY"), "text" := Str("DUMMY"), "isCorrect" := Bool(false)]

  /** `stripGameGuess`: the owning team's id is always dropped; a tombstone
      becomes the dummy guess with the guess's own metadata. */
  function StripGameGuess(g: Doc): (r: Doc)
    ensures r.id == g.id && r.modified == g.modified && r.deleted == g.deleted
    ensures Get(r, "teamId") == Undefined
    ensures IsDeleted(g) ==>
              && Get(r, "questionId") == Str("DUMMY") && Get(r, "text") == Str("DUMMY")
              && Get(r, "isCorrect") == Bool(false)
              && r.body.Keys == {"questionId", "text", "isCorrect", "teamId"}
    ensures !IsDeleted(g) ==>
              && r.body.Keys == g.body.Keys + {"teamId"}
              && forall k :: k in g.body && k != "teamId" ==> r.body[k] == g.body[k]
  {
    if IsDeleted(g) then Doc(g.id, g.modified, g.deleted, DummyGameGuess["teamId" := Undefined])
    else Patch(g, map["teamId" := Undefined])
  }

  /** The lists an update may carry. */
  datatype GameStateUpdate = GameStateUpdate(
    questions: Option<seq<Doc>>,
    teams: Option<seq<Doc>>,
    guesses: Option<seq<Doc>>,
    gameSettings: Option<seq<Doc>>)

  /** The action type of `updateGameState`. */
  const GameUpdateType: string := "game/update"

  /** `list?.map(f)`. */
  function MapDocs(docs: Option<seq<Doc>>, f: Doc -> Doc): (r: Option<seq<Doc>>)
    ensures r.Some? <==> docs.Some?
    ensures r.Some? ==> |r.value| == |docs.value| && forall i :: 0 <= i < |docs.value| ==> r.value[i] == f(docs.value[i])
  {
    match docs
    case None => None
    case Some(ds) => Some(seq(|ds|, i requires 0 <= i < |ds| => f(ds[i])))
  }

  /** `updateGameState(payload)`'s payload: every present list redacted
      element by element, game settings passed through, absent lists absent.
      The clock reading `now` stands for `Date.now()`. */
  function UpdateGameState(input: GameStateUpdate, now: int): (r: GameStateUpdate)
    ensures r.questions.Some? <==> input.questions.Some?
    ensures r.teams.Some? <==> input.teams.Some?
    ensures r.guesses.Some? <==> input.guesses.Some?
    ensures r.gameSettings == input.gameSettings
    ensures r.questions.Some? ==>
              |r.questions.value| == |input.questions.value| &&
              forall i :: 0 <= i < |r.questions.value| ==>
                r.questions.value[i].id == input.questions.value[i].id &&
                r.questions.value[i].modified == input.questions.value[i].modified &&
                Get(r.questions.value[i], "answer") == Undefined && Get(r.questions.value[i], "name") == Undefined
    ensures r.teams.Some? ==>
              |r.teams.value| == |input.teams.value| &&
              forall i :: 0 <= i < |r.teams.value| ==>
                (IsDeleted(input.teams.value[i]) || r.teams.value[i] == input.teams.value[i]) &&
                r.teams.value[i].id == input.teams.value[i].id &&
                r.teams.value[i].modified == input.teams.value[i].modified &&
                r.teams.value[i].deleted == input.teams.value[i].deleted &&
                (IsDeleted(input.teams.value[i]) ==> r.teams.value[i].body == DummyGameTeam)
    ensures r.guesses.Some? ==>
              |r.guesses.value| == |input.guesses.value| &&
              forall i :: 0 <= i < |r.guesses.value| ==>
                r.guesses.value[i].id == input.guesses.value[i].id &&
                r.guesses.value[i].modified == input.guesses.value[i].modified &&
                r.guesses.value[i].deleted == input.guesses.value[i].deleted &&
                Get(r.guesses.value[i], "teamId") == Undefined &&
                (!IsDeleted(input.guesses.value[i]) ==>
                   r.guesses.value[i].body - {"teamId"} == input.guesses.value[i].body - {"teamId"}) &&
                (IsDeleted(input.guesses.value[i]) ==>
                   r.guesses.value[i].body - {"teamId"} == DummyGameGuess)
  {
    GameStateUpdate(
      MapDocs(input.questions, q => StripGameQuestion(q, now)),
      MapDocs(input.teams, StripGameTeam),
      MapDocs(input.guesses, StripGameGuess),
      input.gameSettings)
  }

  /** The game reducer's four slices. */
  datatype GameEntities = GameEntities(
    questions: Entities,
    teams: Entities,
    guesses: Entities,
    gameSettings: Entities)

  const InitialGameEntities: GameEntities := GameEntities(map[], map[], map[], map[])

  /** The game reducer on a `game/update` action: each slice merges its list,
      last write wins; absent lists leave their slices alone. */
  function ReduceGame(s: GameEntities, u: GameStateUpdate): (r: GameEntities)
    ensures u.questions.None? ==> r.questions == s.questions
    ensures u.teams.None? ==> r.teams == s.teams
    ensures u.guesses.None? ==> r.guesses == s.guesses
    ensures u.gameSettings.None? ==> r.gameSettings == s.gameSettings
    ensures SliceMerged(s.questions, u.questions, r.questions)
    ensures SliceMerged(s.teams, u.teams, r.teams)
    ensures SliceMerged(s.guesses, u.guesses, r.guesses)
    ensures SliceMerged(s.gameSettings, u.gameSettings, r.gameSettings)
    ensures u.teams.Some? ==> r.teams.Keys == s.teams.Keys + Ids(u.teams.value)
    ensures NoRepeatedIds(u) && u.questions.Some? ==> r.questions == Merge(s.questions, u.questions.value)
    ensures NoRepeatedIds(u) && u.teams.Some? ==> r.teams == Merge(s.teams, u.teams.value)
    ensures NoRepeatedIds(u) && u.guesses.Some? ==> r.guesses == Merge(s.guesses, u.guesses.value)
    ensures NoRepeatedIds(u) && u.gameSettings.Some? ==> r.gameSettings == Merge(s.gameSettings, u.gameSettings.value)
  {
    GameEntities(
      MergeSlice(s.questions, u.questions),
      MergeSlice(s.teams, u.teams),
      MergeSlice(s.guesses, u.guesses),
      MergeSlice(s.gameSettings, u.gameSettings))
  }

  /** No list of the update names an id twice. */
  predicate NoRepeatedIds(u: GameStateUpdate) {
    && (u.questions.Some? ==> DistinctIds(u.questions.value))
    && (u.teams.Some? ==> DistinctIds(u.teams.value))
    && (u.guesses.Some? ==> DistinctIds(u.guesses.value))
    && (u.gameSettings.Some? ==> DistinctIds(u.gameSettings.value))
  }

  /** Re-applying a game update whose lists never repeat an id changes
      nothing. With a repeated id the reducer as written is not idempotent
      (see `EntityMerge.StaleCopyInBatchWins`). */
  lemma ReduceGameIdempotent(s: GameEntities, u: GameStateUpdate)
    requires NoRepeatedIds(u)
    ensures ReduceGame(ReduceGame(s, u), u) == ReduceGame(s, u)
  {
    if u.questions.Some? { MergeIdempotent(s.questions, u.questions.value); }
    if u.teams.Some? { MergeIdempotent(s.teams, u.teams.value); }
    if u.guesses.Some? { MergeIdempotent(s.guesses, u.guesses.value); }
    if u.gameSettings.Some? { MergeIdempotent(s.gameSettings, u.gameSettings.value); }
  }

  /** Every stored document hides field `k`. */
  predicate Hides(es: Entities, k: string) {
    forall id :: id in es ==> Get(es[id], k) == Undefined
  }

  /** Upserting documents that all hide `k` into a slice that hides `k`
      hides it still: an overwrite either sets `k` to `undefined` or keeps the
      stored value, which was `undefined` already. */
  lemma {:induction false} UpsertKeepsHidden(es: Entities, ds: seq<Doc>, k: string)
    requires Hides(es, k)
    requires forall d :: d in ds ==> Get(d, k) == Undefined
    ensures Hides(UpsertMany(es, ds), k)
    decreases |ds|
  {
    if |ds| > 0 {
      var es1 := Upsert(es, ds[0]);
      assert ds[0] in ds;
      assert Hides(es1, k);
      assert forall d :: d in ds[1..] ==> d in ds;
      UpsertKeepsHidden(es1, ds[1..], k);
    }
  }

  /** The slice merge as written keeps `k` hidden when every document of the
      batch hides it; repeated ids in the batch do not matter. */
  lemma MergeKeepsHidden(es: Entities, ds: seq<Doc>, k: string)
    requires Hides(es, k)
    requires forall i :: 0 <= i < |ds| ==> Get(ds[i], k) == Undefined
    ensures Hides(MergeSlice(es, Some(ds)), k)
  {
    var kept := FilterNewer(ds, es);
    assert forall d :: d in kept ==> Get(d, k) == Undefined;
    UpsertKeepsHidden(es, kept, k);
  }

  /** A player's store, fed only `game/update` actions, never holds an answer,
      a question name or a guess's team id. */
  lemma PlayersNeverSeeAnswers(s: GameEntities, input: GameStateUpdate, now: int)
    requires Hides(s.questions, "answer") && Hides(s.questions, "name") && Hides(s.guesses, "teamId")
    ensures var r := ReduceGame(s, UpdateGameState(input, now));
            Hides(r.questions, "answer") && Hides(r.questions, "name") && Hides(r.guesses, "teamId")
  {
    var u := UpdateGameState(input, now);
    if u.questions.Some? {
      MergeKeepsHidden(s.questions, u.questions.value, "answer");
      MergeKeepsHidden(s.questions, u.questions.value, "name");
    }
    if u.guesses.Some? {
      MergeKeepsHidden(s.guesses, u.guesses.value, "teamId");
    }
  }
}

=== FILE: handlers.dfy ===
/** The placeholder guess handlers and the handler table of the trivia socket
    server (shared/trivia-ws/src/handlers, shared/trivia-ws/src/server_info.ts). */
module Handlers {
  import opened Basics
  import opened Json
  import opened Validator
  import opened Messages
  import opened SocketInterface

  /** What the server knows about one connection. */
  datatype ConnectionInfo = ConnectionInfo(teamId: Option<string>, isAdmin: Option<bool>)

  /** `{}`: a connection nothing is known about yet. */
  const EmptyConnection: ConnectionInfo := ConnectionInfo(None, None)

  /** The context every handler receives. */
  datatype ServerInfo = ServerInfo(connection: ConnectionInfo)

  /** The one answer the placeholder handlers accept. */
  const Answer: string := "kyle"

  /** `guessHandler`: correct exactly when `text` is the string "kyle". */
  function GuessHandler(guess: Value, server: ServerInfo): (r: Value)
    ensures ValidGuessResponse(r)
    ensures Prop(r, "isCorrect") == Bool(true) <==> Prop(guess, "text") == Str(Answer)
    ensures r.Obj? && r.fields.Keys == {"isCorrect"}
  {
    if Prop(guess, "text") == Str(Answer) then Obj(map["isCorrect" := Bool(true)])
    else Obj(map["isCorrect" := Bool(false)])
  }

  /** `guess2Handler`: correct exactly when `text2` is the string "kyle". */
  function Guess2Handler(guess: Value, server: ServerInfo): (r: Value)
    ensures ValidGuess2Response(r)
    ensures Prop(r, "isCorrect2") == Bool(true) <==> Prop(guess, "text2") == Str(Answer)
    ensures r.Obj? && r.fields.Keys == {"isCorrect2"}
  {
    if Prop(guess, "text2") == Str(Answer) then Obj(map["isCorrect2" := Bool(true)])
    else Obj(map["isCorrect2" := Bool(false)])
  }

  /** `serverHandlers[kind]`: the handler of each kind answers with a valid
      response of that same kind. */
  function ServerHandler(kind: Kind, message: Value, server: ServerInfo): (r: Value)
    ensures Validate(r, ResponseSchema(kind))
  {
    match kind
    case Guess => GuessHandler(message, server)
    case Guess2 => Guess2Handler(message, server)
  }

  /** The comparison is exact: a different case or surrounding blanks is a
      wrong answer, whoever asks. */
  lemma GuessIsExactMatch(server: ServerInfo)
    ensures Prop(GuessHandler(Obj(map["text" := Str("kyle")]), server), "isCorrect") == Bool(true)
    ensures Prop(GuessHandler(Obj(map["text" := Str("Kyle")]), server), "isCorrect") == Bool(false)
    ensures Prop(GuessHandler(Obj(map["text" := Str(" kyle")]), server), "isCorrect") == Bool(false)
    ensures Prop(GuessHandler(Obj(map["text" := Str("kyle ")]), server), "isCorrect") == Bool(false)
    ensures Prop(Guess2Handler(Obj(map["text2" := Str("KYLE")]), server), "isCorrect2") == Bool(false)
  {
    assert "Kyle" != Answer;
    assert " kyle" != Answer;
    assert "kyle " != Answer;
    assert "KYLE" != Answer;
  }

  /** Neither handler looks at the server or connection it is given. */
  lemma HandlersIgnoreServer(kind: Kind, message: Value, s1: ServerInfo, s2: ServerInfo)
    ensures ServerHandler(kind, message, s1) == ServerHandler(kind, message, s2)
  {
  }
}

=== FILE: json.dfy ===
/** JSON-like values as JavaScript sees them on the wire and in handlers. */
module Json {

  /** A JavaScript value. Numbers are integers: floating point is not modelled. */
  datatype Value =
    | Undefined
    | Null
    | Bool(b: bool)
    | Num(n: int)
    | Str(s: string)
    | Arr(items: seq<Value>)
    | Obj(fields: map<string, Value>)

  /** JavaScript truthiness (`!!v`). */
  predicate Truthy(v: Value) {
    match v
    case Undefined => false
    case Null => false
    case Bool(b) => b
    case Num(n) => n != 0
    case Str(s) => s != ""
    case _ => true
  }

  /** `typeof v === "object"`: null, arrays and plain objects. */
  predicate IsObjectType(v: Value) {
    v.Null? || v.Arr? || v.Obj?
  }

  /** Property read `v[key]`; a missing property reads as `undefined`.
      Of an array only `length` is modelled; index and inherited
      prototype properties are not. */
  function Prop(v: Value, key: string): Value {
    match v
    case Obj(f) => if key in f then f[key] else Undefined
    case Arr(items) => if key == "length" then Num(|items|) else Undefined
    case _ => Undefined
  }

  /** A primitive: compared by value rather than by reference. */
  predicate IsPrimitive(v: Value) {
    !v.Arr? && !v.Obj?
  }

  /** `a === b`. Arrays and objects are distinct references unless they are
      the same object, which values built separately never are. */
  function StrictEquals(a: Value, b: Value): (r: bool)
    ensures r ==> a == b && IsPrimitive(a)
    ensures IsPrimitive(a) && a == b ==> r
  {
    match (a, b)
    case (Undefined, Undefined) => true
    case (Null, Null) => true
    case (Bool(x), Bool(y)) => x == y
    case (Num(x), Num(y)) => x == y
    case (Str(x), Str(y)) => x == y
    case _ => false
  }
}

=== FILE: legacy_game_state.dfy ===
/** The older player view kept in the game-socket library
    (libraries/game_socket/src/trivia/game_state.ts): the same redaction idea
    with a smaller dummy question, no title blanking, no question order and
    three reducer slices. Teams and guesses are redacted exactly as in
    `GameState`. */
module LegacyGameState {
  import opened Basics
  import opened Json
  import opened Docs
  import opened EntityMerge
  import opened AdminState
  import GameState

  /** The fields this version's locked patch blanks (the title is kept). */
  predicate IsLockedField(k: string) {
    k == "text" || k == "image" || k == "frame" || k == "hideAnswer"
  }

  /** `question.unlockTime && question.unlockTime > Date.now()`. */
  predicate IsLocked(q: Doc, now: int) {
    GameState.IsLocked(q, now)
  }

  /** `stripGameQuestion` as written: only `answer` is removed, so a live
      question's `name` reaches the players. */
  function StripGameQuestionAsWritten(q: Doc, now: int): (r: Doc)
    ensures r.id == q.id && r.modified == q.modified && r.deleted == q.deleted
    ensures Get(r, "answer") == Undefined
    ensures IsDeleted(q) ==> r.body == map["title" := Str("DUMMY"), "answer" := Undefined]
    ensures !IsDeleted(q) ==> forall k :: k in q.body && k != "answer" && !(IsLocked(q, now) && IsLockedField(k)) ==>
              Get(r, k) == q.body[k]
    ensures !IsDeleted(q) && IsLocked(q, now) ==>
              Get(r, "text") == Str("") && Get(r, "image") == Str("") && Get(r, "frame") == Str("")
              && Get(r, "hideAnswer") == Bool(true)
  {
    if IsDeleted(q) then
      Doc(q.id, q.modified, q.deleted, map["title" := Str("DUMMY"), "answer" := Undefined])
    else if IsLocked(q, now) then
      Patch(q, map["text" := Str(""), "image" := Str(""), "frame" := Str(""), "hideAnswer" := Bool(true),
                   "answer" := Undefined])
    else
      Patch(q, map["answer" := Undefined])
  }

  /** The admin-only `name` of a live question survives the redaction above. */
  lemma AsWrittenLeaksName(now: int)
    ensures var q := Doc("q1", 1, None, map["title" := Str("Q"), "name" := Str("internal"), "answer" := Str("kyle")]);
            Get(StripGameQuestionAsWritten(q, now), "name") == Str("internal")
  {
    var q := Doc("q1", 1, None, map["title" := Str("Q"), "name" := Str("internal"), "answer" := Str("kyle")]);
    assert !IsDeleted(q) && "name" in q.body && !IsLockedField("name");
  }

  /** `stripGameQuestion` with `name` hidden as well, as the return type
      promises for every admin-only field: the rest of this module uses it. */
  function StripGameQuestion(q: Doc, now: int): (r: Doc)
    ensures r.id == q.id && r.modified == q.modified && r.deleted == q.deleted
    ensures Get(r, "answer") == Undefined && Get(r, "name") == Undefined
    ensures IsDeleted(q) ==> Get(r, "title") == Str("DUMMY") && r.body.Keys == {"title", "answer", "name"}
    ensures !IsDeleted(q) ==> forall k :: k in q.body && k != "answer" && k != "name" && !(IsLocked(q, now) && IsLockedField(k)) ==>
              Get(r, k) == q.body[k]
    ensures !IsDeleted(q) && IsLocked(q, now) ==>
              Get(r, "text") == Str("") && Get(r, "image") == Str("") && Get(r, "frame") == Str("")
              && Get(r, "hideAnswer") == Bool(true)
  {
    var hidden := map["name" := Undefined];
    var w := StripGameQuestionAsWritten(q, now);
    var r := Patch(w, hidden);
    assert IsDeleted(q) ==> r.body.Keys == {"title", "answer", "name"};
    r
  }

  /** The two versions differ only in the `name` field. */
  lemma CorrectionOnlyHidesName(q: Doc, now: int)
    ensures forall k :: k != "name" ==>
              Get(StripGameQuestion(q, now), k) == Get(StripGameQuestionAsWritten(q, now), k)
  {
  }

  /** This version's update: redacted questions, teams and guesses; the
      question order is never forwarded. */
  datatype LegacyGameStateUpdate = LegacyGameStateUpdate(
    questions: Option<seq<Doc>>,
    teams: Option<seq<Doc>>,
    guesses: Option<seq<Doc>>)

  /** `updateGameState(payload)`'s payload as written: questions go through
      `StripGameQuestionAsWritten`, so the answer is hidden but not the name. */
  function UpdateGameState(payload: AdminStateUpdate, now: int): (r: LegacyGameStateUpdate)
    ensures r.questions.Some? <==> payload.questions.Some?
    ensures r.teams == GameState.UpdateGameState(GameState.GameStateUpdate(None, payload.teams, None, None), now).teams
    ensures r.guesses == GameState.UpdateGameState(GameState.GameStateUpdate(None, None, payload.guesses, None), now).guesses
    ensures r.questions.Some? ==>
              |r.questions.value| == |payload.questions.value| &&
              forall i :: 0 <= i < |r.questions.value| ==>
                r.questions.value[i].id == payload.questions.value[i].id &&
                r.questions.value[i].modified == payload.questions.value[i].modified &&
                Get(r.questions.value[i], "answer") == Undefined
  {
    LegacyGameStateUpdate(
      GameState.MapDocs(payload.questions, q => StripGameQuestionAsWritten(q, now)),
      GameState.MapDocs(payload.teams, GameState.StripGameTeam),
      GameState.MapDocs(payload.guesses, GameState.StripGameGuess))
  }

  /** The same payload with the corrected question redaction, which hides
      `name` as well. */
  function UpdateGameStateCorrected(payload: AdminStateUpdate, now: int): (r: LegacyGameStateUpdate)
    ensures r.questions.Some? <==> payload.questions.Some?
    ensures r.teams == UpdateGameState(payload, now).teams && r.guesses == UpdateGameState(payload, now).guesses
    ensures r.questions.Some? ==>
              |r.questions.value| == |payload.questions.value| &&
              forall i :: 0 <= i < |r.questions.value| ==>
                r.questions.value[i].id == payload.questions.value[i].id &&
                r.questions.value[i].modified == payload.questions.value[i].modified &&
                Get(r.questions.value[i], "answer") == Undefined && Get(r.questions.value[i], "name") == Undefined
  {
    LegacyGameStateUpdate(
      GameState.MapDocs(payload.questions, q => StripGameQuestion(q, now)),
      GameState.MapDocs(payload.teams, GameState.StripGameTeam),
      GameState.MapDocs(payload.guesses, GameState.StripGameGuess))
  }

  /** This version's three reducer slices. */
  datatype LegacyGameEntities = LegacyGameEntities(questions: Entities, teams: Entities, guesses: Entities)

  /** The reducer on a `game/update` action: each slice filters and upserts
      its list, as written. */
  function ReduceGame(s: LegacyGameEntities, u: LegacyGameStateUpdate): (r: LegacyGameEntities)
    ensures u.questions.None? ==> r.questions == s.questions
    ensures u.teams.None? ==> r.teams == s.teams
    ensures u.guesses.None? ==> r.guesses == s.guesses
    ensures u.questions.Some? ==> r.questions.Keys == s.questions.Keys + Ids(u.questions.value)
    ensures u.guesses.Some? ==> r.guesses.Keys == s.guesses.Keys + Ids(u.guesses.value)
    ensures u.teams.Some? ==> r.teams.Keys == s.teams.Keys + Ids(u.teams.value)
    ensures SliceMerged(s.questions, u.questions, r.questions)
    ensures SliceMerged(s.teams, u.teams, r.teams)
    ensures SliceMerged(s.guesses, u.guesses, r.guesses)
  {
    LegacyGameEntities(
      MergeSlice(s.questions, u.questions),
      MergeSlice(s.teams, u.teams),
      MergeSlice(s.guesses, u.guesses))
  }

  /** An admin update that only moves the question order leaves the player
      store untouched. */
  lemma OrderNeverReachesPlayers(s: LegacyGameEntities, o: Doc, now: int)
    ensures ReduceGame(s, UpdateGameState(AdminStateUpdate(None, None, None, Some(o)), now)) == s
  {
  }

  /** As written, a player store fed only these updates never holds an
      answer or a guess's team id. */
  lemma PlayersNeverSeeAnswers(s: LegacyGameEntities, payload: AdminStateUpdate, now: int)
    requires GameState.Hides(s.questions, "answer") && GameState.Hides(s.guesses, "teamId")
    ensures var r := ReduceGame(s, UpdateGameState(payload, now));
            GameState.Hides(r.questions, "answer") && GameState.Hides(r.guesses, "teamId")
  {
    var u := UpdateGameState(payload, now);
    if u.questions.Some? {
      GameState.MergeKeepsHidden(s.questions, u.questions.value, "answer");
    }
    if u.guesses.Some? {
      GameState.MergeKeepsHidden(s.guesses, u.guesses.value, "teamId");
    }
  }

  /** As written, a live question's name reaches an empty player store. */
  lemma AsWrittenStoreHoldsName(now: int)
    ensures var q := Doc("q1", 1, None, map["name" := Str("internal")]);
            var r := ReduceGame(LegacyGameEntities(map[], map[], map[]),
                                UpdateGameState(AdminStateUpdate(Some([q]), None, None, None), now));
            "q1" in r.questions && Get(r.questions["q1"], "name") == Str("internal")
  {
    var q := Doc("q1", 1, None, map["name" := Str("internal")]);
    var w := StripGameQuestionAsWritten(q, now);
    assert Get(w, "name") == Str("internal") by {
      assert !IsDeleted(q) && "name" in q.body && !IsLockedField("name");
    }
    var u := UpdateGameState(AdminStateUpdate(Some([q]), None, None, None), now);
    assert |u.questions.value| == 1 && u.questions.value[0] == w;
    assert u.questions.value == [w];
    var empty: Entities := map[];
    MergeOne(empty, w);
  }

  /** With the corrected redaction the player store never holds an answer,
      a question name or a guess's team id. */
  lemma CorrectedPlayersNeverSeeNames(s: LegacyGameEntities, payload: AdminStateUpdate, now: int)
    requires GameState.Hides(s.questions, "answer") && GameState.Hides(s.questions, "name")
    requires GameState.Hides(s.guesses, "teamId")
    ensures var r := ReduceGame(s, UpdateGameStateCorrected(payload, now));
            GameState.Hides(r.questions, "answer") && GameState.Hides(r.questions, "name")
            && GameState.Hides(r.guesses, "teamId")
  {
    var u := UpdateGameStateCorrected(payload, now);
    if u.questions.Some? {
      GameState.MergeKeepsHidden(s.questions, u.questions.value, "answer");
      GameState.MergeKeepsHidden(s.questions, u.questions.value, "name");
    }
    if u.guesses.Some? {
      GameState.MergeKeepsHidden(s.guesses, u.guesses.value, "teamId");
    }
  }
}

=== FILE: messages.dfy ===
/** The two message kinds of the trivia socket: their message and response
    schemas and their timeout responses (shared/trivia-ws/src/messages). */
module Messages {
  import opened Json
  import opened Validator

  /** `guessMessageValidator`: `{ text: string }`. */
  const GuessMessageSchema: Schema := [Field("text", StringField)]

  /** `guessResponseValidator`: `{ isCorrect: boolean }`. */
  const GuessResponseSchema: Schema := [Field("isCorrect", BooleanField)]

  /** `guessTimeoutResponse`. */
  const GuessTimeoutResponse: Value := Obj(map["isCorrect" := Bool(false)])

  /** `guess2MessageValidator`: `{ text2: string }`. */
  const Guess2MessageSchema: Schema := [Field("text2", StringField)]

  /** `guess2ResponseValidator`: `{ isCorrect2: boolean }`. */
  const Guess2ResponseSchema: Schema := [Field("isCorrect2", BooleanField)]

  /** `guess2TimeoutResponse`. */
  const Guess2TimeoutResponse: Value := Obj(map["isCorrect2" := Bool(false)])

  /** A guess message is an object whose `text` is a string. */
  function ValidGuessMessage(v: Value): (ok: bool)
    ensures ok <==> (v.Arr? || v.Obj?) && Prop(v, "text").Str?
  {
    assert EntryAccepts(v, GuessMessageSchema, 0) <==> Prop(v, "text").Str?;
    Validate(v, GuessMessageSchema)
  }

  /** A guess response is an object whose `isCorrect` is a boolean. */
  function ValidGuessResponse(v: Value): (ok: bool)
    ensures ok <==> (v.Arr? || v.Obj?) && Prop(v, "isCorrect").Bool?
  {
    assert EntryAccepts(v, GuessResponseSchema, 0) <==> Prop(v, "isCorrect").Bool?;
    Validate(v, GuessResponseSchema)
  }

  /** A guess2 message is an object whose `text2` is a string. */
  function ValidGuess2Message(v: Value): (ok: bool)
    ensures ok <==> (v.Arr? || v.Obj?) && Prop(v, "text2").Str?
  {
    assert EntryAccepts(v, Guess2MessageSchema, 0) <==> Prop(v, "text2").Str?;
    Validate(v, Guess2MessageSchema)
  }

  /** A guess2 response is an object whose `isCorrect2` is a boolean. */
  function ValidGuess2Response(v: Value): (ok: bool)
    ensures ok <==> (v.Arr? || v.Obj?) && Prop(v, "isCorrect2").Bool?
  {
    assert EntryAccepts(v, Guess2ResponseSchema, 0) <==> Prop(v, "isCorrect2").Bool?;
    Validate(v, Guess2ResponseSchema)
  }

  /** The guess timeout response says "incorrect" and is itself a valid response. */
  lemma GuessTimeoutIsValidResponse()
    ensures ValidGuessResponse(GuessTimeoutResponse)
    ensures Prop(GuessTimeoutResponse, "isCorrect") == Bool(false)
  {
  }

  /** The guess2 timeout response says "incorrect" and is itself a valid response. */
  lemma Guess2TimeoutIsValidResponse()
    ensures ValidGuess2Response(Guess2TimeoutResponse)
    ensures Prop(Guess2TimeoutResponse, "isCorrect2") == Bool(false)
  {
  }

  /** The two kinds do not accept each other's responses: a guess response
      is not a guess2 response, and the other way round. */
  lemma ResponsesAreDistinct()
    ensures !ValidGuess2Response(GuessTimeoutResponse)
    ensures !ValidGuessResponse(Guess2TimeoutResponse)
  {
  }
}

=== FILE: rooms.dfy ===
/** Socket.io room names and the live-document filter
    (images/backend/src/game_handlers.ts, `ADMIN_ROOM` of
    images/backend/src/admin_handlers.ts). */
module Rooms {
  import opened Basics
  import opened Docs
  import opened EntityMerge

  /** Every player socket. */
  const GameRoom: string := "GAME"

  /** Sockets that presented a valid admin token. */
  const AdminRoom: string := "ADMIN"

  const TeamPrefix: string := "TEAM_"
  const QuestionPrefix: string := "QUESTION_"

  /** `getTeamRoom(teamId)`: the team id behind a fixed prefix. */
  function TeamRoom(teamId: string): (r: string)
    ensures |r| == |TeamPrefix| + |teamId|
    ensures r[..|TeamPrefix|] == TeamPrefix && r[|TeamPrefix|..] == teamId
  {
    TeamPrefix + teamId
  }

  /** `getGameQuestionRoom(questionId)`: the question id behind a fixed prefix. */
  function QuestionRoom(questionId: string): (r: string)
    ensures |r| == |QuestionPrefix| + |questionId|
    ensures r[..|QuestionPrefix|] == QuestionPrefix && r[|QuestionPrefix|..] == questionId
  {
    QuestionPrefix + questionId
  }

  /** Different teams, and different questions, never share a room. */
  lemma RoomsAreInjective(a: string, b: string)
    ensures TeamRoom(a) == TeamRoom(b) <==> a == b
    ensures QuestionRoom(a) == QuestionRoom(b) <==> a == b
  {
    if TeamRoom(a) == TeamRoom(b) {
      assert a == TeamRoom(a)[|TeamPrefix|..];
    }
    if QuestionRoom(a) == QuestionRoom(b) {
      assert a == QuestionRoom(a)[|QuestionPrefix|..];
    }
  }

  /** A team room is never a question room, and neither is the game or admin room. */
  lemma RoomsAreDisjoint(teamId: string, questionId: string)
    ensures TeamRoom(teamId) != QuestionRoom(questionId)
    ensures TeamRoom(teamId) != GameRoom && TeamRoom(teamId) != AdminRoom
    ensures QuestionRoom(questionId) != GameRoom && QuestionRoom(questionId) != AdminRoom
    ensures GameRoom != AdminRoom
  {
    assert TeamRoom(teamId)[0] == 'T';
    assert QuestionRoom(questionId)[0] == 'Q';
    assert |TeamRoom(teamId)| >= 5;
    assert |QuestionRoom(questionId)| >= 9;
  }

  /** `BASE_FILTER` (`_deleted` not equal to true): the documents that are not tombstones. */
  function LiveDocs(es: Entities): (r: Entities)
    ensures forall id :: id in r <==> id in es && es[id].deleted != Some(true)
    ensures forall id :: id in r ==> r[id] == es[id]
  {
    map id | id in es && !IsDeleted(es[id]) :: es[id]
  }

  /** Filtering twice is filtering once, and a live document is never dropped. */
  lemma LiveDocsIdempotent(es: Entities, id: string)
    ensures LiveDocs(LiveDocs(es)) == LiveDocs(es)
    ensures id in es && !IsDeleted(es[id]) ==> id in LiveDocs(es)
  {
  }
}

=== FILE: rpc_server.dfy ===
/** The socket.io RPC server shared by the backend image and the game-socket
    library (images/backend/src/socket/lib/server.ts and its twin
    libraries/game_socket/src/lib/server.ts, which differ only in how the
    underlying server is started). Calls arrive on the `rpc` event and answers
    go back on it. The envelope validator and each RPC's `parseCall` and
    `buildResponse` are parameters; a handler's work is reduced to its
    outcome, and `Ctx` stands for the socket and data adapter it sees. */
module RpcServer {
  import opened Basics
  import opened Json
  import opened Validator
  import opened Transport

  /** How a handler's promise settles. */
  datatype Outcome =
    | Returned(result: Value)
    | ThrewError(message: string)  // an `Error` with this message
    | ThrewOther                   // anything thrown that is not an `Error`

  const NoHandlerMessage: string := "No handler registered for method."
  const UnknownErrorMessage: string := "Unknown error"

  /** One registered RPC: `parseCall` (`None` when it throws), `buildResponse`
      (call, result, error) and the handler. */
  datatype Registration<!Ctx> = Registration(
    parseCall: Value -> Option<Value>,
    buildResponse: (Value, Value, Option<string>) -> Value,
    handler: (Value, Ctx) -> Outcome)

  /** The server: the envelope validator and the handlers by method name. */
  datatype RpcServer<!Ctx> = RpcServer(envelope: Schema, handlers: map<string, Registration<Ctx>>)

  /** `register(rpc, handler)`: a second handler for a method throws and the
      first stays in force. */
  function Register<Ctx>(s: RpcServer<Ctx>, name: string, reg: Registration<Ctx>): (r: Result<RpcServer<Ctx>>)
    ensures r.Err? <==> name in s.handlers
    ensures r.Err? ==> r.message == "Cannot register multiple handlers for method " + name
    ensures r.Ok? ==> r.value.envelope == s.envelope && r.value.handlers.Keys == s.handlers.Keys + {name}
    ensures r.Ok? ==> forall m :: m in s.handlers ==> r.value.handlers[m] == s.handlers[m]
  {
    if name in s.handlers then Err("Cannot register multiple handlers for method " + name)
    else Ok(s.(handlers := s.handlers[name := reg]))
  }

  /** The message a caught exception is reported with. */
  function ErrorMessage(o: Outcome): string
    requires !o.Returned?
  {
    if o.ThrewError? then o.message else UnknownErrorMessage
  }

  /** The wrapper `register` installs: parse the call (a parse failure is only
      logged), run the handler on its params, and answer with the result or
      with the thrown message. */
  function RequestHandler<Ctx>(reg: Registration<Ctx>, value: Value, ctx: Ctx): (r: Option<Value>)
    ensures r.None? <==> reg.parseCall(value).None?
    ensures r.Some? ==>
              var call := reg.parseCall(value).value;
              var o := reg.handler(Prop(call, "params"), ctx);
              r.value == (if o.Returned? then reg.buildResponse(call, o.result, None)
                          else reg.buildResponse(call, Undefined, Some(ErrorMessage(o))))
  {
    match reg.parseCall(value)
    case None => None
    case Some(call) =>
      match reg.handler(Prop(call, "params"), ctx)
      case Returned(result) => Some(reg.buildResponse(call, result, None))
      case ThrewError(m) => Some(reg.buildResponse(call, Undefined, Some(m)))
      case ThrewOther => Some(reg.buildResponse(call, Undefined, Some(UnknownErrorMessage)))
  }

  /** `{ id: rpcCall.id, error: 'No handler registered for method.' }`. */
  function NoHandlerResponse(id: Value): (v: Value)
    ensures Prop(v, "id") == id && Prop(v, "error") == Str(NoHandlerMessage)
  {
    Obj(map["id" := id, "error" := Str(NoHandlerMessage)])
  }

  /** The call names a registered method (`handlers.get(rpcCall.method)`). */
  predicate Routed<Ctx>(s: RpcServer<Ctx>, call: Value) {
    Prop(call, "method").Str? && Prop(call, "method").s in s.handlers
  }

  /** The `rpc` listener: what the server emits back to the calling socket. */
  function OnRpc<Ctx>(s: RpcServer<Ctx>, call: Value, ctx: Ctx): (r: seq<Emission>)
    ensures |r| <= 1
    ensures forall e :: e in r ==> e.event == "rpc" && |e.args| == 1
    ensures !Validate(call, s.envelope) ==> r == []
    ensures Validate(call, s.envelope) && !Routed(s, call) ==> r == [Emit("rpc", [NoHandlerResponse(Prop(call, "id"))])]
    ensures Validate(call, s.envelope) && Routed(s, call) ==>
              var reply := RequestHandler(s.handlers[Prop(call, "method").s], call, ctx);
              (reply.None? ==> r == []) && (reply.Some? ==> r == [Emit("rpc", [reply.value])])
  {
    if !Validate(call, s.envelope) then []
    else if !Routed(s, call) then [Emit("rpc", [NoHandlerResponse(Prop(call, "id"))])]
    else
      match RequestHandler(s.handlers[Prop(call, "method").s], call, ctx)
      case None => []
      case Some(v) => [Emit("rpc", [v])]
  }

  /** Once a method is registered, a well-formed call naming it reaches that
      handler and no other, and a caller always gets exactly one answer unless
      the call fails to parse. */
  lemma RegisteredCallIsRouted<Ctx>(s: RpcServer<Ctx>, name: string, reg: Registration<Ctx>, call: Value, ctx: Ctx)
    requires Register(s, name, reg).Ok?
    requires Validate(call, s.envelope) && Prop(call, "method") == Str(name)
    ensures var s' := Register(s, name, reg).value;
            && Routed(s', call)
            && (reg.parseCall(call).Some? <==> |OnRpc(s', call, ctx)| == 1)
            && (reg.parseCall(call).Some? ==> OnRpc(s', call, ctx)[0].args[0] == RequestHandler(reg, call, ctx).value)
  {
  }

  /** A throwing handler is never silent: the answer is built with its message,
      or "Unknown error" when what was thrown is not an `Error`. */
  lemma ThrowsAreReported<Ctx>(reg: Registration<Ctx>, value: Value, ctx: Ctx)
    requires reg.parseCall(value).Some?
    requires !reg.handler(Prop(reg.parseCall(value).value, "params"), ctx).Returned?
    ensures var call := reg.parseCall(value).value;
            var o := reg.handler(Prop(call, "params"), ctx);
            RequestHandler(reg, value, ctx) ==
              Some(reg.buildResponse(call, Undefined, Some(if o.ThrewOther? then "Unknown error" else o.message)))
  {
  }
}

=== FILE: server_socket.dfy ===
/** The answering side of the trivia socket: per-connection info and the
    `game_req` validate/dispatch/echo path (shared/trivia-ws/src/server_socket.ts). */
module ServerSocket {
  import opened Basics
  import opened Json
  import opened Validator
  import opened SocketInterface
  import opened Handlers
  import opened Transport

  /** The `connections` map, keyed by socket id. */
  datatype Server = Server(connections: map<string, ConnectionInfo>)

  const NewServer: Server := Server(map[])

  /** A socket connects: it gets an empty ConnectionInfo; nobody else changes. */
  function Connect(s: Server, socketId: string): (s': Server)
    ensures socketId in s'.connections && s'.connections[socketId] == EmptyConnection
    ensures s'.connections.Keys == s.connections.Keys + {socketId}
    ensures forall id :: id in s.connections && id != socketId ==> s'.connections[id] == s.connections[id]
  {
    Server(s.connections[socketId := EmptyConnection])
  }

  /** A socket disconnects: its entry is removed and nobody else changes. */
  function Disconnect(s: Server, socketId: string): (s': Server)
    ensures s'.connections.Keys == s.connections.Keys - {socketId}
    ensures forall id :: id in s'.connections ==> s'.connections[id] == s.connections[id]
  {
    Server(s.connections - {socketId})
  }

  /** The connection info a handler is given: the stored one, or `{}`. */
  function InfoOf(s: Server, socketId: string): (info: ConnectionInfo)
    ensures socketId in s.connections ==> info == s.connections[socketId]
    ensures socketId !in s.connections ==> info == EmptyConnection
  {
    if socketId in s.connections then s.connections[socketId] else EmptyConnection
  }

  /** The response a `game_req` payload earns: none unless the envelope and the
      message of its kind validate; otherwise the kind's handler is run and its
      answer goes back under the request's own kind and token. */
  function Respond(s: Server, socketId: string, payload: Value): (r: Option<Payload>)
    ensures r.Some? <==>
              && ParsePayload(payload).Some?
              && Validate(ParsePayload(payload).value.message, MessageSchema(ParsePayload(payload).value.kind))
    ensures r.Some? ==>
              && r.value.kind == ParsePayload(payload).value.kind
              && r.value.token == ParsePayload(payload).value.token
              && r.value.message == ServerHandler(r.value.kind, Prop(payload, "message"), ServerInfo(InfoOf(s, socketId)))
              && Validate(r.value.message, ResponseSchema(r.value.kind))
  {
    match ParsePayload(payload)
    case None => None
    case Some(p) =>
      if !Validate(p.message, MessageSchema(p.kind)) then None
      else Some(Payload(p.kind, p.token, ServerHandler(p.kind, p.message, ServerInfo(InfoOf(s, socketId)))))
  }

  /** The `game_req` listener as written: the answer goes out through
      `socket.send("game_resp", response)`. */
  function OnGameReqAsWritten(s: Server, socketId: string, payload: Value): (r: Option<Emission>)
    ensures r.Some? <==> Respond(s, socketId, payload).Some?
    ensures r.Some? ==>
              && r.value.event == "message"
              && r.value.args == [Str("game_resp"), PayloadValue(Respond(s, socketId, payload).value)]
  {
    match Respond(s, socketId, payload)
    case None => None
    case Some(resp) => Some(SocketSend([Str("game_resp"), PayloadValue(resp)]))
  }

  /** The `game_req` listener, corrected: the answer is emitted on the
      `game_resp` event the clients listen to. */
  function OnGameReq(s: Server, socketId: string, payload: Value): (r: Option<Emission>)
    ensures r.Some? <==> Respond(s, socketId, payload).Some?
    ensures r.Some? ==> Heard("game_resp", r.value) == Some(PayloadValue(Respond(s, socketId, payload).value))
  {
    match Respond(s, socketId, payload)
    case None => None
    case Some(resp) => Some(Emit("game_resp", [PayloadValue(resp)]))
  }

  /** A request is handled with the connection's own info, and with `{}` once
      the connection is gone. */
  lemma HandlerSeesConnection(s: Server, socketId: string, payload: Value)
    requires Respond(s, socketId, payload).Some?
    ensures Respond(Disconnect(s, socketId), socketId, payload).Some?
    ensures Respond(Connect(s, socketId), socketId, payload).value.message ==
            ServerHandler(ParsePayload(payload).value.kind, Prop(payload, "message"), ServerInfo(EmptyConnection))
  {
  }
}

=== FILE: socket_interface.dfy ===
/** The request/response envelope of the trivia socket and the per-kind
    tables (shared/trivia-ws/src/socket_interface.ts). */
module SocketInterface {
  import opened Basics
  import opened Json
  import opened Validator
  import opened Messages

  /** A member of `MESSAGE_TYPES`. */
  datatype Kind = Guess | Guess2

  /** `MESSAGE_TYPES`. */
  const MessageTypes: seq<Kind> := [Guess, Guess2]

  /** The wire name of a kind. */
  function KindName(k: Kind): string {
    match k
    case Guess => "guess"
    case Guess2 => "guess2"
  }

  /** The kind a wire name denotes, if any. */
  function KindOf(name: string): (r: Option<Kind>)
    ensures r.Some? <==> name == "guess" || name == "guess2"
    ensures r.Some? ==> KindName(r.value) == name
  {
    if name == "guess" then Some(Guess)
    else if name == "guess2" then Some(Guess2)
    else None
  }

  /** `messageValidators[k]`. */
  function MessageSchema(k: Kind): Schema {
    match k
    case Guess => GuessMessageSchema
    case Guess2 => Guess2MessageSchema
  }

  /** `responseValidators[k]`. */
  function ResponseSchema(k: Kind): Schema {
    match k
    case Guess => GuessResponseSchema
    case Guess2 => Guess2ResponseSchema
  }

  /** `timeoutResponses[k]`. */
  function TimeoutResponse(k: Kind): Value {
    match k
    case Guess => GuessTimeoutResponse
    case Guess2 => Guess2TimeoutResponse
  }

  /** The `kind` checker of `payloadValidator`: a string that names a message type. */
  function KindField(v: Value): (r: Checked)
    ensures r.Accepted? <==> v == Str("guess") || v == Str("guess2")
    ensures r.Accepted? ==> r.value == v
  {
    match StringField(v)
    case Thrown(m) => Thrown(m)
    case Accepted(s) =>
      if s == Str("guess") || s == Str("guess2") then Accepted(s)
      else Thrown("not a valid message type.")
  }

  /** `message: (value) => value`. */
  function MessageField(v: Value): Checked {
    Accepted(v)
  }

  /** `payloadValidator`. */
  const PayloadSchema: Schema :=
    [Field("kind", KindField), Field("token", StringField), Field("message", MessageField)]

  /** A `Payload` once validated. */
  datatype Payload = Payload(kind: Kind, token: string, message: Value)

  /** The object a payload is sent as. */
  function PayloadValue(p: Payload): Value {
    Obj(map["kind" := Str(KindName(p.kind)), "token" := Str(p.token), "message" := p.message])
  }

  /** `payloadValidator.validate(v)`: an object whose `kind` is exactly "guess"
      or "guess2" and whose `token` is a string; `message` is not inspected. */
  function ValidPayload(v: Value): (ok: bool)
    ensures ok <==> (v.Arr? || v.Obj?)
                    && (Prop(v, "kind") == Str("guess") || Prop(v, "kind") == Str("guess2"))
                    && Prop(v, "token").Str?
  {
    assert EntryAccepts(v, PayloadSchema, 0) <==>
      Prop(v, "kind") == Str("guess") || Prop(v, "kind") == Str("guess2");
    assert EntryAccepts(v, PayloadSchema, 1) <==> Prop(v, "token").Str?;
    assert EntryAccepts(v, PayloadSchema, 2);
    Validate(v, PayloadSchema)
  }

  /** The typed view of a validated payload, `None` when validation fails. */
  function ParsePayload(v: Value): (r: Option<Payload>)
    ensures r.Some? <==> ValidPayload(v)
    ensures r.Some? ==>
              && Prop(v, "kind") == Str(KindName(r.value.kind))
              && Prop(v, "token") == Str(r.value.token)
              && Prop(v, "message") == r.value.message
  {
    if !ValidPayload(v) then None
    else
      var kind := if Prop(v, "kind") == Str("guess") then Guess else Guess2;
      Some(Payload(kind, Prop(v, "token").s, Prop(v, "message")))
  }

  /** Every payload the model builds validates and parses back to itself. */
  lemma PayloadRoundTrip(p: Payload)
    ensures ParsePayload(PayloadValue(p)) == Some(p)
  {
    var v := PayloadValue(p);
    assert Prop(v, "kind") == Str(KindName(p.kind));
    assert ValidPayload(v);
  }

  /** Every kind in `MESSAGE_TYPES` has a message validator, a response
      validator and a timeout response, and the timeout response is that
      kind's own timeout constant, which its response validator accepts. */
  lemma TablesCoverEveryKind(k: Kind)
    ensures k in MessageTypes
    ensures |MessageSchema(k)| == 1 && |ResponseSchema(k)| == 1
    ensures k == Guess ==> TimeoutResponse(k) == GuessTimeoutResponse
    ensures k == Guess2 ==> TimeoutResponse(k) == Guess2TimeoutResponse
    ensures Validate(TimeoutResponse(k), ResponseSchema(k))
  {
    match k
    case Guess =>
      GuessTimeoutIsValidResponse();
      assert ValidGuessResponse(GuessTimeoutResponse);
    case Guess2 =>
      Guess2TimeoutIsValidResponse();
      assert ValidGuess2Response(Guess2TimeoutResponse);
  }
}

=== FILE: transport.dfy ===
/** The event plumbing of socket.io, reduced to what the model needs: an
    emission names an event and carries arguments, and a listener registered
    with `on(event, ...)` hears only emissions of that event. */
module Transport {
  import opened Basics
  import opened Json

  /** One emitted event with its arguments. */
  datatype Emission = Emission(event: string, args: seq<Value>)

  /** `socket.emit(event, ...args)`: heard by the listeners of `event` and
      by no other, with the first argument as their payload. */
  function Emit(event: string, args: seq<Value>): (e: Emission)
    ensures forall l :: Heard(l, e).Some? <==> l == event
    ensures |args| > 0 ==> Heard(event, e) == Some(args[0])
    ensures e.args == args
  {
    Emission(event, args)
  }

  /** `socket.send(...args)`: socket.io sends its arguments on the "message"
      event, so a listener of any other event, the first argument's name
      included, hears nothing. */
  function SocketSend(args: seq<Value>): (e: Emission)
    ensures forall l :: l != "message" ==> Heard(l, e).None?
    ensures |args| > 0 ==> Heard("message", e) == Some(args[0])
    ensures e.args == args
  {
    Emission("message", args)
  }

  /** The first argument a listener `on(listener, (payload) => ...)` is called
      with, or `None` when the emission is of another event. */
  function Heard(listener: string, e: Emission): (r: Option<Value>)
    ensures r.Some? <==> e.event == listener
    ensures r.Some? && |e.args| > 0 ==> r.value == e.args[0]
  {
    if e.event != listener then None
    else if |e.args| == 0 then Some(Undefined)
    else Some(e.args[0])
  }
}

=== FILE: validator.dfy ===
/** Field-schema validation of untyped payloads (shared/trivia-ws/src/validator.ts). */
module Validator {
  import opened Json

  /** What a field checker does with a value: hands back the typed value, or throws. */
  datatype Checked = Accepted(value: Value) | Thrown(message: string)

  /** One entry `key: checker` of a `Validator<T>` object. */
  datatype Field = Field(key: string, check: Value -> Checked)

  /** A `Validator<T>`: its entries in `Object.entries` order. */
  type Schema = seq<Field>

  /** The schema's checker `i` accepts the value's property of the same key;
      a missing property is checked as `undefined`. */
  predicate EntryAccepts(value: Value, schema: Schema, i: int)
    requires 0 <= i < |schema|
  {
    schema[i].check(Prop(value, schema[i].key)).Accepted?
  }

  /** The loop of `validate`: run every checker in turn; the first throw ends it. */
  function RunCheckers(value: Value, schema: Schema): (ok: bool)
    ensures ok <==> forall i :: 0 <= i < |schema| ==> EntryAccepts(value, schema, i)
  {
    if |schema| == 0 then true
    else
      var head := schema[0].check(Prop(value, schema[0].key));
      if head.Thrown? then
        assert !EntryAccepts(value, schema, 0);
        false
      else
        var rest := RunCheckers(value, schema[1..]);
        assert rest <==> forall i :: 1 <= i < |schema| ==> EntryAccepts(value, schema, i) by {
          forall i | 1 <= i < |schema|
            ensures EntryAccepts(value, schema, i) == EntryAccepts(value, schema[1..], i - 1)
          {
          }
          if !rest {
            var j :| 0 <= j < |schema| - 1 && !EntryAccepts(value, schema[1..], j);
            assert !EntryAccepts(value, schema, j + 1);
          }
        }
        assert EntryAccepts(value, schema, 0);
        rest
  }

  /** Non-falsy and `typeof` "object": what `validate` lets through to the checkers. */
  predicate IsObject(v: Value) {
    Truthy(v) && IsObjectType(v)
  }

  /** `validate(value, validator)`: never throws, a checker's throw becomes false. */
  function Validate(value: Value, schema: Schema): (ok: bool)
    ensures !Truthy(value) ==> !ok
    ensures !IsObjectType(value) ==> !ok
    ensures ok <==> (value.Arr? || value.Obj?) &&
                    forall i :: 0 <= i < |schema| ==> EntryAccepts(value, schema, i)
  {
    if !Truthy(value) || !IsObjectType(value) then false
    else RunCheckers(value, schema)
  }

  /** `stringField`: exactly strings, returned unchanged. */
  function StringField(v: Value): (r: Checked)
    ensures r.Accepted? <==> v.Str?
    ensures r.Accepted? ==> r.value == v
  {
    if !v.Str? then Thrown("should be a string.") else Accepted(v)
  }

  /** `booleanField`: exactly booleans, returned unchanged. */
  function BooleanField(v: Value): (r: Checked)
    ensures r.Accepted? <==> v.Bool?
    ensures r.Accepted? ==> r.value == v
  {
    if !v.Bool? then Thrown("should be a boolean.") else Accepted(v)
  }

  /** `unknownField`: accepts anything, the identity. */
  function UnknownField(v: Value): (r: Checked)
    ensures r == Accepted(v)
  {
    Accepted(v)
  }

  /** Keys of the value that the schema does not name never change the verdict. */
  lemma ExtraKeysIgnored(f1: map<string, Value>, f2: map<string, Value>, schema: Schema)
    requires forall i :: 0 <= i < |schema| ==> Prop(Obj(f1), schema[i].key) == Prop(Obj(f2), schema[i].key)
    ensures Validate(Obj(f1), schema) == Validate(Obj(f2), schema)
  {
    assert forall i :: 0 <= i < |schema| ==>
      EntryAccepts(Obj(f1), schema, i) == EntryAccepts(Obj(f2), schema, i);
  }

  /** Extending an object with a key the schema does not name keeps its verdict. */
  lemma UnlistedKeyIgnored(f: map<string, Value>, k: string, v: Value, schema: Schema)
    requires forall i :: 0 <= i < |schema| ==> schema[i].key != k
    ensures Validate(Obj(f[k := v]), schema) == Validate(Obj(f), schema)
  {
    ExtraKeysIgnored(f[k := v], f, schema);
  }
}

=== FILE: ws_server.dfy ===
/** The JSON-RPC game server with per-socket sessions (shared/ws/src/server.ts):
    method registration, parameter gating, lazily created sessions, action
    dispatch to every socket, and the two-round sweep of orphaned sessions.
    Session creation and action building are parameters; a socket is named by
    its id. */
module WsServer {
  import opened Basics
  import opened Json
  import opened Validator

  /** `SESSION_CLEANUP_INTERVAL`: fifteen minutes, in milliseconds. */
  const SessionCleanupInterval: int := 1000 * 60 * 15

  const InvalidParamsMessage: string := "Params object does not match expected params for RPC"

  /** The server's state: registered method names in registration order, the
      sessions by socket id, and the ids found orphaned at the last sweep. */
  datatype WsServer<Sess> = WsServer(registered: seq<string>, sessions: map<string, Sess>, orphans: set<string>)

  function NewServer<Sess>(): (s: WsServer<Sess>)
    ensures s.registered == [] && s.sessions == map[] && s.orphans == {}
  {
    WsServer([], map[], {})
  }

  /** `register(rpc, handler)`: a second handler for a method throws. */
  function Register<Sess>(s: WsServer<Sess>, name: string): (r: Result<WsServer<Sess>>)
    ensures r.Err? <==> name in s.registered
    ensures r.Err? ==> r.message == "Cannot register multiple handlers for method " + name
    ensures r.Ok? ==>
              && r.value.registered == s.registered + [name]
              && r.value.sessions == s.sessions && r.value.orphans == s.orphans
  {
    if name in s.registered then Err("Cannot register multiple handlers for method " + name)
    else Ok(s.(registered := s.registered + [name]))
  }

  /** No method is ever registered twice. */
  predicate NoDuplicates(methods: seq<string>) {
    forall i, j :: 0 <= i < j < |methods| ==> methods[i] != methods[j]
  }

  /** Registration keeps the method list free of duplicates. */
  lemma RegisterKeepsNoDuplicates<Sess>(s: WsServer<Sess>, name: string)
    requires NoDuplicates(s.registered)
    ensures Register(s, name).Ok? ==> NoDuplicates(Register(s, name).value.registered)
  {
    if Register(s, name).Ok? {
      var ms := s.registered + [name];
      forall i, j | 0 <= i < j < |ms| ensures ms[i] != ms[j] {
        if j == |ms| - 1 {
          assert ms[i] == s.registered[i];
          assert ms[i] in s.registered;
        }
      }
    }
  }

  /** `getSession(socketId)`: the stored session, or a new one stored first. */
  function GetSession<Sess>(s: WsServer<Sess>, socketId: string, create: string -> Sess): (r: (WsServer<Sess>, Sess))
    ensures r.0.registered == s.registered && r.0.orphans == s.orphans
    ensures r.0.sessions.Keys == s.sessions.Keys + {socketId}
    ensures socketId in s.sessions ==> r.0.sessions == s.sessions && r.1 == s.sessions[socketId]
    ensures socketId !in s.sessions ==> r.1 == create(socketId) && r.0.sessions == s.sessions[socketId := r.1]
  {
    if socketId in s.sessions then (s, s.sessions[socketId])
    else
      var session := create(socketId);
      (s.(sessions := s.sessions[socketId := session]), session)
  }

  /** Asking twice for the same session yields the same session and no further change. */
  lemma GetSessionStable<Sess>(s: WsServer<Sess>, socketId: string, create: string -> Sess)
    ensures var (s1, a) := GetSession(s, socketId, create);
            GetSession(s1, socketId, create) == (s1, a)
  {
  }

  /** The wrapper each registered method runs: parameters that fail the
      method's schema throw before the handler is reached; otherwise the
      handler is called with the caller's session. */
  function HandleCall<Sess>(s: WsServer<Sess>, paramsSchema: Schema, params: Value, socketId: string,
                            create: string -> Sess): (r: Result<(WsServer<Sess>, Sess)>)
    ensures r.Err? <==> !Validate(params, paramsSchema)
    ensures r.Err? ==> r.message == InvalidParamsMessage
    ensures r.Ok? ==> socketId in r.value.0.sessions && r.value.0.sessions[socketId] == r.value.1
    ensures r.Ok? && socketId in s.sessions ==> r.value == (s, s.sessions[socketId])
  {
    if !Validate(params, paramsSchema) then Err(InvalidParamsMessage)
    else Ok(GetSession(s, socketId, create))
  }

  /** What `dispatch` hands a socket: `{ notification: "action", params: action }`. */
  datatype Notice = Notice(socketId: string, action: Value)

  /** The sessions of the sockets from `sockets[..n]` exist, the others are as they were. */
  ghost predicate SessionsAfter<Sess>(s: WsServer<Sess>, r: WsServer<Sess>, sockets: seq<string>, n: nat, create: string -> Sess)
    requires n <= |sockets|
  {
    && r.registered == s.registered && r.orphans == s.orphans
    && r.sessions.Keys == s.sessions.Keys + (set i | 0 <= i < n :: sockets[i])
    && (forall id :: id in s.sessions ==> r.sessions[id] == s.sessions[id])
    && (forall id :: id in r.sessions && id !in s.sessions ==> r.sessions[id] == create(id))
  }

  /** The notices `dispatch` should build: one for each socket whose
      session yields an action, in socket order. */
  function Expected<Sess>(sockets: seq<string>, sessions: map<string, Sess>, buildAction: Sess -> Option<Value>): (r: seq<Notice>)
    requires forall i :: 0 <= i < |sockets| ==> sockets[i] in sessions
    ensures |r| <= |sockets|
    ensures forall n :: n in r ==> n.socketId in sockets && buildAction(sessions[n.socketId]) == Some(n.action)
    ensures forall i :: 0 <= i < |sockets| && buildAction(sessions[sockets[i]]).Some? ==>
              Notice(sockets[i], buildAction(sessions[sockets[i]]).value) in r
    decreases |sockets|
  {
    if |sockets| == 0 then []
    else
      var last := sockets[|sockets| - 1];
      var front := Expected(sockets[..|sockets| - 1], sessions, buildAction);
      match buildAction(sessions[last])
      case Some(a) => front + [Notice(last, a)]
      case None => front
  }

  /** The expected notices depend only on the sessions of the listed sockets. */
  lemma {:induction false} ExpectedAgrees<Sess>(sockets: seq<string>, m1: map<string, Sess>, m2: map<string, Sess>,
                                                buildAction: Sess -> Option<Value>)
    requires forall i :: 0 <= i < |sockets| ==> sockets[i] in m1 && sockets[i] in m2 && m1[sockets[i]] == m2[sockets[i]]
    ensures Expected(sockets, m1, buildAction) == Expected(sockets, m2, buildAction)
    decreases |sockets|
  {
    if |sockets| > 0 {
      ExpectedAgrees(sockets[..|sockets| - 1], m1, m2, buildAction);
    }
  }

  /** One more socket appends its notice, if any, to the notices of the
      sockets before it. */
  lemma ExpectedStep<Sess>(sockets: seq<string>, k: nat, m1: map<string, Sess>, m2: map<string, Sess>,
                           buildAction: Sess -> Option<Value>)
    requires k < |sockets| && sockets[k] in m2
    requires forall i :: 0 <= i < k ==> sockets[i] in m1 && sockets[i] in m2 && m1[sockets[i]] == m2[sockets[i]]
    ensures Expected(sockets[..k + 1], m2, buildAction) ==
              Expected(sockets[..k], m1, buildAction) +
              (match buildAction(m2[sockets[k]]) case Some(a) => [Notice(sockets[k], a)] case None => [])
  {
    ExpectedAgrees(sockets[..k], m1, m2, buildAction);
    assert sockets[..k + 1][..k] == sockets[..k];
  }

  /** Fetching the next socket's session extends `SessionsAfter` by one
      socket and keeps the sessions already fetched. */
  lemma SessionsStep<Sess>(s: WsServer<Sess>, r: WsServer<Sess>, sockets: seq<string>, k: nat, create: string -> Sess)
    requires k < |sockets| && SessionsAfter(s, r, sockets, k, create)
    ensures var r' := GetSession(r, sockets[k], create).0;
            && SessionsAfter(s, r', sockets, k + 1, create)
            && sockets[k] in r'.sessions
            && forall id :: id in r.sessions ==> id in r'.sessions && r'.sessions[id] == r.sessions[id]
  {
    assert (set i | 0 <= i < k + 1 :: sockets[i]) == (set i | 0 <= i < k :: sockets[i]) + {sockets[k]};
  }

  /** What the expected notices say about the sockets once every socket has
      its session. */
  lemma ExpectedNotices<Sess>(sockets: seq<string>, sessions: map<string, Sess>, buildAction: Sess -> Option<Value>,
                              built: seq<Notice>)
    requires forall i :: 0 <= i < |sockets| ==> sockets[i] in sessions
    requires built == Expected(sockets, sessions, buildAction)
    ensures forall n :: n in built ==>
              n.socketId in sockets && n.socketId in sessions && buildAction(sessions[n.socketId]) == Some(n.action)
    ensures forall i :: 0 <= i < |sockets| ==>
              sockets[i] in sessions &&
              (buildAction(sessions[sockets[i]]).Some? ==> Notice(sockets[i], buildAction(sessions[sockets[i]]).value) in built)
  {
  }

  /** The loop of `dispatch(buildAction)`: every open socket, in order, gets
      its session (created if needed), and a notice is built for it from the
      action its session yields, when there is one. How the notices leave is
      `DispatchCallsAsWritten` below. */
  method Dispatch<Sess>(s: WsServer<Sess>, sockets: seq<string>, create: string -> Sess,
                        buildAction: Sess -> Option<Value>) returns (r: WsServer<Sess>, built: seq<Notice>)
    ensures SessionsAfter(s, r, sockets, |sockets|, create)
    ensures forall n :: n in built ==>
              n.socketId in sockets && n.socketId in r.sessions && buildAction(r.sessions[n.socketId]) == Some(n.action)
    ensures forall i :: 0 <= i < |sockets| ==>
              sockets[i] in r.sessions &&
              (buildAction(r.sessions[sockets[i]]).Some? ==>
                 Notice(sockets[i], buildAction(r.sessions[sockets[i]]).value) in built)
    ensures built == Expected(sockets, r.sessions, buildAction)
  {
    r := s;
    built := [];
    for k := 0 to |sockets|
      invariant SessionsAfter(s, r, sockets, k, create)
      invariant forall i :: 0 <= i < k ==> sockets[i] in r.sessions
      invariant built == Expected(sockets[..k], r.sessions, buildAction)
    {
      var p := GetSession(r, sockets[k], create);
      SessionsStep(s, r, sockets, k, create);
      ExpectedStep(sockets, k, r.sessions, p.0.sessions, buildAction);
      r := p.0;
      var action := buildAction(p.1);
      if action.Some? {
        built := built + [Notice(sockets[k], action.value)];
      }
    }
    assert sockets[..|sockets|] == sockets;
    ExpectedNotices(sockets, r.sessions, buildAction, built);
  }

  /** A call on a `ws` socket: `emit` fires a local event named by its first
      argument (the notice's JSON text) and transmits nothing; `send` writes
      the notice to the client as a frame. */
  datatype SocketCall = LocalEmit(notice: Notice) | WireSend(notice: Notice)

  /** `socket.emit(JSON.stringify(...))`, as written, for every built notice. */
  function DispatchCallsAsWritten(built: seq<Notice>): (r: seq<SocketCall>)
    ensures |r| == |built| && forall i :: 0 <= i < |r| ==> r[i] == LocalEmit(built[i])
  {
    seq(|built|, i requires 0 <= i < |built| => LocalEmit(built[i]))
  }

  /** `socket.send(JSON.stringify(...))`, the corrected call, for every built notice. */
  function DispatchCalls(built: seq<Notice>): (r: seq<SocketCall>)
    ensures |r| == |built| && forall i :: 0 <= i < |r| ==> r[i] == WireSend(built[i])
  {
    seq(|built|, i requires 0 <= i < |built| => WireSend(built[i]))
  }

  /** The notices that reach clients, in the order they were written. */
  function Transmitted(calls: seq<SocketCall>): (r: seq<Notice>)
    ensures forall n :: n in r ==> WireSend(n) in calls
    decreases |calls|
  {
    if |calls| == 0 then []
    else (if calls[0].WireSend? then [calls[0].notice] else []) + Transmitted(calls[1..])
  }

  /** As written, no dispatched action reaches any client. */
  lemma {:induction false} AsWrittenDispatchTransmitsNothing(built: seq<Notice>)
    ensures Transmitted(DispatchCallsAsWritten(built)) == []
    decreases |built|
  {
    if |built| > 0 {
      AsWrittenDispatchTransmitsNothing(built[1..]);
      assert DispatchCallsAsWritten(built)[1..] == DispatchCallsAsWritten(built[1..]);
    }
  }

  /** With `send`, every built notice reaches its client, in order. */
  lemma {:induction false} DispatchTransmitsAll(built: seq<Notice>)
    ensures Transmitted(DispatchCalls(built)) == built
    decreases |built|
  {
    if |built| > 0 {
      DispatchTransmitsAll(built[1..]);
      assert DispatchCalls(built)[1..] == DispatchCalls(built[1..]);
      assert built == [built[0]] + built[1..];
    }
  }

  /** One run of the cleanup timer, given the ids of the open sockets: a
      session whose socket has been gone since the previous run is deleted,
      one whose socket has just gone becomes an orphan. */
  function Sweep<Sess>(s: WsServer<Sess>, connected: set<string>): (r: WsServer<Sess>)
    ensures r.registered == s.registered
    ensures forall id :: id in r.sessions <==> id in s.sessions && (id in connected || id !in s.orphans)
    ensures forall id :: id in r.sessions ==> r.sessions[id] == s.sessions[id]
    ensures forall id :: id in r.orphans <==> id in s.sessions && id !in connected && id !in s.orphans
  {
    WsServer(
      s.registered,
      map id | id in s.sessions && (id in connected || id !in s.orphans) :: s.sessions[id],
      set id | id in s.sessions && id !in connected && id !in s.orphans)
  }

  /** Orphans are always sessions. */
  lemma SweepOrphansAreSessions<Sess>(s: WsServer<Sess>, connected: set<string>)
    ensures Sweep(s, connected).orphans <= Sweep(s, connected).sessions.Keys
  {
  }

  /** A session whose socket is open, or that was not yet an orphan, survives a sweep. */
  lemma SweepGrace<Sess>(s: WsServer<Sess>, connected: set<string>, id: string)
    requires id in s.sessions
    requires id in connected || id !in s.orphans
    ensures id in Sweep(s, connected).sessions
  {
  }

  /** A session whose socket stays closed across two consecutive sweeps is gone after the second. */
  lemma TwoSweepsRemove<Sess>(s: WsServer<Sess>, c1: set<string>, c2: set<string>, id: string)
    requires id !in c1 && id !in c2
    ensures id !in Sweep(Sweep(s, c1), c2).sessions
  {
    var s1 := Sweep(s, c1);
    if id in s1.sessions {
      assert id !in s.orphans;
      assert id in s1.orphans;
    }
  }
}
